=== FILE: README.md ===
# Requisition approval app: a Dafny model

This project models the logic of a small requisition-approval web application.
Employees file software requisitions, heads of department approve them, and finance
reads spending analytics. The model covers these parts:

- the analytics API and its six reports;
- the store's module-level state: the "database in use" flag, the requisition id
  counter, the mock data and the seed-if-empty rule;
- the requisition and login API handlers, both the main routes and the all-mock
  variants;
- the client-side logic: the requisitions list (filters, pagination, row actions), the
  create form (validation, editing, reset, approve), the dashboard counts, the sidebar
  navigation and the session provider.

Each component is a Dafny module of immutable datatypes and pure functions. These
conventions hold throughout:

- Money is an `int` count of paise. `DECIMAL(10,2)` and `DECIMAL(12,2)` are exact in paise.
- A rounded percentage is an `int` count of hundredths of a percent.
  `Numeric.Percent` is Postgres's `ROUND(part / whole * 100, 2)`, with halves rounded
  away from zero.
- An unrounded numeric average is an exact `real`, fixed by `Numeric.IsAverage`.
- Time is `Db.Instant(month, offset)`: a calendar month index and a position inside that
  month. `CURRENT_DATE` is a `now` parameter, and `DATE_TRUNC('month', t)` is `t.month`.
- What the database did is a parameter. `DbCall<T>` is either `Returned(value)` or
  `Threw(message)`.
- The JSON body parse is a parameter. `Parse<T>` is either `Parsed(value)` or
  `Unparsable(message)`.
- The store is the `Db.Store` record of four tables plus the next values of the two
  identity columns.
- Each SQL query is a function over sequences:
  - a join is a sequence of joined lines, so duplicate matches multiply rows as in SQL;
  - `GROUP BY` is grouping by key in order of first appearance;
  - `ORDER BY … DESC` is a stable insertion sort. Its contract promises only
    sortedness and a permutation, because ties in SQL have no defined order.
- Module-level mutable state (`isUsingDatabase`, `nextRequisitionId`,
  `mockRequisitions`, the route-mock list, the browser's storage) is passed in and
  handed back explicitly.

Modules: `Common`, `Numeric`, `Seqs`, `Sorting` and `Text` are shared helpers. `Db` is
lib/db.ts, and `Joins` holds the joins the reports share. `BudgetUtilization`,
`SoftwareCost`, `PodSpending`, `BudgetVariance`, `CategoryTrends`, `Overview` and
`AnalyticsFacade` are the analytics route. The remaining modules each stand for one
file: `RequisitionsApi`, `RequisitionsMock`, `Login`, `LoginMock`, `RequisitionsPage`,
`CreateForm`, `Dashboard`, `Sidebar` and `Auth`.

## Model

| member | source | states |
|---|---|---|
| AnalyticsFacade.KindOf | app/api/analytics/route.ts:8-48 | Each named report type selects its aggregator exactly when the parameter equals its name. An absent, empty or unrecognised parameter selects the overview. |
| AnalyticsFacade.KindNameRoundTrip | app/api/analytics/route.ts:23-47 | Sending a report's type name selects that report. |
| AnalyticsFacade.Analyse | app/api/analytics/route.ts:23-48 | The data is the selected aggregator's report over the given tables: for each of the six kinds, exactly that aggregator's result (`BudgetUtilization`, `SoftwareCost`, `PodSpending`, `BudgetVariance`, `CategoryTrends` or `Overview`), and no other kind of report. |
| AnalyticsFacade.Get | app/api/analytics/route.ts:5-67 | With the flag off, the reply is `success: false, 'Database not available'` with status 200, and no aggregator runs. A database error gives 500 'Failed to fetch analytics' with the message as details. Success happens exactly when the flag is on and the database answers, and the data is then the requested aggregator's report over the tables as seeded at the request's time (`Analyse` of the seeded store). This is the handler with the corrected overview query; `GetAsWritten` is the handler as written. |
| AnalyticsFacade.GetAsWritten | app/api/analytics/route.ts:44-67 | With the overview query as written, an overview request over tables without a `requested_by` column answers 500 'Failed to fetch analytics', with the database's message as details. Every other request gets the same reply as from `Get`. |
| AnalyticsFacade.OverviewAnswer | app/api/analytics/route.ts:44-52 | With the flag on and the database answering, an overview request returns the overview of the seeded tables. |
| AnalyticsFacade.FlagOffIgnoresRequest | app/api/analytics/route.ts:10-15 | With the flag off, the reply does not depend on the type, the database or the time. |
| AnalyticsFacade.SeededStoreAnswersAlike | app/api/analytics/route.ts:17-48 | A store that is already seeded is reported as it stands: seeding it again at request time changes nothing, because seeding is idempotent. |
| AnalyticsFacade.OverviewNeverEmpty | app/api/analytics/route.ts:17-46 | After seeding, the overview's total requisition count is positive. |
| Joins.NameMatches | app/api/analytics/route.ts:82 | The catalogue rows joined by `software = software_name` are exactly the rows whose name equals the requisition's software. A NULL on either side never matches. |
| Joins.IdMatches | app/api/analytics/route.ts:281 | The catalogue rows joined by `software_id` are exactly the rows with an equal id. |
| Joins.BudgetMatches | app/api/analytics/route.ts:83 | The budget rows joined to a POD are exactly that POD's rows. |
| Joins.LeftSide | app/api/analytics/route.ts:83 | The right side of a LEFT JOIN is every match, or one NULL row when there is none. |
| Joins.CrossLines | app/api/analytics/route.ts:81-83 | A requisition's join lines are exactly every pairing of a matching catalogue row with a budget-side row. |
| Joins.LinesFrom | app/api/analytics/route.ts:81-84 | Every join line comes from one of the given requisitions. |
| Joins.ApprovedLines | app/api/analytics/route.ts:81-84 | Every spending line is an approved stored requisition joined to a stored catalogue row with an equal name, and to a budget row of its POD or to NULL. |
| Joins.LinesFromSound | app/api/analytics/route.ts:81-84 | Lines built from stored requisitions are spending lines of the store. |
| Joins.ApprovedLinesComplete | app/api/analytics/route.ts:81-84 | Every approved requisition with a catalogue match under its software name appears among the spending lines. |
| Joins.LinesFromComplete | app/api/analytics/route.ts:81-84 | The same completeness holds for any list of requisitions. |
| Joins.LeftLinesOf | app/api/analytics/route.ts:340-341 | A requisition left-joined to the catalogue yields at least one row. Each row carries the requisition and either a name-matching catalogue row or NULL, and NULL only when nothing matches. |
| Joins.LeftLines | app/api/analytics/route.ts:340-341 | The left join keeps every requisition and has at least as many rows as requisitions. |
| BudgetUtilization.Utilization | app/api/analytics/route.ts:93-96 | The percentage is 0 when the allocation is NULL or not positive. Otherwise it is within half a hundredth of spent/allocated × 100. |
| BudgetUtilization.GroupRows | app/api/analytics/route.ts:73-98 | There is one row per group key. Each row is well formed: approved count equals total count, and remaining budget equals COALESCE(allocated, 0) − spent. |
| BudgetUtilization.Summarize | app/api/analytics/route.ts:104-110 | The summary holds Σallocated and Σspent. The average utilization is Σpercentage / row count, and undefined for zero rows. |
| BudgetUtilization.BudgetUtilization | app/api/analytics/route.ts:71-111 | The rows are, up to order, exactly the grouped rows of the spending lines: one per (POD, allocation, currency) key, carrying that key's counts, spending and utilization. They are well formed and sorted by utilization, descending. There are no rows exactly when nothing approved joins the catalogue. The summary's spent total equals the cost of all spending lines. |
| BudgetVariance.StatusOf | app/api/analytics/route.ts:235-239 | 'Over Budget' iff spent > allocated; 'On Budget' iff they are equal; 'Under Budget' iff spent < allocated. A NULL allocation gives 'Under Budget'. |
| BudgetVariance.VariancePercent | app/api/analytics/route.ts:230-234 | The percentage is 0 without a positive allocation. Otherwise it is the rounded (allocated − spent)/allocated × 100, never below 0 when under budget and never above 0 when over budget. |
| BudgetVariance.PercentSign | app/api/analytics/route.ts:232 | A rounded percentage never has the opposite sign of its part. |
| BudgetVariance.RowOfWellFormed | app/api/analytics/route.ts:229-252 | Each row's variance is allocated − spent, or 0 without a budget, and its status matches its figures. |
| BudgetVariance.GroupRows | app/api/analytics/route.ts:223-245 | There is one row per group key, computed from exactly that key's spending lines; its spending is their cost, and it is well formed whenever the key's allocation and currency are both NULL or both present. |
| BudgetVariance.KeysAgree | app/api/analytics/route.ts:83 | A key drawn from the spending lines has its allocation and currency both from one budget row, or both NULL. |
| BudgetVariance.VarianceRows | app/api/analytics/route.ts:222-256 | The rows are, up to order, exactly one row per (POD, allocation, currency) group of the spending lines, carrying that group's figures. They are well formed and sorted by variance percentage, descending, and their spending adds up to all approved spending. |
| BudgetVariance.Summarize | app/api/analytics/route.ts:260-267 | The three status counts are the counts of each status, and they add up to the row count. The total variance is Σallocated − Σ(spending of budgeted rows). |
| BudgetVariance.BudgetVariance | app/api/analytics/route.ts:221-268 | The analysis rows are, up to order, one per POD group with that group's figures, well formed and sorted by variance percentage. The summary's over, under and on-budget counts are the numbers of analysis rows with each status and add up to the row count, and its total variance is Σallocated − Σ(spending of budgeted rows) over those rows. |
| SoftwareCost.RequestsFor | app/api/analytics/route.ts:127 | The requisitions joined to a catalogue row are exactly those naming it. |
| SoftwareCost.SwLinesOf | app/api/analytics/route.ts:126-127 | A catalogue row yields at least one join row, each with a naming requisition or NULL. |
| SoftwareCost.SwLines | app/api/analytics/route.ts:126-128 | Every catalogue row appears in the left join. |
| SoftwareCost.RequestCountOfOne | app/api/analytics/route.ts:122 | `COUNT(r.id)` for a catalogue row is the number of requisitions naming it. |
| SoftwareCost.ApprovedCostOfGroup | app/api/analytics/route.ts:125 | In a group sharing one cost, the approved cost is cost × approved count. |
| SoftwareCost.RowOfWellFormed | app/api/analytics/route.ts:117-128 | Each software row has approved + pending ≤ request count and total approved cost = cost × approved count. |
| SoftwareCost.GroupRows | app/api/analytics/route.ts:116-128 | There is one well-formed row per (name, licence, cost, currency) key. |
| SoftwareCost.SoftwareRows | app/api/analytics/route.ts:116-130 | The rows are, up to order, exactly one per (name, licence, cost, currency) key of the catalogue-requisition join, each carrying that key's request counts and approved cost. They are well formed and sorted by approved cost, descending. Every catalogue entry has a row, even with no requests, and the approved costs add up over the join. |
| SoftwareCost.CatalogueCovered | app/api/analytics/route.ts:126-128 | Sorting keeps a row for every catalogue entry. |
| SoftwareCost.CategoryRowOk | app/api/analytics/route.ts:136-144 | A licence-type row's approvals are among its requests. |
| SoftwareCost.CategoryGroupRows | app/api/analytics/route.ts:136-144 | There is one row per licence type, including NULL. |
| SoftwareCost.CategoryRows | app/api/analytics/route.ts:135-146 | The rows are, up to order, exactly one per licence type of the join, each with that type's request counts, total cost and average cost (CategoryAverage). They are sorted by total cost, descending; every catalogue entry's licence type has a row, and the totals add up to the approved cost of the join. |
| SoftwareCost.CategoriesCovered | app/api/analytics/route.ts:142-144 | Sorting keeps a row for every licence type. |
| SoftwareCost.CategoryAverage | app/api/analytics/route.ts:141-143 | `AVG(s.cost)` is the mean over the left-joined rows, so it is weighted by each entry's max(1, request count). |
| SoftwareCost.InsightsOf | app/api/analytics/route.ts:153-157 | The most expensive entry is a row with the largest approved cost, and it is absent exactly when there are no rows. The unique count is the row count, and the approved total is Σ row approved cost. |
| SoftwareCost.FirstIsLargest | app/api/analytics/route.ts:129 | In the sorted rows, the first has the largest approved cost. |
| SoftwareCost.SoftwareCost | app/api/analytics/route.ts:115-158 | The report combines both row sets. The insight's approved total equals the category breakdown's total. |
| PodSpending.GroupRows | app/api/analytics/route.ts:164-187 | Row j is the row of the j-th POD key, computed over exactly the lines with that key: its POD, its spending (those lines' cost), its counts and its average. Every such row is well formed. |
| PodSpending.RowOfWellFormed | app/api/analytics/route.ts:164-187 | A POD row has total = approved requests, zero pending, and between 1 and total distinct software. Its average cost per approval is spending/approved. |
| PodSpending.CountsOfApprovedGroup | app/api/analytics/route.ts:170-186 | With `WHERE statusid = 2`, every line counts as approved and none as pending. |
| PodSpending.UniqueSoftwareBounds | app/api/analytics/route.ts:173 | `COUNT(DISTINCT p1.software)` lies between 1 and the group size. |
| PodSpending.AverageOfApprovedGroup | app/api/analytics/route.ts:174-178 | The average cost per approval is exactly spending / approved count. |
| PodSpending.PodRows | app/api/analytics/route.ts:163-190 | The rows are, up to order, exactly one per POD key of the spending lines, each carrying that group's counts, spending and average. They are well formed and sorted by spending, descending, add up to all approved spending, and are empty exactly when no spending lines exist. |
| PodSpending.TrendRequisitions | app/api/analytics/route.ts:204-205 | The trend keeps exactly the approved requisitions created within the last 6 months. |
| PodSpending.TrendGroupRows | app/api/analytics/route.ts:196-206 | There is one row per (POD, month) bucket, with the bucket's request count and its spending, where unmatched software counts 0. |
| PodSpending.MonthlyTrends | app/api/analytics/route.ts:196-208 | The rows are, up to order, exactly one per (POD, month) bucket of the six-month left join, each with that bucket's request count and spending. They are sorted by month and then by spending, descending; every qualifying requisition's bucket is present, and the spending adds up over the left join. |
| PodSpending.TrendsCover | app/api/analytics/route.ts:202-206 | Sorting keeps a row for every qualifying requisition's bucket. |
| PodSpending.PodSpending | app/api/analytics/route.ts:162-217 | The POD analysis is, up to order, one row per POD key with that key's figures, well formed and sorted by spending. `totalPODs` is the row count. The top spender is absent exactly when nothing approved joins the catalogue; otherwise it is a row with the largest spending. The trend is the monthly trend. |
| PodSpending.WithTrends | app/api/analytics/route.ts:162-217 | The same POD facts hold for the report built around any given trend rows, and those trend rows are the ones it carries. |
| PodSpending.Assemble | app/api/analytics/route.ts:212-217 | The response object: the rows, the trends, the first row as top spender, and the row count. |
| PodSpending.FirstIsLargest | app/api/analytics/route.ts:190 | In the sorted rows, the first has the largest spending. |
| CategoryTrends.IdLines | app/api/analytics/route.ts:280-282 | Each join line pairs a requisition from the window with a catalogue row of equal `software_id`. |
| CategoryTrends.IdLinesComplete | app/api/analytics/route.ts:280-282 | Every id-matching pair from the window appears in the join. |
| CategoryTrends.TrendGroupRows | app/api/analytics/route.ts:273-283 | There is one row per (licence type, month) bucket, and it is the row of exactly that bucket's lines: its monthly cost is the bucket's approved cost. |
| CategoryTrends.CategoryTrendRows | app/api/analytics/route.ts:273-284 | The rows are, up to order, exactly one per (licence type, month) bucket of the 12-month join, each with that bucket's approved cost. They are sorted by month and then by cost, descending, and their costs add up over the join. |
| CategoryTrends.MonthsOf | app/api/analytics/route.ts:306 | The months of one category's partition. |
| CategoryTrends.LatestBefore | app/api/analytics/route.ts:306 | LAG reads the latest earlier month of the same category, and there is none exactly when no earlier month exists. |
| CategoryTrends.GrowthRate | app/api/analytics/route.ts:312-315 | The growth is 0 when previous spend is 0 or less. Otherwise it is the rounded (s − p)/p × 100: 0 for equal spends and 100% for a doubling. |
| CategoryTrends.GrowthExample | app/api/analytics/route.ts:313 | 150.00 after 100.00 is a growth of 50.00%. |
| CategoryTrends.Growths | app/api/analytics/route.ts:302-317 | Each growth row compares its bucket with the latest earlier bucket of its category. Every bucket that has one gets a row. |
| CategoryTrends.GrowthsCount | app/api/analytics/route.ts:317 | There is one growth row per bucket with an earlier bucket of its category, and no other (the NULL-LAG rows are dropped). |
| CategoryTrends.GrowthOkMeans | app/api/analytics/route.ts:306 | The compared bucket is earlier, of the same category, and no other earlier bucket of it is later. |
| CategoryTrends.HasPreviousIff | app/api/analytics/route.ts:306-317 | A bucket gets a growth row iff its category has an earlier month in the window, so each category's earliest month never appears. |
| CategoryTrends.Project | app/api/analytics/route.ts:310-315 | The output rows are exactly (category, growth rate), in order. |
| CategoryTrends.GrowthBuckets | app/api/analytics/route.ts:291-300 | The 3-month buckets are distinct. |
| CategoryTrends.GrowthRates | app/api/analytics/route.ts:290-318 | The growth rows are sorted by rate, descending, and there are exactly as many as buckets with a predecessor. Each is correct for its bucket, and every bucket with a predecessor is covered. |
| CategoryTrends.GrowthsSorted | app/api/analytics/route.ts:318 | Sorting preserves correctness and coverage of the growth rows. |
| CategoryTrends.ProjectedGrowths | app/api/analytics/route.ts:310-318 | Dropping the bucket months keeps the rows in descending rate order, and each row is still the growth of some bucket of its category. |
| CategoryTrends.CategoryTrends | app/api/analytics/route.ts:272-326 | The trend rows are one per (licence type, month) bucket with its cost, well formed and sorted by month then cost. The growth rows are exactly the `GrowthRates` rows, in the same order, with the two month columns dropped. So they are as many as the buckets of the three-month window with an earlier bucket of their category, highest rate first, and each is the growth of such a bucket against the latest earlier one. |
| Overview.Named | app/api/analytics/route.ts:338 | The non-NULL software names of the joined rows, and only those. |
| Overview.Pods | app/api/analytics/route.ts:337 | `COUNT(DISTINCT r.pod)` counts a duplicate-free list of exactly the rows' PODs. |
| Overview.SoftwareNames | app/api/analytics/route.ts:338 | `COUNT(DISTINCT r.software)` counts a duplicate-free list of exactly the rows' non-NULL software names. |
| Overview.PodsOfRequisitions | app/api/analytics/route.ts:337-341 | The PODs counted are exactly the requisitions' PODs. |
| Overview.OverviewStats | app/api/analytics/route.ts:332-342 | The total is the number of left-join rows, and the approved and pending counts are the numbers of those rows with status 2 and 1; together they are at most the total, and the total is at least the number of requisitions. The POD and software counts are the distinct counts, and the approved cost sums over the left join. |
| Overview.AtMostOneMatch | app/api/analytics/route.ts:340-341 | With unique catalogue names, a requisition matches at most one catalogue row. |
| Overview.NoMatches | app/api/analytics/route.ts:341 | Without a matching name, the join finds nothing. |
| Overview.OneRowPerRequisition | app/api/analytics/route.ts:334-341 | With unique catalogue names, `COUNT(r.id)` is exactly the number of requisitions. |
| Overview.GroupCountIsSize | app/api/analytics/route.ts:350 | `COUNT(*)` of a currency group is its size. |
| Overview.Groups | app/api/analytics/route.ts:347-354 | Each currency's row has that currency's budget count and allocated sum. |
| Overview.BudgetSummary | app/api/analytics/route.ts:347-354 | There is exactly one row per currency present, and each row's count and allocation are the number and the sum of that currency's budgets. The counts add up to the budget count, and the sums to the total allocation. |
| Overview.GroupsByCurrency | app/api/analytics/route.ts:347-354 | A currency's row holds the count and the allocation sum of exactly that currency's budgets. |
| Overview.StatusLabel | app/api/analytics/route.ts:370-375 | 1 ↦ Pending, 2 ↦ Approved, 3 ↦ Rejected, and anything else ↦ Unknown, each as an iff. |
| Overview.RecentRowDefaults | app/api/analytics/route.ts:368-369 | A row without a catalogue match shows cost 0 and currency 'INR'. |
| Overview.NewestLines | app/api/analytics/route.ts:376-379 | The newest min(5, n) join rows, newest first, each taken at most as often as it occurs. No row left out is newer than the last one kept. |
| Overview.ShapedPrefix | app/api/analytics/route.ts:376-379 | The rows shaped from the newest lines occur among the rows shaped from all join lines, each at most as often. |
| Overview.Shape | app/api/analytics/route.ts:360-375 | The rows are shaped one-to-one and keep the newest-first order. |
| Overview.RecentRequisitions | app/api/analytics/route.ts:359-380 | There are min(5, n) rows for n join rows, so exactly 5 when the store has 5 or more. They are shaped join rows, each used at most as often as it occurs, newest first, and no join row left out is newer than the last one shown. Each is labelled by its status and comes from a stored requisition. |
| Overview.RowsFromStore | app/api/analytics/route.ts:376-377 | Every recent row shows a stored requisition. |
| Overview.NewestShaped | app/api/analytics/route.ts:376-379 | A join row whose shaped row is not shown is no newer than the last row shown. |
| Overview.Overview | app/api/analytics/route.ts:330-391 | The statistics are the counts and sums of the left join; the budget summary has one row per currency with that currency's count and sum; the recent rows are the newest min(5, n) shaped join rows, newest first. The recent-requisitions query is the corrected one (see Findings). |
| Overview.OverviewAsWritten | app/api/analytics/route.ts:359-382 | The overview as written: it throws unless `pg_requisitions` has a `requested_by` column. |
| Db.MonthsBefore | app/api/analytics/route.ts:204 | `t - INTERVAL 'k months'` keeps the position and moves k months back. |
| Db.GetNextId | lib/db.ts:87-89 | Returns the current counter and leaves it one higher. |
| Db.IssueIds | lib/db.ts:87-89 | n calls return n ids. |
| Db.IssueIdsConsecutive | lib/db.ts:87-89 | Successive ids are c, c+1, …, and the counter ends n higher. |
| Db.IssuedIdsIncrease | lib/db.ts:87-89 | Issued ids strictly increase, so none repeats. |
| Db.IssuedIdsAreFresh | lib/db.ts:21-69 | Starting from 4, every issued id is above every seeded mock id (1..3). |
| Db.FlagReadsLastWrite | lib/db.ts:83-97 | `getDatabaseStatus` returns the last value set, or true when none was set. |
| Db.MockRequisitions | lib/db.ts:21-67 | There are three mock requisitions, with ids 1, 2 and 3. |
| Db.MockRequisitionsPending | lib/db.ts:31-63 | Every mock requisition is pending, with no approver and no approval date. |
| Db.SeedSoftwares | lib/db.ts:263-322 | The eight seeded catalogue rows, all named, with consecutive identity values. |
| Db.SeedRequisitions | lib/db.ts:325-363 | The three seeded requisitions, with consecutive serial ids. |
| Db.InitializeDatabase | lib/db.ts:100-370 | Each table is seeded only when it is empty (for the catalogue, when no row has a software name), and is otherwise left as is. Afterwards every table is non-empty. |
| Db.InitializeIdempotent | lib/db.ts:116-326 | A second initialisation, at any time, changes nothing. |
| RequisitionsApi.ViewRoundTrip | app/api/requisitions/route.ts:70-83 | The renaming transform loses nothing: mapping back restores the record. |
| RequisitionsApi.ToViews | app/api/requisitions/route.ts:70-83 | The transform keeps the count and the order, renaming each record. |
| RequisitionsApi.ToViewsInjective | app/api/requisitions/route.ts:70-83 | Lists with equal software ids and equal views are equal. |
| RequisitionsApi.Visible | app/api/requisitions/route.ts:62-67 | When the lower-cased role is 'employee' and an email is given, the result is exactly the records with that email (case-sensitive), in order. Otherwise it is all records. |
| RequisitionsApi.NewRequisition | app/api/requisitions/route.ts:158-171 | A new record is pending, with no approver or approval date, the given id and creation time, and the submitted software. |
| RequisitionsApi.FlagAfterCall | app/api/requisitions/route.ts:54-57 | The flag stays set iff it was set and the database answered. |
| RequisitionsApi.Get | app/api/requisitions/route.ts:5-100 | The reply is 200 with a list. With the database, it lists, up to order, exactly the visible rows of the seeded tables, renamed, newest first. When the database throws, the flag is cleared and the mock list is served, filtered and renamed. An employee only ever sees their own rows. |
| RequisitionsApi.SortedViews | app/api/requisitions/route.ts:43-50 | Renaming a newest-first rearrangement of the rows gives the renamed rows, rearranged and newest first. |
| RequisitionsApi.OwnRowsStayOwn | app/api/requisitions/route.ts:38-43 | Ordering by creation time keeps the email filter's guarantee. |
| RequisitionsApi.Post | app/api/requisitions/route.ts:103-202 | A bad body gives 500. A missing field gives 400 'Missing required fields' with nothing changed. Otherwise the reply is 201: the row is inserted into the seeded tables, or, on the mock path, exactly one pending record with id `getNextId()` is appended. The row in the reply is the created record: its id is the seeded table's next serial on the database path and the counter's next id on the mock path. The flag is never set again. |
| RequisitionsApi.BootInvariant | lib/db.ts:21-69 | At load, the mock ids are distinct and below the counter. |
| RequisitionsApi.HandleKeepsInvariant | app/api/requisitions/route.ts:151-173 | Each request keeps the mock ids distinct and below the counter, and never sets the flag. |
| RequisitionsApi.ServeKeepsInvariant | app/api/requisitions/route.ts:54-173 | Over any run of requests, the mock ids stay distinct, and a cleared flag stays cleared. |
| RequisitionsMock.SeedStatuses | app/api/requisitions/route-mock.ts:4-57 | Only the second seed is approved, and it is the only one with an approver (Mike Johnson). |
| RequisitionsMock.MainRouteDemandsMore | app/api/requisitions/route-mock.ts:82-92 | This variant requires five fields, not software. A body the main route accepts is accepted here, and a body lacking only software is accepted here but not there. |
| RequisitionsMock.Get | app/api/requisitions/route-mock.ts:60-65 | Returns the stored list unchanged, with status 200. |
| RequisitionsMock.Post | app/api/requisitions/route-mock.ts:79-123 | A bad body gives 500 and a missing field gives 400, with the list unchanged. Otherwise one record is appended at the end, with id `String(length+1)`, the body's name, employee id, email, department and purpose, status 1, no approver or approval date, and both timestamps the current time. |
| RequisitionsMock.SeedsByPosition | app/api/requisitions/route-mock.ts:4-57 | The seed at index i has id `String(i+1)`. |
| RequisitionsMock.PostKeepsIdsByPosition | app/api/requisitions/route-mock.ts:94-108 | Every POST keeps the id-by-position invariant. |
| RequisitionsMock.IdsDistinct | app/api/requisitions/route-mock.ts:95 | Under the invariant, ids are distinct. |
| RequisitionsMock.PostsKeepIdsDistinct | app/api/requisitions/route-mock.ts:4-108 | After any sequence of POSTs from the seeds, ids are by position and distinct. |
| Login.Find | app/api/login/route.ts:74 | Finds the first user whose email and password both match exactly, or none exactly when no user matches. |
| Login.Lookup | app/api/login/route.ts:41-95 | The reply is 401 'Invalid email or password' exactly when no user matches. Otherwise it is 200 with the given message, and the account shows the first matching user's id, email, name and role. |
| Login.Post | app/api/login/route.ts:5-107 | A bad body gives 500. A missing email or password gives 400 with the flag unchanged. Otherwise the credentials are checked against the database's users while the flag is set and the database answers, else against the mock users: the reply is 200 exactly when some user matches, with that first matching user's account, and 401 'Invalid email or password' otherwise. The message is 'Login successful' exactly on the database path. The flag stays set iff it was set and either no lookup was attempted or the database answered. A mock-path success always carries an employee id. |
| Login.MockLoginsReportDefaultId | app/api/login/route.ts:86-95 | A mock login reports employee id 'EMP001'. |
| Login.MockUsersLogIn | app/api/login/route.ts:74-96 | Both mock users log in with their passwords once the flag is off. |
| Login.EmailCaseMatters | app/api/login/route.ts:74 | The main route's mock lookup is case-sensitive on email. |
| Login.PostAsWritten | app/api/login/route.ts:29-39 | The login as written: without an `employeeid` column in `pg_users`, the query throws. |
| Login.LoginAsWrittenClearsFlag | app/api/login/route.ts:67-70 | As written, any login attempt on a healthy database clears the flag. The corrected query keeps it. |
| LoginMock.Find | app/api/login/route-mock.ts:37-40 | Finds the first user whose email matches case-insensitively and whose password matches exactly. |
| LoginMock.Post | app/api/login/route-mock.ts:21-74 | 500 for a bad body, 400 for a missing email or password, 401 with no match. With both given, the login succeeds exactly when some user matches. Success is 200 with the message 'Login successful' and the first matching user's id, email, name and role. |
| LoginMock.EmailCaseIgnored | app/api/login/route-mock.ts:38 | 'JOHN@Company.com' logs in as John. |
| LoginMock.PasswordCaseMatters | app/api/login/route-mock.ts:39 | A password in the wrong letter case is refused. |
| LoginMock.AcceptsWhatMainRouteAccepts | app/api/login/route-mock.ts:37-40 | Every login the main route's lookup accepts, this one accepts as the same user. |
| RequisitionsPage.ApplyFilters | app/requisitions/page.tsx:50-70 | The result is an order-preserving subsequence: every kept row passes every filter, and every passing row is kept. The page resets to 1. |
| RequisitionsPage.StatusFilterKeeps | app/requisitions/page.tsx:59-61 | 'pending' keeps only status 1, 'approved' only status 2, and any other non-empty value keeps nothing. |
| RequisitionsPage.ClearFilters | app/requisitions/page.tsx:76-87 | All eight filters become '' and nothing else changes. |
| RequisitionsPage.EmptyFilterPasses | app/requisitions/page.tsx:53-56 | An empty text filter passes every field. |
| RequisitionsPage.ClearedShowsAll | app/requisitions/page.tsx:46-87 | After clearing, filtering shows all rows. |
| RequisitionsPage.TotalPages | app/requisitions/page.tsx:130 | `ceil(n/10)`: the least t with 10t ≥ n, and 0 iff n = 0. |
| RequisitionsPage.SliceIndex | app/requisitions/page.tsx:133 | JavaScript's slice index rule clamps into [0, n] and keeps in-range indices. |
| RequisitionsPage.Slice | app/requisitions/page.tsx:133 | The slice is a contiguous window of the list, no longer than end − start. |
| RequisitionsPage.PageRows | app/requisitions/page.tsx:131-133 | Page p shows at most 10 rows, the ones at (p−1)·10 + k. |
| RequisitionsPage.PagesUpToPrefix | app/requisitions/page.tsx:130-133 | Pages 1..k together are the first min(10k, n) rows. |
| RequisitionsPage.PagesCoverRows | app/requisitions/page.tsx:130-133 | Pages 1..totalPages, in order, are exactly the filtered rows. |
| RequisitionsPage.GoToPage | app/requisitions/page.tsx:135-137 | The result is clamped into [1, totalPages], is 1 when there are no pages, and is unchanged when already in range. |
| RequisitionsPage.GoToPageIdempotent | app/requisitions/page.tsx:135-137 | Going to the page reached changes nothing. |
| RequisitionsPage.PageButtons | app/requisitions/page.tsx:474-476 | At most min(5, totalPages) buttons are shown, numbered consecutively from max(1, current−2), none past the last page, and including the current page. |
| RequisitionsPage.StatusBadge | app/requisitions/page.tsx:404-410 | 'Approved' iff status 2, 'Pending' iff status 1, and 'Unknown' otherwise. |
| RequisitionsPage.ActionsExclusive | app/requisitions/page.tsx:418-433 | Edit (an employee, case-insensitively) and Approve (role exactly 'hod') are never both offered, and only on pending rows. |
| CreateForm.MatchesEmail | app/requisition/create/page.tsx:148 | Accepts exactly the strings `^[^\s@]+@[^\s@]+\.[^\s@]+$` accepts: one '@' with a non-empty part before it, no white space, and a '.' in the domain with a character on each side. |
| CreateForm.NoSplit | app/requisition/create/page.tsx:148 | No '@', a leading '@', a second '@' or any white space means no match. |
| CreateForm.BlankIsNoEmail | app/requisition/create/page.tsx:148 | A white-space-only string never matches. |
| CreateForm.Set | app/requisition/create/page.tsx:123 | Setting a field changes it and no other field. |
| CreateForm.RequiredErrors | app/requisition/create/page.tsx:140-145 | A field has the required message iff it is missing. Missing means blank after trim, or empty for the department. |
| CreateForm.ValidateForm | app/requisition/create/page.tsx:137-153 | The form is valid iff the error map is empty, iff no field is missing and the email matches the pattern. A non-empty malformed email gets 'Please enter a valid email address' in place of the required message. |
| CreateForm.BlankEmailReportsInvalid | app/requisition/create/page.tsx:142-149 | A white-space-only email is both missing and malformed, so the invalid-email message is the one shown. |
| CreateForm.HandleInputChange | app/requisition/create/page.tsx:121-128 | Only the named field changes. That field's message, if set, becomes ''. Other messages and the set of keys stay. |
| CreateForm.HandleReset | app/requisition/create/page.tsx:202-212 | All six fields become '' and the error map becomes empty. |
| CreateForm.ResetFormMissesEverything | app/requisition/create/page.tsx:137-146 | A reset form is missing every field. |
| CreateForm.HandleApprove | app/requisition/create/page.tsx:214-228 | Nothing is sent without a user name and an edit id. Otherwise the request sets status 2, approved by the user's name. |
| Dashboard.FetchStats | app/dashboard/page.tsx:40-49 | On success, total = row count, approved = rows with status 2, pending = rows with status 1, and approved + pending ≤ total. On failure the stats are unchanged. |
| Dashboard.RejectedFillTheGap | app/dashboard/page.tsx:42-46 | Status-3 rows are counted only in the total, and they are exactly the gap. |
| Dashboard.EmployeeTotalIsOwnCount | app/dashboard/page.tsx:28-42 | On the mock path, an employee's total is the number of their own requisitions. |
| Sidebar.NavigationForRole | app/components/Sidebar.tsx:40-64 | Comparing lower-cased: finance gets [Analytics]; employee gets [Dashboard, Create Requisition, View Requisitions]; any other role gets [Dashboard, View Requisitions]. |
| Sidebar.NavigationByRole | app/components/Sidebar.tsx:40-64 | Analytics appears iff the role is finance, and Create iff the role is employee. Every role gets a link. |
| Sidebar.HodGetsBaseNavigation | app/components/Sidebar.tsx:57-63 | 'hod', in any letter case, gets the base navigation. |
| Sidebar.StoredRole | app/components/Sidebar.tsx:69-77 | The stored role is the 'userRole' key when it is non-empty, else ''. |
| Sidebar.EffectiveRole | app/components/Sidebar.tsx:80 | The user's role when it is non-empty, else the stored role. |
| Sidebar.LoginAgrees | app/components/Sidebar.tsx:80 | After a login, the user's role and the stored role give the same links. |
| Auth.Mount | app/components/AuthProvider.tsx:37-47 | After mount, loading is over. A stored user is restored and its role stored again; without one, nothing changes. |
| Auth.Login | app/components/AuthProvider.tsx:60-64 | Sets the user and stores it and its role. |
| Auth.Logout | app/components/AuthProvider.tsx:66-71 | Clears the user and both keys, and navigates to /login. |
| Auth.Redirect | app/components/AuthProvider.tsx:49-58 | No redirect while loading. With no user off /login, go to /login; with a user on /login, go to /dashboard; a redirect never targets the current path. |
| Auth.RedirectSettles | app/components/AuthProvider.tsx:49-58 | Following a redirect never triggers another. |
| Auth.StorageRoundTrip | app/components/AuthProvider.tsx:37-71 | A reload after login restores that user; a reload after logout restores none. |
| Auth.LoginAndLogoutRedirect | app/components/AuthProvider.tsx:49-71 | Logging in on /login leads to /dashboard; logging out elsewhere leads to /login. |
| Auth.UseAuth | app/components/AuthProvider.tsx:23-29 | Outside a provider it throws 'useAuth must be used within an AuthProvider'; inside, it returns the provider's state. |

## Left out

- I/O is not modelled: connection pooling, `client.release()`, the DDL and ALTER statements, logging and `alert`. The store is an immutable record, and each database call is a `DbCall` parameter.
- Floating point is not modelled. `parseFloat` sums in the summaries are exact integer sums in paise; the average utilization is an exact `real`.
- Clock and dates are parameters. `new Date()`, `CURRENT_DATE` and `toISOString` are passed in. The date filters on the requisitions page take the browser's `toLocaleDateString` as a function parameter (`localDate`).
- Letter case is ASCII only: `Text.ToLower` lower-cases A–Z. JavaScript's full Unicode case mapping is not modelled.
- The analytics GET's 500 path for errors after `pool.connect` is modelled as the `Threw` store outcome; no other errors (a failed JSON serialisation, say) are modelled.
- Only string-valued request bodies are modelled. JSON values of other types in the body (a number for `fullName`, say) are not.
- The catalogue seed on a fresh table is modelled as succeeding. `pg_softwares` is created with a `name VARCHAR NOT NULL` column that the seed INSERT (lib/db.ts:318) does not fill, and `initializeDatabase` swallows the error (lib/db.ts:365).
- Postgres `numeric` division inside a group (`SUM(p2.cost) / COUNT(...)`, `AVG`) keeps more digits than shown. The model uses exact `real` values.
- `handleDepartmentChange` (app/requisition/create/page.tsx:130-135) is `HandleInputChange` on the department field, and is not modelled separately.
- Network calls from the pages are not modelled. `handleSubmit` and the list page's own `handleApprove` are `fetch` calls, and `fetchRequisitions` only stores what the API returned. The model covers the approve guard and the request body (`CreateForm.HandleApprove`) and the counting over the returned rows (`Dashboard.FetchStats`).
- Storage serialisation is taken as exact. `localStorage` holds `JSON.stringify(user)`, and parsing it back is modelled as giving the same user.
- The other API routes (`[id]`, approve, softwares, test and debug routes) and the analytics and layout pages are not part of this model.
- Db.MonthsBefore: `CURRENT_DATE - INTERVAL 'k months'` is modelled as the same position k months back. Postgres clamps a day past the end of the target month to its last day (2024-08-31 minus 6 months is 2024-02-29), so near month ends the model's window bound lies later than Postgres's. A calendar with month lengths is not modelled. The 6-month window of MonthlyTrends and the 12- and 3-month windows of CategoryTrends inherit this.
- CategoryAverage: every catalogue cost is taken as present. lib/db.ts:255 adds `cost` with no default, so rows created before that ALTER have NULL cost. `AVG(s.cost)` skips those, and the cost sums add nothing for them; the model averages and sums every row's cost. SQL NULL is modelled for the name and licence type only.
- AnalyticsFacade.Get: answers the overview request with the corrected recent-requisitions query (see Findings). As written, the handler answers that request with 500 over tables created by `initializeDatabase`, so its success is not "whenever the flag is on and the database answers". `AnalyticsFacade.GetAsWritten` models the handler as written.
- The client-side user's `id` is a number, as app/components/AuthProvider.tsx:7 declares. The login routes return the account id as a string (`userid`). TypeScript does not check this at run time. The login page that hands the account to `login` is not part of this model, so `Auth.User` keeps the declared type.
- BudgetUtilization.Utilization: states the rounding as a half-hundredth bound, not the exact half-away-from-zero choice (that is in `Numeric.Percent`).

## Findings

| source | as written | input that shows it | evidently intended | confidence | as-written member | corrected member |
|---|---|---|---|---|---|---|
| app/api/analytics/route.ts:365 | The recent-requisitions query selects `r.requested_by`, a column the `pg_requisitions` table created in lib/db.ts:145-158 does not have and no insert writes. | Any overview request against tables created by `initializeDatabase`: the query fails, and the route returns 500 'Failed to fetch analytics'. | Select only existing columns, so the overview returns the five newest requisitions. | not executed | Overview.OverviewAsWritten | Overview.RecentRequisitions |
| app/api/login/route.ts:35 | The login query selects `employeeid` from `pg_users`, which lib/db.ts:105-112 creates without that column. | Any login attempt with email and password while the flag is set: the query throws, the catch clears the flag (route.ts:67-70), and from then on the requisitions and login routes serve mock data while the analytics route answers 'Database not available'. | Select existing columns, so a login against a healthy database keeps the database in use. | not executed | Login.LoginAsWrittenClearsFlag | Login.Post |

=== FILE: analytics_facade.dfy ===
/** The GET handler of app/api/analytics/route.ts: choose a report from the `type`
    query parameter, refuse when the "database in use" flag is off, otherwise seed
    the tables if empty, compute the report, and wrap it in the response envelope. */
module AnalyticsFacade {
  import opened Common
  import opened Db
  import BudgetUtilization
  import SoftwareCost
  import PodSpending
  import BudgetVariance
  import CategoryTrends
  import Overview

  /** The six analyses the handler can dispatch to. */
  datatype Kind = UtilizationKind | SoftwareCostKind | PodSpendingKind
                | VarianceKind | CategoryTrendsKind | OverviewKind

  /** The `type` value that selects each analysis. */
  function KindName(k: Kind): string {
    match k
    case UtilizationKind => "budget-utilization"
    case SoftwareCostKind => "software-cost-analysis"
    case PodSpendingKind => "pod-spending"
    case VarianceKind => "budget-variance"
    case CategoryTrendsKind => "software-category-trends"
    case OverviewKind => "overview"
  }

  /** `searchParams.get('type') || 'overview'` followed by the switch: a missing or
      empty parameter, and any value the switch does not name, selects the overview. */
  function KindOf(param: Option<string>): (k: Kind)
    ensures forall j: Kind :: j != OverviewKind ==> (k == j <==> param == Some(KindName(j)))
    ensures !Truthy(param) ==> k == OverviewKind
  {
    var t := if Truthy(param) then param.value else "overview";
    if t == KindName(UtilizationKind) then UtilizationKind
    else if t == KindName(SoftwareCostKind) then SoftwareCostKind
    else if t == KindName(PodSpendingKind) then PodSpendingKind
    else if t == KindName(VarianceKind) then VarianceKind
    else if t == KindName(CategoryTrendsKind) then CategoryTrendsKind
    else OverviewKind
  }

  /** Each analysis's own name selects it: the names are told apart by the switch. */
  lemma KindNameRoundTrip(k: Kind)
    ensures KindOf(Some(KindName(k))) == k
  {
  }

  /** The `data` member of a successful response: one of the six reports. */
  datatype Data =
    | UtilizationData(utilization: BudgetUtilization.Report)
    | SoftwareCostData(softwareCost: SoftwareCost.Report)
    | PodSpendingData(podSpending: PodSpending.Report)
    | VarianceData(variance: BudgetVariance.Report)
    | CategoryTrendsData(categoryTrends: CategoryTrends.Report)
    | OverviewData(overview: Overview.Report)

  /** Whether a report is the one the analysis `k` produces. */
  predicate Answers(d: Data, k: Kind) {
    (d.UtilizationData? <==> k == UtilizationKind)
    && (d.SoftwareCostData? <==> k == SoftwareCostKind)
    && (d.PodSpendingData? <==> k == PodSpendingKind)
    && (d.VarianceData? <==> k == VarianceKind)
    && (d.CategoryTrendsData? <==> k == CategoryTrendsKind)
    && (d.OverviewData? <==> k == OverviewKind)
  }

  /** The JSON body `{ success, data }` or `{ success: false, error, details? }`. */
  datatype Body = Success(data: Data) | Failure(error: string, details: Option<string>)

  datatype Response = Response(status: int, body: Body)

  const NotAvailable: string := "Database not available"
  const FetchFailed: string := "Failed to fetch analytics"

  /** The chosen analysis over a store whose tables have been seeded. */
  function Analyse(k: Kind, st: Store, now: Instant): (d: Data)
    ensures Answers(d, k)
    ensures k == UtilizationKind ==> d.utilization == BudgetUtilization.BudgetUtilization(st)
    ensures k == SoftwareCostKind ==> d.softwareCost == SoftwareCost.SoftwareCost(st)
    ensures k == PodSpendingKind ==> d.podSpending == PodSpending.PodSpending(st, now)
    ensures k == VarianceKind ==> d.variance == BudgetVariance.BudgetVariance(st)
    ensures k == CategoryTrendsKind ==> d.categoryTrends == CategoryTrends.CategoryTrends(st, now)
    ensures k == OverviewKind ==> d.overview == Overview.Overview(st)
  {
    match k
    case UtilizationKind => UtilizationData(BudgetUtilization.BudgetUtilization(st))
    case SoftwareCostKind => SoftwareCostData(SoftwareCost.SoftwareCost(st))
    case PodSpendingKind => PodSpendingData(PodSpending.PodSpending(st, now))
    case VarianceKind => VarianceData(BudgetVariance.BudgetVariance(st))
    case CategoryTrendsKind => CategoryTrendsData(CategoryTrends.CategoryTrends(st, now))
    case OverviewKind => OverviewData(Overview.Overview(st))
  }

  /** The handler. `store` is what connecting to the database and running the seed and
      report queries did: returned the tables as they stand, or threw an error. */
  function Get(param: Option<string>, flag: StoreFlag, store: DbCall<Store>, now: Instant): (r: Response)
    ensures !GetDatabaseStatus(flag) ==> r == Response(200, Failure(NotAvailable, None))
    ensures GetDatabaseStatus(flag) && store.Threw? ==>
      r == Response(500, Failure(FetchFailed, Some(store.message)))
    ensures r.body.Success? <==> GetDatabaseStatus(flag) && store.Returned?
    ensures r.body.Success? ==> r.status == 200 && Answers(r.body.data, KindOf(param))
    ensures r.body.Success? ==> r.body.data == Analyse(KindOf(param), InitializeDatabase(store.value, now), now)
  {
    if !GetDatabaseStatus(flag) then Response(200, Failure(NotAvailable, None))
    else match store
      case Threw(msg) => Response(500, Failure(FetchFailed, Some(msg)))
      case Returned(st) => Response(200, Success(Analyse(KindOf(param), InitializeDatabase(st, now), now)))
  }

  /** The handler with the overview's recent-requisitions query as written: unless the
      requisitions table has a `requested_by` column, which `initializeDatabase` does
      not create, the overview request fails, and the catch answers 500 with the
      database's message. Every other request is answered as by `Get`. */
  function GetAsWritten(param: Option<string>, flag: StoreFlag, store: DbCall<Store>, now: Instant,
                        tableHasRequestedBy: bool): (r: Response)
    ensures KindOf(param) != OverviewKind || tableHasRequestedBy ==> r == Get(param, flag, store, now)
    ensures KindOf(param) == OverviewKind && !tableHasRequestedBy && GetDatabaseStatus(flag) && store.Returned? ==>
      r == Response(500, Failure(FetchFailed, Some(Overview.RequestedByMissing)))
  {
    if KindOf(param) == OverviewKind && GetDatabaseStatus(flag) && store.Returned? then
      OverviewAnswer(param, flag, store.value, now);
      match Overview.OverviewAsWritten(InitializeDatabase(store.value, now), tableHasRequestedBy)
      case Threw(msg) => Response(500, Failure(FetchFailed, Some(msg)))
      case Returned(report) => Response(200, Success(OverviewData(report)))
    else Get(param, flag, store, now)
  }

  /** A successful overview request answers the overview of the seeded tables. */
  lemma OverviewAnswer(param: Option<string>, flag: StoreFlag, st: Store, now: Instant)
    requires KindOf(param) == OverviewKind && GetDatabaseStatus(flag)
    ensures Get(param, flag, Returned(st), now)
         == Response(200, Success(OverviewData(Overview.Overview(InitializeDatabase(st, now)))))
  {
  }

  /** With the flag off the handler answers the same whatever the request and the
      database: it never connects. */
  lemma FlagOffIgnoresRequest(p1: Option<string>, p2: Option<string>, flag: StoreFlag,
                               s1: DbCall<Store>, s2: DbCall<Store>, n1: Instant, n2: Instant)
    requires !GetDatabaseStatus(flag)
    ensures Get(p1, flag, s1, n1) == Get(p2, flag, s2, n2)
  {
  }

  /** The report is computed over the seeded tables: a database already seeded (at any
      earlier moment) gives the same answer as the raw tables seeded at that moment. */
  lemma SeededStoreAnswersAlike(param: Option<string>, flag: StoreFlag, st: Store, seededAt: Instant, now: Instant)
    requires GetDatabaseStatus(flag)
    ensures Get(param, flag, Returned(InitializeDatabase(st, seededAt)), now).body
         == Success(Analyse(KindOf(param), InitializeDatabase(st, seededAt), now))
  {
    InitializeIdempotent(st, seededAt, now);
  }

  /** Whatever the state of the tables, a successful overview counts at least one
      requisition: the seed fills an empty requisitions table. */
  lemma OverviewNeverEmpty(param: Option<string>, flag: StoreFlag, st: Store, now: Instant)
    requires GetDatabaseStatus(flag) && KindOf(param) == OverviewKind
    ensures Get(param, flag, Returned(st), now).body.data.overview.overview.totalRequisitions > 0
  {
    var seeded := InitializeDatabase(st, now);
    assert |seeded.requisitions| > 0;
  }
}

=== FILE: auth.dfy ===
/** app/components/AuthProvider.tsx: the signed-in user kept in the browser's storage,
    restored when the provider mounts, the redirect rule between the login page and
    the rest of the application, and the `useAuth` guard. */
module Auth {
  import opened Common

  /** The user object the client keeps. */
  datatype User = User(id: int, email: string, name: string, role: string, employeeId: Option<string>)

  /** The two storage keys the provider uses: 'user' (the user, serialised) and
      'userRole'. Serialising and parsing back are taken to be exact. */
  datatype Storage = Storage(user: Option<User>, userRole: Option<string>)

  /** The provider's state. */
  datatype Session = Session(user: Option<User>, isLoading: bool, storage: Storage)

  /** Before the mount effect has run. */
  function Initial(storage: Storage): Session {
    Session(None, true, storage)
  }

  /** The mount effect: restore a stored user (and store its role again), then stop loading. */
  function Mount(s: Session): (t: Session)
    ensures !t.isLoading
    ensures s.storage.user.Some? ==> t.user == s.storage.user
    ensures s.storage.user.None? ==> t.user == s.user
    ensures s.storage.user.Some? ==> t.storage == Storage(s.storage.user, Some(s.storage.user.value.role))
    ensures s.storage.user.None? ==> t.storage == s.storage
  {
    match s.storage.user
    case Some(u) => Session(Some(u), false, Storage(Some(u), Some(u.role)))
    case None => s.(isLoading := false)
  }

  /** `login`: set the user and store it and its role. */
  function Login(s: Session, u: User): (t: Session)
    ensures t.user == Some(u) && t.isLoading == s.isLoading
    ensures t.storage == Storage(Some(u), Some(u.role))
  {
    Session(Some(u), s.isLoading, Storage(Some(u), Some(u.role)))
  }

  const LoginPath: string := "/login"
  const DashboardPath: string := "/dashboard"

  /** `logout`: clear the user and both keys, and go to the login page. */
  function Logout(s: Session): (r: (Session, string))
    ensures r.0.user.None? && r.0.storage == Storage(None, None) && r.0.isLoading == s.isLoading
    ensures r.1 == LoginPath
  {
    (Session(None, s.isLoading, Storage(None, None)), LoginPath)
  }

  /** The redirect effect: where, if anywhere, the router is sent from `pathname`. */
  function Redirect(s: Session, pathname: string): (to: Option<string>)
    ensures s.isLoading ==> to.None?
    ensures !s.isLoading && s.user.None? && pathname != LoginPath ==> to == Some(LoginPath)
    ensures !s.isLoading && s.user.Some? && pathname == LoginPath ==> to == Some(DashboardPath)
    ensures to.Some? ==> to.value != pathname
  {
    if s.isLoading then None
    else if s.user.None? && pathname != LoginPath then Some(LoginPath)
    else if s.user.Some? && pathname == LoginPath then Some(DashboardPath)
    else None
  }

  /** Following a redirect never leads to a second one: the rule settles in one step. */
  lemma RedirectSettles(s: Session, pathname: string)
    requires Redirect(s, pathname).Some?
    ensures Redirect(s, Redirect(s, pathname).value).None?
  {
  }

  /** A reload restores exactly the user who logged in, and after a logout no user is
      restored. */
  lemma StorageRoundTrip(s: Session, u: User)
    ensures Mount(Initial(Login(s, u).storage)).user == Some(u)
    ensures Mount(Initial(Logout(s).0.storage)).user.None?
  {
  }

  /** After logging in on the login page the user is sent to the dashboard; after logging
      out anywhere but the login page, back to it. */
  lemma LoginAndLogoutRedirect(s: Session, u: User, pathname: string)
    requires !s.isLoading
    ensures Redirect(Login(s, u), LoginPath) == Some(DashboardPath)
    ensures pathname != LoginPath ==> Redirect(Logout(s).0, pathname) == Some(LoginPath)
  {
  }

  /** What `useAuth` gives: the provider's state, or the error it throws outside one. */
  datatype Context = Provided(session: Session) | Thrown(message: string)

  const OutsideProvider: string := "useAuth must be used within an AuthProvider"

  function UseAuth(provider: Option<Session>): (c: Context)
    ensures provider.None? <==> c == Thrown(OutsideProvider)
    ensures provider.Some? ==> c == Provided(provider.value)
  {
    match provider
    case None => Thrown(OutsideProvider)
    case Some(s) => Provided(s)
  }
}

=== FILE: budget_utilization.dfy ===
/** `getBudgetUtilizationData` in app/api/analytics/route.ts: per POD (strictly, per
    POD and budget row), the approved spending on catalogue software, the allocation,
    what remains and the utilization percentage, ordered by utilization, plus a
    summary of the rows. */
module BudgetUtilization {
  import opened Common
  import opened Db
  import opened Joins
  import Seqs
  import Sorting
  import Numeric

  datatype Row = Row(
    pod: string,
    allocatedAmount: int,         // COALESCE(allocated_amount, 0), paise
    currency: Option<string>,
    totalSpent: int,              // paise
    remainingBudget: int,         // paise
    utilizationPercentage: int,   // hundredths of a percent
    totalRequisitions: nat,
    approvedRequisitions: nat)

  datatype Summary = Summary(
    totalAllocated: int,
    totalSpent: int,
    /** The plain mean of the rows' percentages (hundredths of a percent); None where
        JavaScript divides 0 by 0 and produces NaN. */
    averageUtilization: Option<real>)

  datatype Report = Report(budgetUtilization: seq<Row>, summary: Summary)

  /** The `CASE WHEN allocated_amount > 0 THEN ROUND(spent / allocated * 100, 2) ELSE 0`
      column; a NULL allocation fails the test and gives 0. */
  function Utilization(spent: int, allocation: Option<int>): (p: int)
    ensures allocation.None? || allocation.value <= 0 ==> p == 0
    ensures allocation.Some? && allocation.value > 0 ==>
      2 * spent * 10000 - allocation.value <= 2 * allocation.value * p <= 2 * spent * 10000 + allocation.value
  {
    if allocation.Some? && allocation.value > 0 then Numeric.Percent(spent, allocation.value) else 0
  }

  /** The row of one group of spending lines. */
  function RowOf(k: PodKey, g: seq<Line>): Row {
    var spent := Seqs.SumOf(g, LineCost);
    var amount := k.allocatedAmount.GetOr(0);
    Row(k.pod, amount, k.currency, spent, amount - spent,
        Utilization(spent, k.allocatedAmount), |g|, Seqs.CountOf(g, LineIsApproved))
  }

  function RowKey(r: Row): Sorting.Key {
    Sorting.Key(r.utilizationPercentage, 0)
  }

  function RowAllocated(r: Row): int { r.allocatedAmount }
  function RowSpent(r: Row): int { r.totalSpent }
  function RowPercentage(r: Row): int { r.utilizationPercentage }

  /** What every row of the report satisfies, whatever group it came from. */
  ghost predicate WellFormed(r: Row) {
    && r.totalRequisitions > 0
    && r.approvedRequisitions == r.totalRequisitions
    && r.remainingBudget == r.allocatedAmount - r.totalSpent
    && (r.allocatedAmount <= 0 ==> r.utilizationPercentage == 0)
    && (r.allocatedAmount > 0 ==>
          2 * r.totalSpent * 10000 - r.allocatedAmount <= 2 * r.allocatedAmount * r.utilizationPercentage
          <= 2 * r.totalSpent * 10000 + r.allocatedAmount)
  }

  /** The rows before ORDER BY: one per group key, in order of first appearance. */
  function GroupRows(ls: seq<Line>, ks: seq<PodKey>): (rows: seq<Row>)
    requires forall i :: 0 <= i < |ls| ==> ls[i].req.statusId == Approved
    requires forall j :: 0 <= j < |ks| ==> |Seqs.Where(ls, PodKeyOf, ks[j])| > 0
    ensures |rows| == |ks|
    ensures forall j :: 0 <= j < |ks| ==> rows[j] == RowOf(ks[j], Seqs.Where(ls, PodKeyOf, ks[j]))
    ensures forall j :: 0 <= j < |ks| ==> WellFormed(rows[j])
  {
    var rows := seq(|ks|, j requires 0 <= j < |ks| => RowOf(ks[j], Seqs.Where(ls, PodKeyOf, ks[j])));
    assert forall j :: 0 <= j < |ks| ==> WellFormed(rows[j]) by {
      forall j | 0 <= j < |ks| ensures WellFormed(rows[j]) {
        var g := Seqs.Where(ls, PodKeyOf, ks[j]);
        assert forall i :: 0 <= i < |g| ==> LineIsApproved(g[i]);
        var a := ks[j].allocatedAmount;
        assert a.Some? && a.value > 0 ==> rows[j].allocatedAmount == a.value;
      }
    }
    rows
  }

  function Summarize(rows: seq<Row>): (s: Summary)
    ensures s.averageUtilization.None? <==> |rows| == 0
    ensures s.averageUtilization.Some? ==>
      s.averageUtilization.value * (|rows| as real) == Seqs.SumOf(rows, RowPercentage) as real
  {
    Summary(
      Seqs.SumOf(rows, RowAllocated),
      Seqs.SumOf(rows, RowSpent),
      if |rows| == 0 then None
      else Some(Seqs.SumOf(rows, RowPercentage) as real / |rows| as real))
  }

  /** The report over the tables as they are when the query runs. */
  function BudgetUtilization(st: Store): (r: Report)
    ensures forall i :: 0 <= i < |r.budgetUtilization| ==> WellFormed(r.budgetUtilization[i])
    ensures Sorting.SortedDesc(r.budgetUtilization, RowKey)
    ensures |r.budgetUtilization| == 0 <==> |ApprovedLines(st)| == 0
    ensures r.summary.totalSpent == Seqs.SumOf(ApprovedLines(st), LineCost)
    ensures r.summary.totalAllocated == Seqs.SumOf(r.budgetUtilization, RowAllocated)
    ensures r.summary == Summarize(r.budgetUtilization)
    ensures multiset(r.budgetUtilization)
         == multiset(GroupRows(ApprovedLines(st), Seqs.GroupKeys(ApprovedLines(st), PodKeyOf)))
  {
    var ls := ApprovedLines(st);
    var ks := Seqs.GroupKeys(ls, PodKeyOf);
    var unsorted := GroupRows(ls, ks);
    var rows := Sorting.SortDesc(unsorted, RowKey);
    Sorting.PermutationKeeps(rows, unsorted, WellFormed);
    SpentTotal(ls, ks, unsorted, rows);
    Report(rows, Summarize(rows))
  }

  /** The sorted rows' spending adds up to the cost of all lines, and there are rows
      exactly when there are lines. */
  lemma SpentTotal(ls: seq<Line>, ks: seq<PodKey>, unsorted: seq<Row>, rows: seq<Row>)
    requires Seqs.NoDups(ks) && forall i :: 0 <= i < |ls| ==> PodKeyOf(ls[i]) in ks
    requires forall j :: 0 <= j < |ks| ==> |Seqs.Where(ls, PodKeyOf, ks[j])| > 0
    requires |unsorted| == |ks|
    requires forall j :: 0 <= j < |ks| ==> RowSpent(unsorted[j]) == Seqs.SumOf(Seqs.Where(ls, PodKeyOf, ks[j]), LineCost)
    requires multiset(rows) == multiset(unsorted)
    ensures Seqs.SumOf(rows, RowSpent) == Seqs.SumOf(ls, LineCost)
    ensures |rows| == 0 <==> |ls| == 0
  {
    Seqs.GroupTotals(ls, PodKeyOf, LineCost, ks, unsorted, RowSpent);
    Seqs.SumOfPermutation(rows, unsorted, RowSpent);
    assert |rows| == |multiset(unsorted)| == |unsorted|;
    if |ls| > 0 {
      assert PodKeyOf(ls[0]) in ks;
    }
  }

}

=== FILE: budget_variance.dfy ===
/** `getBudgetVarianceAnalysis` in app/api/analytics/route.ts: per POD (strictly, per
    POD and budget row) the allocation against approved spending, the variance in
    money and percent, and a three-way budget status, ordered by variance percentage;
    plus counts per status and the total variance. */
module BudgetVariance {
  import opened Common
  import opened Db
  import opened Joins
  import Seqs
  import Sorting
  import Numeric

  datatype Status = OverBudget | OnBudget | UnderBudget

  datatype Row = Row(
    pod: string,
    allocatedAmount: int,         // COALESCE(allocated_amount, 0), paise
    currency: Option<string>,     // NULL when the POD has no budget row
    actualSpending: int,          // paise
    varianceAmount: int,          // COALESCE(allocated - spent, 0), paise
    variancePercentage: int,      // hundredths of a percent
    budgetStatus: Status)

  datatype Summary = Summary(overBudgetPods: nat, underBudgetPods: nat, onBudgetPods: nat, totalVariance: int)

  datatype Report = Report(varianceAnalysis: seq<Row>, summary: Summary)

  /** The budget_status CASE. Against a NULL allocation both comparisons are NULL,
      not true, so the ELSE branch applies. */
  function StatusOf(spent: int, allocation: Option<int>): (s: Status)
    ensures allocation.None? ==> s == UnderBudget
    ensures allocation.Some? ==> (s == OverBudget <==> spent > allocation.value)
    ensures allocation.Some? ==> (s == OnBudget <==> spent == allocation.value)
    ensures allocation.Some? ==> (s == UnderBudget <==> spent < allocation.value)
  {
    match allocation
    case None => UnderBudget
    case Some(a) => if spent > a then OverBudget else if spent == a then OnBudget else UnderBudget
  }

  /** `CASE WHEN allocated > 0 THEN ROUND((allocated - spent) / allocated * 100, 2) ELSE 0`. */
  function VariancePercent(spent: int, allocation: Option<int>): (p: int)
    ensures allocation.None? || allocation.value <= 0 ==> p == 0
    ensures allocation.Some? && allocation.value > 0 ==>
      p == Numeric.Percent(allocation.value - spent, allocation.value)
    ensures allocation.Some? && allocation.value > 0 && spent <= allocation.value ==> p >= 0
    ensures allocation.Some? && allocation.value > 0 && spent >= allocation.value ==> p <= 0
  {
    if allocation.Some? && allocation.value > 0 then
      PercentSign(allocation.value - spent, allocation.value);
      Numeric.Percent(allocation.value - spent, allocation.value)
    else 0
  }

  /** A rounded percentage never has the opposite sign of its part (a small enough
      overspend rounds to 0, so the converse does not hold). */
  lemma PercentSign(part: int, whole: int)
    requires whole > 0
    ensures part >= 0 ==> Numeric.Percent(part, whole) >= 0
    ensures part <= 0 ==> Numeric.Percent(part, whole) <= 0
  {
    var p := Numeric.Percent(part, whole);
    if part <= 0 && p > 0 {
      Numeric.MulMono(2 * whole, 1, p);
    }
  }

  function RowOf(k: PodKey, g: seq<Line>): Row {
    var spent := Seqs.SumOf(g, LineCost);
    Row(k.pod, k.allocatedAmount.GetOr(0), k.currency, spent,
        if k.allocatedAmount.Some? then k.allocatedAmount.value - spent else 0,
        VariancePercent(spent, k.allocatedAmount),
        StatusOf(spent, k.allocatedAmount))
  }

  function RowKey(r: Row): Sorting.Key { Sorting.Key(r.variancePercentage, 0) }
  function RowSpending(r: Row): int { r.actualSpending }
  function RowVariance(r: Row): int { r.varianceAmount }
  function RowAllocated(r: Row): int { r.allocatedAmount }

  /** The spending a row's variance is measured against: all of it when the POD has a
      budget, none when it has not (its variance is then 0). */
  function BudgetedSpending(r: Row): int { if r.currency.Some? then r.actualSpending else 0 }

  predicate IsOver(r: Row) { r.budgetStatus == OverBudget }
  predicate IsUnder(r: Row) { r.budgetStatus == UnderBudget }
  predicate IsOn(r: Row) { r.budgetStatus == OnBudget }

  /** What every row satisfies: the variance closes the gap between allocation and
      spending, and the status and the percentage's sign agree with the comparison of
      spending against the allocation (up to rounding to 0); a POD without a budget is under budget with no
      variance. */
  ghost predicate WellFormed(r: Row) {
    && r.varianceAmount + BudgetedSpending(r) == r.allocatedAmount
    && (r.currency.None? ==> r.allocatedAmount == 0 && r.budgetStatus == UnderBudget && r.variancePercentage == 0)
    && (r.currency.Some? ==>
          && (r.budgetStatus == OverBudget <==> r.actualSpending > r.allocatedAmount)
          && (r.budgetStatus == OnBudget <==> r.actualSpending == r.allocatedAmount)
          && (r.budgetStatus == UnderBudget <==> r.actualSpending < r.allocatedAmount))
    && (r.allocatedAmount > 0 && r.actualSpending <= r.allocatedAmount ==> r.variancePercentage >= 0)
    && (r.allocatedAmount > 0 && r.actualSpending >= r.allocatedAmount ==> r.variancePercentage <= 0)
    && (r.allocatedAmount <= 0 ==> r.variancePercentage == 0)
  }

  lemma RowOfWellFormed(k: PodKey, g: seq<Line>)
    requires k.allocatedAmount.Some? <==> k.currency.Some?
    ensures WellFormed(RowOf(k, g))
  {
  }

  /** Whether a group key's budget side is all NULL or all present, as it is for every
      key a join line produces. */
  predicate BudgetSideAgrees(k: PodKey) {
    k.allocatedAmount.Some? <==> k.currency.Some?
  }

  function GroupRows(ls: seq<Line>, ks: seq<PodKey>): (rows: seq<Row>)
    ensures |rows| == |ks|
    ensures forall j :: 0 <= j < |ks| ==> rows[j] == RowOf(ks[j], Seqs.Where(ls, PodKeyOf, ks[j]))
    ensures forall j :: 0 <= j < |ks| ==> rows[j].actualSpending == Seqs.SumOf(Seqs.Where(ls, PodKeyOf, ks[j]), LineCost)
    ensures forall j :: 0 <= j < |ks| && BudgetSideAgrees(ks[j]) ==> WellFormed(rows[j])
  {
    var rows := seq(|ks|, j requires 0 <= j < |ks| => RowOf(ks[j], Seqs.Where(ls, PodKeyOf, ks[j])));
    assert forall j :: 0 <= j < |ks| && BudgetSideAgrees(ks[j]) ==> WellFormed(rows[j]) by {
      forall j | 0 <= j < |ks| && BudgetSideAgrees(ks[j]) ensures WellFormed(rows[j]) {
        RowOfWellFormed(ks[j], Seqs.Where(ls, PodKeyOf, ks[j]));
      }
    }
    rows
  }

  /** Every key a join line produces has its budget side all NULL or all present. */
  lemma KeysAgree(ls: seq<Line>, ks: seq<PodKey>)
    requires forall j :: 0 <= j < |ks| ==> |Seqs.Where(ls, PodKeyOf, ks[j])| > 0
    ensures forall j :: 0 <= j < |ks| ==> BudgetSideAgrees(ks[j])
  {
    forall j | 0 <= j < |ks| ensures BudgetSideAgrees(ks[j]) {
      var g := Seqs.Where(ls, PodKeyOf, ks[j]);
      assert PodKeyOf(g[0]) == ks[j];
    }
  }

  /** The rows, ordered by variance percentage, with spending adding up to all
      approved spending on catalogue software. */
  function VarianceRows(st: Store): (rows: seq<Row>)
    ensures forall i :: 0 <= i < |rows| ==> WellFormed(rows[i])
    ensures Sorting.SortedDesc(rows, RowKey)
    ensures Seqs.SumOf(rows, RowSpending) == Seqs.SumOf(ApprovedLines(st), LineCost)
    ensures multiset(rows) == multiset(GroupRows(ApprovedLines(st), Seqs.GroupKeys(ApprovedLines(st), PodKeyOf)))
  {
    var ls := ApprovedLines(st);
    var ks := Seqs.GroupKeys(ls, PodKeyOf);
    KeysAgree(ls, ks);
    var unsorted := GroupRows(ls, ks);
    var rows := Sorting.SortDesc(unsorted, RowKey);
    Sorting.PermutationKeeps(rows, unsorted, WellFormed);
    Seqs.GroupTotals(ls, PodKeyOf, LineCost, ks, unsorted, RowSpending);
    Seqs.SumOfPermutation(rows, unsorted, RowSpending);
    rows
  }

  /** The summary: every row falls under exactly one status, and the total variance is
      the total allocation less the spending of budgeted PODs. */
  function Summarize(rows: seq<Row>): (s: Summary)
    requires forall i :: 0 <= i < |rows| ==> WellFormed(rows[i])
    ensures s.overBudgetPods == Seqs.CountOf(rows, IsOver)
    ensures s.underBudgetPods == Seqs.CountOf(rows, IsUnder)
    ensures s.onBudgetPods == Seqs.CountOf(rows, IsOn)
    ensures s.overBudgetPods + s.underBudgetPods + s.onBudgetPods == |rows|
    ensures s.totalVariance == Seqs.SumOf(rows, RowAllocated) - Seqs.SumOf(rows, BudgetedSpending)
  {
    Seqs.CountOfPartition(rows, IsOver, IsUnder, IsOn);
    assert forall i :: 0 <= i < |rows| ==> RowVariance(rows[i]) == RowAllocated(rows[i]) - BudgetedSpending(rows[i]) by {
      forall i | 0 <= i < |rows| ensures RowVariance(rows[i]) == RowAllocated(rows[i]) - BudgetedSpending(rows[i]) {
        assert WellFormed(rows[i]);
      }
    }
    Seqs.SumOfDifference(rows, RowVariance, RowAllocated, BudgetedSpending);
    Summary(Seqs.CountOf(rows, IsOver), Seqs.CountOf(rows, IsUnder), Seqs.CountOf(rows, IsOn),
            Seqs.SumOf(rows, RowVariance))
  }

  /** The report: the variance rows with a summary that counts them by status and
      totals their variance. */
  function BudgetVariance(st: Store): (r: Report)
    ensures forall i :: 0 <= i < |r.varianceAnalysis| ==> WellFormed(r.varianceAnalysis[i])
    ensures Sorting.SortedDesc(r.varianceAnalysis, RowKey)
    ensures multiset(r.varianceAnalysis)
         == multiset(GroupRows(ApprovedLines(st), Seqs.GroupKeys(ApprovedLines(st), PodKeyOf)))
    ensures r.summary.overBudgetPods == Seqs.CountOf(r.varianceAnalysis, IsOver)
    ensures r.summary.underBudgetPods == Seqs.CountOf(r.varianceAnalysis, IsUnder)
    ensures r.summary.onBudgetPods == Seqs.CountOf(r.varianceAnalysis, IsOn)
    ensures r.summary.overBudgetPods + r.summary.underBudgetPods + r.summary.onBudgetPods == |r.varianceAnalysis|
    ensures r.summary.totalVariance
         == Seqs.SumOf(r.varianceAnalysis, RowAllocated) - Seqs.SumOf(r.varianceAnalysis, BudgetedSpending)
  {
    var rows := VarianceRows(st);
    Report(rows, Summarize(rows))
  }
}

=== FILE: category_trends.dfy ===
/** `getSoftwareCategoryTrends` in app/api/analytics/route.ts: requisitions joined to
    the catalogue by software id, bucketed per licence type and calendar month over
    the last twelve months; and the month-over-month growth of approved spending per
    licence type over the last three months. */
module CategoryTrends {
  import opened Common
  import opened Db
  import opened Joins
  import Seqs
  import Sorting
  import Numeric

  /** One row of `pg_requisitions r JOIN pg_softwares s ON r.software_id = s.software_id`. */
  datatype IdLine = IdLine(req: Requisition, sw: Software)

  /** The join rows of the requisitions created within the last `k` months. */
  function IdLines(rs: seq<Requisition>, sws: seq<Software>, now: Instant, k: nat): (ls: seq<IdLine>)
    ensures forall i :: 0 <= i < |ls| ==>
      ls[i].req in rs && ls[i].sw in sws && IdMatch(ls[i].req, ls[i].sw) && InWindow(ls[i].req.createdAt, now, k)
  {
    if |rs| == 0 then []
    else
      var r := rs[0];
      var here := if InWindow(r.createdAt, now, k) then IdMatches(r, sws) else [];
      seq(|here|, i requires 0 <= i < |here| => IdLine(r, here[i])) + IdLines(rs[1..], sws, now, k)
  }

  /** Every requisition in the window meets every catalogue row with its id. */
  lemma {:induction false} IdLinesComplete(rs: seq<Requisition>, sws: seq<Software>, now: Instant, k: nat,
                                           r: Requisition, s: Software)
    requires r in rs && s in sws && IdMatch(r, s) && InWindow(r.createdAt, now, k)
    ensures IdLine(r, s) in IdLines(rs, sws, now, k)
  {
    var here := if InWindow(rs[0].createdAt, now, k) then IdMatches(rs[0], sws) else [];
    var first := seq(|here|, i requires 0 <= i < |here| => IdLine(rs[0], here[i]));
    assert IdLines(rs, sws, now, k) == first + IdLines(rs[1..], sws, now, k);
    if rs[0] == r {
      assert s in here;
      var i :| 0 <= i < |here| && here[i] == s;
      assert first[i] == IdLine(r, s);
    } else {
      IdLinesComplete(rs[1..], sws, now, k, r, s);
    }
  }

  function IsApproved(l: IdLine): bool { l.req.statusId == Approved }

  /** `CASE WHEN r.statusid = 2 THEN s.cost ELSE 0 END`. */
  function ApprovedCost(l: IdLine): int { if IsApproved(l) then l.sw.cost else 0 }

  /** `GROUP BY s.license_type, DATE_TRUNC('month', r.created_at)`. */
  datatype CategoryMonth = CategoryMonth(category: Option<string>, month: int)

  function CategoryMonthOf(l: IdLine): CategoryMonth {
    CategoryMonth(l.sw.licenseType, l.req.createdAt.month)
  }

  // ----- the twelve-month trend -----

  datatype TrendRow = TrendRow(category: Option<string>, month: int, requests: nat, approved: nat, monthlyCost: int)

  function TrendRowOf(k: CategoryMonth, g: seq<IdLine>): TrendRow {
    TrendRow(k.category, k.month, |g|, Seqs.CountOf(g, IsApproved), Seqs.SumOf(g, ApprovedCost))
  }

  function TrendKey(t: TrendRow): Sorting.Key { Sorting.Key(t.month, t.monthlyCost) }
  function TrendCost(t: TrendRow): int { t.monthlyCost }

  /** What every trend row satisfies: a non-empty bucket of the window, approvals among
      its requests. */
  ghost predicate TrendRowOk(t: TrendRow, now: Instant) {
    && 0 < t.requests && t.approved <= t.requests
    && t.month >= now.month - 12
  }

  function TrendGroupRows(ls: seq<IdLine>, ks: seq<CategoryMonth>, now: Instant): (rows: seq<TrendRow>)
    requires forall i :: 0 <= i < |ls| ==> InWindow(ls[i].req.createdAt, now, 12)
    requires forall j :: 0 <= j < |ks| ==> |Seqs.Where(ls, CategoryMonthOf, ks[j])| > 0
    ensures |rows| == |ks|
    ensures forall j :: 0 <= j < |ks| ==> rows[j] == TrendRowOf(ks[j], Seqs.Where(ls, CategoryMonthOf, ks[j]))
    ensures forall j :: 0 <= j < |ks| ==> rows[j].category == ks[j].category && rows[j].month == ks[j].month
    ensures forall j :: 0 <= j < |ks| ==> rows[j].monthlyCost == Seqs.SumOf(Seqs.Where(ls, CategoryMonthOf, ks[j]), ApprovedCost)
    ensures forall j :: 0 <= j < |ks| ==> TrendRowOk(rows[j], now)
  {
    var rows := seq(|ks|, j requires 0 <= j < |ks| => TrendRowOf(ks[j], Seqs.Where(ls, CategoryMonthOf, ks[j])));
    assert forall j :: 0 <= j < |ks| ==> TrendRowOk(rows[j], now) by {
      forall j | 0 <= j < |ks| ensures TrendRowOk(rows[j], now) {
        var g := Seqs.Where(ls, CategoryMonthOf, ks[j]);
        assert CategoryMonthOf(g[0]) == ks[j] && g[0] in ls;
        var i :| 0 <= i < |ls| && ls[i] == g[0];
        assert InWindow(ls[i].req.createdAt, now, 12);
      }
    }
    rows
  }

  lemma SortedTrendsOk(rows: seq<TrendRow>, unsorted: seq<TrendRow>, now: Instant)
    requires multiset(rows) == multiset(unsorted)
    requires forall j :: 0 <= j < |unsorted| ==> TrendRowOk(unsorted[j], now)
    ensures forall i :: 0 <= i < |rows| ==> TrendRowOk(rows[i], now)
  {
    Sorting.SameElements(rows, unsorted);
  }

  /** The trend rows, newest month first and then by cost; their costs add up to the
      approved cost of the whole twelve-month join. */
  function CategoryTrendRows(st: Store, now: Instant): (rows: seq<TrendRow>)
    ensures forall i :: 0 <= i < |rows| ==> TrendRowOk(rows[i], now)
    ensures Sorting.SortedDesc(rows, TrendKey)
    ensures Seqs.SumOf(rows, TrendCost) == Seqs.SumOf(IdLines(st.requisitions, st.softwares, now, 12), ApprovedCost)
    ensures var ls := IdLines(st.requisitions, st.softwares, now, 12);
      multiset(rows) == multiset(TrendGroupRows(ls, Seqs.GroupKeys(ls, CategoryMonthOf), now))
  {
    var ls := IdLines(st.requisitions, st.softwares, now, 12);
    var ks := Seqs.GroupKeys(ls, CategoryMonthOf);
    var unsorted := TrendGroupRows(ls, ks, now);
    var rows := Sorting.SortDesc(unsorted, TrendKey);
    SortedTrendsOk(rows, unsorted, now);
    Seqs.GroupTotals(ls, CategoryMonthOf, ApprovedCost, ks, unsorted, TrendCost);
    Seqs.SumOfPermutation(rows, unsorted, TrendCost);
    rows
  }

  // ----- growth rates -----

  /** The months in `ks` that belong to category `c`. */
  function MonthsOf(ks: seq<CategoryMonth>, c: Option<string>): (ms: seq<int>)
    ensures forall i :: 0 <= i < |ms| ==> CategoryMonth(c, ms[i]) in ks
    ensures forall j :: 0 <= j < |ks| && ks[j].category == c ==> ks[j].month in ms
  {
    if |ks| == 0 then []
    else (if ks[0].category == c then [ks[0].month] else []) + MonthsOf(ks[1..], c)
  }

  /** The latest month in `ms` before `m`: the row LAG reads in a partition ordered by
      month. */
  function LatestBefore(ms: seq<int>, m: int): (p: Option<int>)
    ensures p.Some? ==> p.value in ms && p.value < m
    ensures p.Some? ==> forall i :: 0 <= i < |ms| && ms[i] < m ==> ms[i] <= p.value
    ensures p.None? <==> forall i :: 0 <= i < |ms| ==> ms[i] >= m
  {
    if |ms| == 0 then None
    else
      var rest := LatestBefore(ms[1..], m);
      assert forall i :: 1 <= i < |ms| ==> ms[i] == ms[1..][i - 1];
      if ms[0] >= m then rest
      else if rest.Some? && rest.value >= ms[0] then rest
      else Some(ms[0])
  }

  /** `CASE WHEN prev > 0 THEN ROUND((spending - prev) / prev * 100, 2) ELSE 0 END`. */
  function GrowthRate(spending: int, prev: int): (g: int)
    ensures prev <= 0 ==> g == 0
    ensures prev > 0 ==> g == Numeric.Percent(spending - prev, prev)
    ensures prev > 0 && spending == prev ==> g == 0
    ensures prev > 0 && spending == 2 * prev ==> g == 10000
  {
    if prev > 0 then Numeric.Percent(spending - prev, prev) else 0
  }

  /** Approved spending of 150.00 in a month after 100.00 in the previous one is a
      growth of 50.00 percent. */
  lemma GrowthExample()
    ensures GrowthRate(15000, 10000) == 5000
  {
    Numeric.RoundDivUnique(5000 * 10000, 10000, 5000);
  }

  /** A growth row before projection: the bucket it was computed for and the rate. */
  datatype Growth = Growth(category: Option<string>, month: int, previousMonth: int, growthRate: int)

  datatype GrowthRow = GrowthRow(category: Option<string>, growthRate: int)

  function MonthlySpending(ls: seq<IdLine>, k: CategoryMonth): int {
    Seqs.SumOf(Seqs.Where(ls, CategoryMonthOf, k), ApprovedCost)
  }

  /** The bucket `k` has an earlier bucket of its category among `all`, so LAG is not
      NULL for it. */
  predicate HasPrevious(all: seq<CategoryMonth>, k: CategoryMonth) {
    LatestBefore(MonthsOf(all, k.category), k.month).Some?
  }

  /** HasPrevious against `all`, as a test on one bucket. */
  function PreviousTest(all: seq<CategoryMonth>): CategoryMonth -> bool {
    k => HasPrevious(all, k)
  }

  /** `g` is the growth of its bucket against the latest earlier bucket of its
      category. */
  ghost predicate GrowthOk(ls: seq<IdLine>, all: seq<CategoryMonth>, g: Growth) {
    && LatestBefore(MonthsOf(all, g.category), g.month) == Some(g.previousMonth)
    && g.growthRate == GrowthRate(MonthlySpending(ls, CategoryMonth(g.category, g.month)),
                                  MonthlySpending(ls, CategoryMonth(g.category, g.previousMonth)))
  }

  ghost predicate Covers(gs: seq<Growth>, k: CategoryMonth) {
    exists i :: 0 <= i < |gs| && gs[i].category == k.category && gs[i].month == k.month
  }

  /** The growth of the buckets from `ks` on, skipping each category's first month
      (where LAG is NULL). */
  function Growths(ls: seq<IdLine>, all: seq<CategoryMonth>, ks: seq<CategoryMonth>): (gs: seq<Growth>)
    ensures forall i :: 0 <= i < |gs| ==> CategoryMonth(gs[i].category, gs[i].month) in ks
    ensures forall i :: 0 <= i < |gs| ==> GrowthOk(ls, all, gs[i])
    ensures forall j :: 0 <= j < |ks| && HasPrevious(all, ks[j]) ==> Covers(gs, ks[j])
  {
    if |ks| == 0 then []
    else
      var k := ks[0];
      var rest := Growths(ls, all, ks[1..]);
      assert forall j :: 1 <= j < |ks| ==> ks[j] == ks[1..][j - 1];
      match LatestBefore(MonthsOf(all, k.category), k.month)
      case None => rest
      case Some(p) =>
        var g := Growth(k.category, k.month, p,
                        GrowthRate(MonthlySpending(ls, k), MonthlySpending(ls, CategoryMonth(k.category, p))));
        GrowthsCons(g, rest, ks);
        [g] + rest
  }

  /** One growth per bucket that has an earlier bucket of its category. */
  lemma {:induction false} GrowthsCount(ls: seq<IdLine>, all: seq<CategoryMonth>, ks: seq<CategoryMonth>)
    ensures |Growths(ls, all, ks)| == Seqs.CountOf(ks, PreviousTest(all))
  {
    if |ks| > 0 {
      GrowthsCount(ls, all, ks[1..]);
    }
  }

  lemma GrowthsCons(g: Growth, rest: seq<Growth>, ks: seq<CategoryMonth>)
    requires |ks| > 0 && g.category == ks[0].category && g.month == ks[0].month
    ensures Covers([g] + rest, ks[0])
    ensures forall k :: Covers(rest, k) ==> Covers([g] + rest, k)
  {
    assert ([g] + rest)[0] == g;
    forall k | Covers(rest, k) ensures Covers([g] + rest, k) {
      var i :| 0 <= i < |rest| && rest[i].category == k.category && rest[i].month == k.month;
      assert ([g] + rest)[i + 1] == rest[i];
    }
  }

  /** What GrowthOk means in terms of the buckets: the compared bucket is of the same
      category, earlier, and no other bucket of that category lies between them. */
  lemma GrowthOkMeans(ls: seq<IdLine>, ks: seq<CategoryMonth>, g: Growth)
    requires GrowthOk(ls, ks, g)
    ensures CategoryMonth(g.category, g.previousMonth) in ks
    ensures g.previousMonth < g.month
    ensures forall j :: 0 <= j < |ks| && ks[j].category == g.category && ks[j].month < g.month ==>
      ks[j].month <= g.previousMonth
  {
    var ms := MonthsOf(ks, g.category);
    forall j | 0 <= j < |ks| && ks[j].category == g.category && ks[j].month < g.month
      ensures ks[j].month <= g.previousMonth
    {
      var a :| 0 <= a < |ms| && ms[a] == ks[j].month;
    }
  }

  /** LAG is NULL exactly for the earliest bucket of each category. */
  lemma HasPreviousIff(ks: seq<CategoryMonth>, k: CategoryMonth)
    ensures HasPrevious(ks, k) <==> exists j :: 0 <= j < |ks| && ks[j].category == k.category && ks[j].month < k.month
  {
    var ms := MonthsOf(ks, k.category);
    if HasPrevious(ks, k) {
      var p := LatestBefore(ms, k.month).value;
      assert CategoryMonth(k.category, p) in ks;
      var j :| 0 <= j < |ks| && ks[j] == CategoryMonth(k.category, p);
    }
    if exists j :: 0 <= j < |ks| && ks[j].category == k.category && ks[j].month < k.month {
      var j :| 0 <= j < |ks| && ks[j].category == k.category && ks[j].month < k.month;
      var a :| 0 <= a < |ms| && ms[a] == ks[j].month;
    }
  }

  function Project(gs: seq<Growth>): (rows: seq<GrowthRow>)
    ensures |rows| == |gs|
    ensures forall i :: 0 <= i < |gs| ==> rows[i] == GrowthRow(gs[i].category, gs[i].growthRate)
  {
    seq(|gs|, i requires 0 <= i < |gs| => GrowthRow(gs[i].category, gs[i].growthRate))
  }

  function GrowthKey(g: Growth): Sorting.Key { Sorting.Key(g.growthRate, 0) }

  /** The three-month join and its (category, month) buckets. */
  function GrowthLines(st: Store, now: Instant): seq<IdLine> {
    IdLines(st.requisitions, st.softwares, now, 3)
  }

  function GrowthBuckets(st: Store, now: Instant): (ks: seq<CategoryMonth>)
    ensures Seqs.NoDups(ks)
  {
    Seqs.GroupKeys(GrowthLines(st, now), CategoryMonthOf)
  }

  /** The growth rows of the three-month window, highest first: exactly one per bucket
      that has an earlier bucket of its category, comparing its approved spending with
      that of the latest such bucket (GrowthOkMeans, HasPreviousIff). */
  function GrowthRates(st: Store, now: Instant): (gs: seq<Growth>)
    ensures Sorting.SortedDesc(gs, GrowthKey)
    ensures |gs| == Seqs.CountOf(GrowthBuckets(st, now), PreviousTest(GrowthBuckets(st, now)))
    ensures forall i :: 0 <= i < |gs| ==> CategoryMonth(gs[i].category, gs[i].month) in GrowthBuckets(st, now)
    ensures forall i :: 0 <= i < |gs| ==> GrowthOk(GrowthLines(st, now), GrowthBuckets(st, now), gs[i])
    ensures forall j :: 0 <= j < |GrowthBuckets(st, now)| && HasPrevious(GrowthBuckets(st, now), GrowthBuckets(st, now)[j]) ==>
      Covers(gs, GrowthBuckets(st, now)[j])
  {
    var ls := GrowthLines(st, now);
    var ks := GrowthBuckets(st, now);
    var unsorted := Growths(ls, ks, ks);
    var gs := Sorting.SortDesc(unsorted, GrowthKey);
    GrowthsSorted(ls, ks, unsorted, gs);
    GrowthsCount(ls, ks, ks);
    gs
  }

  lemma GrowthsSorted(ls: seq<IdLine>, ks: seq<CategoryMonth>, unsorted: seq<Growth>, gs: seq<Growth>)
    requires forall i :: 0 <= i < |unsorted| ==> CategoryMonth(unsorted[i].category, unsorted[i].month) in ks
    requires forall i :: 0 <= i < |unsorted| ==> GrowthOk(ls, ks, unsorted[i])
    requires forall j :: 0 <= j < |ks| && HasPrevious(ks, ks[j]) ==> Covers(unsorted, ks[j])
    requires multiset(gs) == multiset(unsorted)
    ensures forall i :: 0 <= i < |gs| ==> CategoryMonth(gs[i].category, gs[i].month) in ks
    ensures forall i :: 0 <= i < |gs| ==> GrowthOk(ls, ks, gs[i])
    ensures forall j :: 0 <= j < |ks| && HasPrevious(ks, ks[j]) ==> Covers(gs, ks[j])
  {
    Sorting.SameElements(gs, unsorted);
    forall j | 0 <= j < |ks| && HasPrevious(ks, ks[j]) ensures Covers(gs, ks[j]) {
      var u :| 0 <= u < |unsorted| && unsorted[u].category == ks[j].category && unsorted[u].month == ks[j].month;
      assert unsorted[u] in gs;
      var i :| 0 <= i < |gs| && gs[i] == unsorted[u];
    }
  }

  datatype Report = Report(categoryTrends: seq<TrendRow>, growthRates: seq<GrowthRow>)

  /** A growth row states the growth of some bucket of the window against the latest
      earlier bucket of its category. */
  ghost predicate IsGrowthOf(ls: seq<IdLine>, ks: seq<CategoryMonth>, row: GrowthRow) {
    exists m, p :: CategoryMonth(row.category, m) in ks && GrowthOk(ls, ks, Growth(row.category, m, p, row.growthRate))
  }

  /** Projecting the growths keeps their order by rate and what each one states. */
  lemma ProjectedGrowths(ls: seq<IdLine>, ks: seq<CategoryMonth>, gs: seq<Growth>)
    requires Sorting.SortedDesc(gs, GrowthKey)
    requires forall i :: 0 <= i < |gs| ==> CategoryMonth(gs[i].category, gs[i].month) in ks
    requires forall i :: 0 <= i < |gs| ==> GrowthOk(ls, ks, gs[i])
    ensures forall i, j :: 0 <= i < j < |Project(gs)| ==> Project(gs)[i].growthRate >= Project(gs)[j].growthRate
    ensures forall i :: 0 <= i < |Project(gs)| ==> IsGrowthOf(ls, ks, Project(gs)[i])
  {
    var rows := Project(gs);
    forall i, j | 0 <= i < j < |rows| ensures rows[i].growthRate >= rows[j].growthRate {
      assert Sorting.KeyGeq(GrowthKey(gs[i]), GrowthKey(gs[j]));
    }
    forall i | 0 <= i < |rows| ensures IsGrowthOf(ls, ks, rows[i]) {
      assert gs[i] == Growth(rows[i].category, gs[i].month, gs[i].previousMonth, rows[i].growthRate);
    }
  }

  /** The report: the twelve-month trend rows, and one growth row per bucket of the
      three-month window that has an earlier bucket of its category, highest first. */
  function CategoryTrends(st: Store, now: Instant): (r: Report)
    ensures forall i :: 0 <= i < |r.categoryTrends| ==> TrendRowOk(r.categoryTrends[i], now)
    ensures Sorting.SortedDesc(r.categoryTrends, TrendKey)
    ensures var ls := IdLines(st.requisitions, st.softwares, now, 12);
      multiset(r.categoryTrends) == multiset(TrendGroupRows(ls, Seqs.GroupKeys(ls, CategoryMonthOf), now))
    ensures |r.growthRates| == Seqs.CountOf(GrowthBuckets(st, now), PreviousTest(GrowthBuckets(st, now)))
    ensures forall i, j :: 0 <= i < j < |r.growthRates| ==> r.growthRates[i].growthRate >= r.growthRates[j].growthRate
    ensures forall i :: 0 <= i < |r.growthRates| ==> IsGrowthOf(GrowthLines(st, now), GrowthBuckets(st, now), r.growthRates[i])
    ensures r.growthRates == Project(GrowthRates(st, now))
  {
    var gs := GrowthRates(st, now);
    ProjectedGrowths(GrowthLines(st, now), GrowthBuckets(st, now), gs);
    Report(CategoryTrendRows(st, now), Project(gs))
  }
}

=== FILE: common.dfy ===
/** Small shared datatypes: optional values (SQL NULL, absent JSON keys, `undefined`)
    and the outcome of a call into the record store, which either returns or throws. */
module Common {

  datatype Option<+T> = None | Some(value: T) {

    /** The value, or `default` when absent (SQL COALESCE, JavaScript `??`). */
    function GetOr(default: T): T {
      match this
      case Some(v) => v
      case None => default
    }
  }

  /** What a call into the store did: returned a value, or threw (connection refused,
      query error). The thrown error's text is kept for the 500 envelope's `details`. */
  datatype DbCall<+T> = Returned(value: T) | Threw(message: string)

  /** What reading a request's JSON body gave: the fields, or the parser's error. */
  datatype Parse<+T> = Parsed(value: T) | Unparsable(message: string)

  /** JavaScript truthiness of an optional string field: present and not empty. */
  predicate Truthy(s: Option<string>) {
    s.Some? && s.value != ""
  }
}

=== FILE: create_form.dfy ===
/** The form logic of app/requisition/create/page.tsx: field validation (including the
    email pattern), editing a field, resetting the form, and the approve action's guard. */
module CreateForm {
  import opened Common
  import Text
  import Auth

  // ----- the email pattern -----

  /** A character the class `[^\s@]` admits. */
  predicate Plain(c: char) {
    !Text.IsSpace(c) && c != '@'
  }

  /** A '.' at `j` splits the domain after the '@' at `i` into two non-empty parts. */
  predicate DomainDot(s: string, i: int, j: int) {
    0 <= i && i + 1 < j < |s| - 1 && s[j] == '.'
  }

  /** `s` is local@domain split at `i`: a non-empty local part, every other character
      admitted by `[^\s@]`, and a '.' inside the domain. */
  ghost predicate SplitsAt(s: string, i: int) {
    0 < i < |s| && s[i] == '@'
    && (forall k :: 0 <= k < |s| && k != i ==> Plain(s[k]))
    && exists j :: DomainDot(s, i, j)
  }

  /** What `^[^\s@]+@[^\s@]+\.[^\s@]+$` accepts. */
  ghost predicate EmailShape(s: string) {
    exists i :: SplitsAt(s, i)
  }

  /** The pattern test, by one scan for the '@' and white space and one for the dot. */
  method MatchesEmail(s: string) returns (ok: bool)
    ensures ok <==> EmailShape(s)
  {
    var at, second, space := -1, -1, -1;
    var k := 0;
    while k < |s|
      invariant 0 <= k <= |s|
      invariant at == -1 ==> forall m :: 0 <= m < k ==> s[m] != '@'
      invariant at != -1 ==> 0 <= at < k && s[at] == '@' && forall m :: 0 <= m < at ==> s[m] != '@'
      invariant second == -1 ==> forall m :: at < m < k ==> s[m] != '@'
      invariant second != -1 ==> at != -1 && at < second < k && s[second] == '@'
      invariant space == -1 ==> forall m :: 0 <= m < k ==> !Text.IsSpace(s[m])
      invariant space != -1 ==> 0 <= space < k && Text.IsSpace(s[space])
    {
      if s[k] == '@' {
        if at == -1 { at := k; } else if second == -1 { second := k; }
      }
      if space == -1 && Text.IsSpace(s[k]) { space := k; }
      k := k + 1;
    }
    if at <= 0 || second != -1 || space != -1 {
      ok := false;
      NoSplit(s, at, second, space);
      return;
    }
    var j := at + 2;
    ok := false;
    while j < |s| - 1 && !ok
      invariant at + 2 <= j
      invariant !ok ==> forall m :: at + 2 <= m < j ==> !DomainDot(s, at, m)
      invariant ok ==> DomainDot(s, at, j)
      decreases |s| - j, if ok then 0 else 1
    {
      if s[j] == '.' { ok := true; } else { j := j + 1; }
    }
    if ok {
      assert SplitsAt(s, at);
    } else {
      assert forall m :: !DomainDot(s, at, m);
      forall i | 0 <= i < |s| && i != at ensures !SplitsAt(s, i) {
        assert !Plain(s[at]);
      }
    }
  }

  /** A string with no '@', a leading '@', two '@' or any white space has no split. */
  lemma NoSplit(s: string, at: int, second: int, space: int)
    requires at == -1 ==> forall m :: 0 <= m < |s| ==> s[m] != '@'
    requires at != -1 ==> 0 <= at < |s| && s[at] == '@' && forall m :: 0 <= m < at ==> s[m] != '@'
    requires second != -1 ==> at != -1 && at < second < |s| && s[second] == '@'
    requires space != -1 ==> 0 <= space < |s| && Text.IsSpace(s[space])
    requires at <= 0 || second != -1 || space != -1
    ensures !EmailShape(s)
  {
    forall i | 0 <= i < |s| ensures !SplitsAt(s, i) {
      if at == 0 {
        assert !Plain(s[0]);
      } else if at != -1 && second != -1 {
        assert !Plain(s[at]) && !Plain(s[second]);
      } else if space != -1 {
        assert !Plain(s[space]);
      }
    }
  }

  /** A blank but non-empty email (white space only) never has the shape. */
  lemma BlankIsNoEmail(s: string)
    requires |s| > 0 && Text.AllSpace(s)
    ensures !EmailShape(s)
  {
    forall i | 0 <= i < |s| ensures !SplitsAt(s, i) {
      assert !Plain(s[i]);
    }
  }

  // ----- the form -----

  datatype Field = FullName | EmployeeId | EmailAddress | Department | PurposeOfRequest | Software

  datatype Form = Form(
    fullName: string,
    employeeId: string,
    emailAddress: string,
    department: string,
    purposeOfRequest: string,
    software: string)

  function Get(f: Form, name: Field): string {
    match name
    case FullName => f.fullName
    case EmployeeId => f.employeeId
    case EmailAddress => f.emailAddress
    case Department => f.department
    case PurposeOfRequest => f.purposeOfRequest
    case Software => f.software
  }

  /** The form with one field set. */
  function Set(f: Form, name: Field, value: string): (g: Form)
    ensures Get(g, name) == value
    ensures forall other: Field :: other != name ==> Get(g, other) == Get(f, other)
  {
    match name
    case FullName => f.(fullName := value)
    case EmployeeId => f.(employeeId := value)
    case EmailAddress => f.(emailAddress := value)
    case Department => f.(department := value)
    case PurposeOfRequest => f.(purposeOfRequest := value)
    case Software => f.(software := value)
  }

  const Blank: Form := Form("", "", "", "", "", "")

  type Errors = map<Field, string>

  const InvalidEmail: string := "Please enter a valid email address"

  function RequiredMessage(name: Field): string {
    match name
    case FullName => "Full Name is required"
    case EmployeeId => "Employee ID is required"
    case EmailAddress => "Email Address is required"
    case Department => "Department is required"
    case PurposeOfRequest => "Purpose of Request is required"
    case Software => "Software selection is required"
  }

  /** Whether the required check fails: blank after trimming, except the department,
      which is chosen from a list and only checked for being empty. */
  predicate Missing(f: Form, name: Field) {
    if name == Department then f.department == "" else Text.Trim(Get(f, name)) == ""
  }

  const AllFields: set<Field> := {FullName, EmployeeId, EmailAddress, Department, PurposeOfRequest, Software}

  lemma EveryField(name: Field)
    ensures name in AllFields
  {
  }

  /** The required checks on all six fields. */
  function RequiredErrors(f: Form): (e: Errors)
    ensures forall name :: name in e <==> Missing(f, name)
    ensures forall name :: name in e ==> e[name] == RequiredMessage(name)
  {
    var e := map name | name in AllFields && Missing(f, name) :: RequiredMessage(name);
    assert forall name :: Missing(f, name) ==> name in e by {
      forall name | Missing(f, name) ensures name in e { EveryField(name); }
    }
    e
  }

  /** `validateForm`: the error map, and whether the form is valid. */
  method ValidateForm(f: Form) returns (errors: Errors, valid: bool)
    ensures valid <==> |errors| == 0
    ensures valid <==> (forall name :: !Missing(f, name)) && EmailShape(f.emailAddress)
    ensures forall name :: name != EmailAddress ==>
      (name in errors <==> Missing(f, name)) && (name in errors ==> errors[name] == RequiredMessage(name))
    ensures EmailAddress in errors <==> Missing(f, EmailAddress) || (f.emailAddress != "" && !EmailShape(f.emailAddress))
    ensures EmailAddress in errors ==>
      errors[EmailAddress] == (if f.emailAddress != "" && !EmailShape(f.emailAddress) then InvalidEmail else RequiredMessage(EmailAddress))
  {
    errors := RequiredErrors(f);
    if f.emailAddress != "" {
      var shaped := MatchesEmail(f.emailAddress);
      if !shaped { errors := errors[EmailAddress := InvalidEmail]; }
    }
    valid := |errors| == 0;
  }

  /** A white-space-only email is both blank and malformed, and the malformed message wins. */
  lemma BlankEmailReportsInvalid(f: Form)
    requires |f.emailAddress| > 0 && Text.AllSpace(f.emailAddress)
    ensures Missing(f, EmailAddress) && f.emailAddress != "" && !EmailShape(f.emailAddress)
  {
    BlankIsNoEmail(f.emailAddress);
  }

  /** `handleInputChange`: set the named field, and blank that field's message if it had
      a non-empty one (the key stays in the map). */
  function HandleInputChange(f: Form, errors: Errors, name: Field, value: string): (r: (Form, Errors))
    ensures Get(r.0, name) == value
    ensures forall other: Field :: other != name ==> Get(r.0, other) == Get(f, other)
    ensures r.1.Keys == errors.Keys
    ensures name in r.1 ==> r.1[name] == ""
    ensures forall other :: other in errors && other != name ==> r.1[other] == errors[other]
  {
    var errors' := if name in errors && errors[name] != "" then errors[name := ""] else errors;
    (Set(f, name, value), errors')
  }

  /** `handleReset`: every field empty and no errors. */
  function HandleReset(): (r: (Form, Errors))
    ensures forall name: Field :: Get(r.0, name) == ""
    ensures |r.1| == 0
  {
    (Blank, map[])
  }

  /** A reset form is missing every field, so submitting it reports all six. */
  lemma ResetFormMissesEverything(name: Field)
    ensures Missing(HandleReset().0, name)
  {
    assert Text.AllSpace("");
  }

  /** The approval request `handleApprove` sends. */
  datatype Approval = Approval(requisitionId: string, status: int, approvedBy: string, approvedOn: string)

  /** `handleApprove`: nothing without a signed-in user with a name and a requisition id;
      otherwise status 2, approved by the user's name, at `now`. */
  function HandleApprove(user: Option<Auth.User>, editId: Option<string>, now: string): (a: Option<Approval>)
    ensures a.Some? <==> user.Some? && user.value.name != "" && Truthy(editId)
    ensures a.Some? ==> a.value == Approval(editId.value, 2, user.value.name, now)
  {
    if user.Some? && user.value.name != "" && Truthy(editId) then Some(Approval(editId.value, 2, user.value.name, now))
    else None
  }
}

=== FILE: dashboard.dfy ===
/** `fetchStats` in app/dashboard/page.tsx: counts over the requisitions the list API
    returns for the signed-in user. */
module Dashboard {
  import opened Db
  import Seqs
  import RequisitionsApi

  type Row = RequisitionsApi.View

  datatype Stats = Stats(total: nat, approved: nat, pending: nat)

  /** The state before any fetch. */
  const Zero: Stats := Stats(0, 0, 0)

  /** What the fetch gave: a successful response's rows, or anything else (an
      unsuccessful response, or a thrown error). */
  datatype Fetched = Succeeded(rows: seq<Row>) | Unsuccessful

  predicate IsApproved(r: Row) { r.status == Approved }
  predicate IsPending(r: Row) { r.status == Pending }
  predicate AnyRow(r: Row) { true }

  /** The stats after a fetch: recounted on success, untouched otherwise. */
  function FetchStats(prev: Stats, f: Fetched): (s: Stats)
    ensures f.Unsuccessful? ==> s == prev
    ensures f.Succeeded? ==> s.total == |f.rows|
    ensures f.Succeeded? ==> s.approved == Seqs.CountOf(f.rows, IsApproved)
    ensures f.Succeeded? ==> s.pending == Seqs.CountOf(f.rows, IsPending)
    ensures f.Succeeded? ==> s.approved + s.pending <= s.total
  {
    match f
    case Unsuccessful => prev
    case Succeeded(rows) =>
      Seqs.CountOfDisjoint(rows, IsApproved, IsPending, AnyRow);
      Stats(|rows|, Seqs.CountOf(rows, IsApproved), Seqs.CountOf(rows, IsPending))
  }

  predicate IsRejected(r: Row) { r.status == Rejected }

  /** Rejected rows are counted only in the total: when every row is pending, approved
      or rejected, the rejected ones are exactly the gap. */
  lemma {:induction false} RejectedFillTheGap(rows: seq<Row>)
    requires forall i :: 0 <= i < |rows| ==> rows[i].status in {Pending, Approved, Rejected}
    ensures var s := FetchStats(Zero, Succeeded(rows));
      s.total - s.approved - s.pending == Seqs.CountOf(rows, IsRejected)
    decreases |rows|
  {
    if |rows| > 0 {
      RejectedFillTheGap(rows[1..]);
    }
  }

  /** For an employee served from the mock data, the total is the number of mock
      requisitions carrying the employee's email. */
  lemma EmployeeTotalIsOwnCount(q: RequisitionsApi.Query, s: RequisitionsApi.Server, now: Instant)
    requires RequisitionsApi.OwnOnly(q) && !GetDatabaseStatus(s.flag)
    ensures FetchStats(Zero, Succeeded(RequisitionsApi.Get(q, s, Common.Threw(""), now).response.payload.rows)).total
         == Seqs.CountOf(s.mock, (r: Requisition) => r.employeeEmail == q.email.value)
  {
  }
}

=== FILE: db.dfy ===
/** lib/db.ts: the record types of the four tables, the module-level state the
    route handlers share (the mock requisition id counter and the "database in use"
    flag), the mock data used when the database is unavailable, and the
    seed-if-empty rule of `initializeDatabase`. */
module Db {
  import opened Common
  import Seqs

  /** A point in time: the calendar month it falls in (months counted from a fixed
      epoch; this is what DATE_TRUNC('month', ...) keeps) and a position within that
      month. Instants are ordered month first. */
  datatype Instant = Instant(month: int, offset: nat)

  predicate Earlier(a: Instant, b: Instant) {
    a.month < b.month || (a.month == b.month && a.offset < b.offset)
  }

  /** `t - INTERVAL 'k months'`: the same position, k calendar months earlier. */
  function MonthsBefore(t: Instant, k: nat): (r: Instant)
    ensures r.month == t.month - k && r.offset == t.offset
  {
    Instant(t.month - k, t.offset)
  }

  /** `created >= now - INTERVAL 'k months'`. */
  predicate InWindow(created: Instant, now: Instant, k: nat) {
    !Earlier(created, MonthsBefore(now, k))
  }

  const Pending: int := 1
  const Approved: int := 2
  const Rejected: int := 3

  /** A pg_requisitions row (also the shape of a mock requisition in this file). */
  datatype Requisition = Requisition(
    id: int,
    employeeName: string,
    employeeId: string,
    employeeEmail: string,
    pod: string,
    purpose: string,
    software: Option<string>,
    softwareId: Option<int>,
    statusId: int,
    approvedBy: Option<string>,
    approvedOn: Option<Instant>,
    createdAt: Instant,
    updatedAt: Instant)

  /** A pg_softwares row. `name` and `licenseType` are the columns added by ALTER
      TABLE and are NULL on rows created before them; `cost` is in paise. */
  datatype Software = Software(
    softwareId: int,
    name: Option<string>,
    licenseType: Option<string>,
    cost: int,
    currency: string)

  /** A pg_budgets row; `allocatedAmount` is in paise. */
  datatype Budget = Budget(pod: string, allocatedAmount: int, currency: string, fiscalYear: string)

  /** A pg_users row, or a mock user. The mock users have no employee id. */
  datatype User = User(
    userId: string,
    name: string,
    email: string,
    password: string,
    role: string,
    employeeId: Option<string>)

  /** The database's contents, with the next values of the two identity columns. */
  datatype Store = Store(
    users: seq<User>,
    requisitions: seq<Requisition>,
    softwares: seq<Software>,
    budgets: seq<Budget>,
    nextRequisitionSerial: int,
    nextSoftwareSerial: int)

  // ----- module-level state -----

  /** The `nextRequisitionId` counter behind `getNextId`. */
  datatype IdCounter = IdCounter(next: int)

  /** The counter's value when the module loads: one past the three mock requisitions. */
  const InitialCounter: IdCounter := IdCounter(4)

  /** `getNextId`: `nextRequisitionId++`, the current value, then the counter moved on. */
  function GetNextId(c: IdCounter): (r: (int, IdCounter))
    ensures r.1.next == r.0 + 1
    ensures r.0 == c.next
  {
    (c.next, IdCounter(c.next + 1))
  }

  /** The ids handed out by `n` successive `getNextId` calls, and the counter after them. */
  function IssueIds(c: IdCounter, n: nat): (r: (seq<int>, IdCounter))
    ensures |r.0| == n
    decreases n
  {
    if n == 0 then ([], c)
    else
      var (id, c1) := GetNextId(c);
      var (rest, c2) := IssueIds(c1, n - 1);
      ([id] + rest, c2)
  }

  /** Successive ids are consecutive, start at the counter, and leave it n further on. */
  lemma {:induction false} IssueIdsConsecutive(c: IdCounter, n: nat)
    ensures forall i :: 0 <= i < n ==> IssueIds(c, n).0[i] == c.next + i
    ensures IssueIds(c, n).1.next == c.next + n
    decreases n
  {
    if n > 0 {
      IssueIdsConsecutive(IdCounter(c.next + 1), n - 1);
    }
  }

  /** Hence they strictly increase, so no id is handed out twice. */
  lemma IssuedIdsIncrease(c: IdCounter, n: nat)
    ensures forall i, j :: 0 <= i < j < n ==> IssueIds(c, n).0[i] < IssueIds(c, n).0[j]
  {
    IssueIdsConsecutive(c, n);
  }

  /** Every id the module hands out is above every seeded mock requisition's id. */
  lemma IssuedIdsAreFresh(loadedAt: Instant, n: nat)
    ensures forall i, k :: 0 <= i < n && 0 <= k < |MockRequisitions(loadedAt)| ==>
      IssueIds(InitialCounter, n).0[i] > MockRequisitions(loadedAt)[k].id
  {
    IssueIdsConsecutive(InitialCounter, n);
  }

  /** The `isUsingDatabase` flag. */
  datatype StoreFlag = StoreFlag(usingDatabase: bool)

  const InitialFlag: StoreFlag := StoreFlag(true)

  function SetDatabaseStatus(f: StoreFlag, status: bool): StoreFlag {
    StoreFlag(status)
  }

  function GetDatabaseStatus(f: StoreFlag): bool {
    f.usingDatabase
  }

  /** The flag after a series of `setDatabaseStatus` calls from module load. */
  function FlagAfter(updates: seq<bool>): StoreFlag {
    if |updates| == 0 then InitialFlag
    else SetDatabaseStatus(FlagAfter(updates[..|updates| - 1]), updates[|updates| - 1])
  }

  /** `getDatabaseStatus` reports the last status set, or true if none was. */
  lemma FlagReadsLastWrite(updates: seq<bool>)
    ensures GetDatabaseStatus(FlagAfter(updates)) == if |updates| == 0 then true else updates[|updates| - 1]
  {
  }

  // ----- mock data -----

  const MockUsers: seq<User> := [
    User("EMP001", "John Doe", "john@company.com", "password@123", "employee", None),
    User("HOD001", "Mike Johnson", "hod@company.com", "hod123", "hod", None)
  ]

  /** A requisition as the seed data writes it: pending, no approver. */
  function SeedRequisition(id: int, name: string, employeeId: string, email: string, pod: string,
                           purpose: string, software: string, softwareId: int, at: Instant): Requisition
  {
    Requisition(id, name, employeeId, email, pod, purpose, Some(software), Some(softwareId),
                Pending, None, None, at, at)
  }

  /** The three mock requisitions, time-stamped when the module loads. */
  function MockRequisitions(loadedAt: Instant): (rs: seq<Requisition>)
    ensures |rs| == 3
    ensures forall i :: 0 <= i < |rs| ==> rs[i].id == i + 1
  {
    [ SeedRequisition(1, "John Doe", "EMP001", "john@company.com", "Engineering",
        "Laptop for development work", "Visual Studio Code", 1, loadedAt),
      SeedRequisition(2, "John Doe", "EMP001", "john@company.com", "Engineering",
        "Software license for project", "Microsoft Office", 2, loadedAt),
      SeedRequisition(3, "Mike Johnson", "HOD001", "hod@company.com", "Management",
        "Office supplies for department", "Adobe Photoshop", 3, loadedAt) ]
  }

  /** Every mock requisition is pending with no approver and no approval date. */
  lemma MockRequisitionsPending(loadedAt: Instant)
    ensures forall r :: r in MockRequisitions(loadedAt) ==>
      r.statusId == Pending && r.approvedBy.None? && r.approvedOn.None?
  {
  }

  // ----- seeding -----

  const SeedBudgets: seq<Budget> := [
    Budget("Engineering", 50000000, "INR", "2024-25"),
    Budget("Management", 20000000, "INR", "2024-25"),
    Budget("Procure", 30000000, "INR", "2024-25"),
    Budget("Finance", 15000000, "INR", "2024-25"),
    Budget("HR", 10000000, "INR", "2024-25")
  ]

  /** The catalogue rows the seed inserts, without their identity values. */
  const SeedCatalogue: seq<(string, string, int)> := [
    ("Visual Studio Code", "Development Tools", 0),
    ("Microsoft Office", "Office Suite", 800000),
    ("Adobe Photoshop", "Graphics Design", 1500000),
    ("AutoCAD", "Design", 12000000),
    ("Slack Pro", "Communication", 250000),
    ("Figma Pro", "Design", 120000),
    ("Jira Software", "Project Management", 500000),
    ("GitHub Copilot", "Development Tools", 80000)
  ]

  /** The seeded catalogue, its identity column numbered from `firstId`. */
  function SeedSoftwares(firstId: int): (ss: seq<Software>)
    ensures |ss| == |SeedCatalogue|
    ensures forall i :: 0 <= i < |ss| ==> ss[i].softwareId == firstId + i && ss[i].name.Some?
  {
    seq(|SeedCatalogue|, i requires 0 <= i < |SeedCatalogue| =>
      Software(firstId + i, Some(SeedCatalogue[i].0), Some(SeedCatalogue[i].1), SeedCatalogue[i].2, "INR"))
  }

  /** The seeded requisitions: the mock requisitions' contents, serial ids from `firstId`,
      status defaulting to pending and created at `now`. */
  function SeedRequisitions(firstId: int, now: Instant): (rs: seq<Requisition>)
    ensures |rs| == 3
    ensures forall i :: 0 <= i < |rs| ==> rs[i].id == firstId + i
  {
    var ms := MockRequisitions(now);
    seq(3, i requires 0 <= i < 3 => ms[i].(id := firstId + i))
  }

  predicate HasName(s: Software) {
    s.name.Some?
  }

  /** The table-filling part of `initializeDatabase`: each seed batch is inserted only
      when its table is empty (for the catalogue, when no row has a software name). */
  function InitializeDatabase(st: Store, now: Instant): (r: Store)
    ensures |st.users| > 0 ==> r.users == st.users
    ensures |st.users| == 0 ==> r.users == MockUsers
    ensures |st.budgets| > 0 ==> r.budgets == st.budgets
    ensures |st.budgets| == 0 ==> r.budgets == SeedBudgets
    ensures Seqs.CountOf(st.softwares, HasName) > 0 ==> r.softwares == st.softwares
    ensures Seqs.CountOf(st.softwares, HasName) == 0 ==>
      r.softwares == st.softwares + SeedSoftwares(st.nextSoftwareSerial)
    ensures |st.requisitions| > 0 ==> r.requisitions == st.requisitions
    ensures |st.requisitions| == 0 ==> r.requisitions == SeedRequisitions(st.nextRequisitionSerial, now)
    ensures |r.users| > 0 && |r.budgets| > 0 && |r.requisitions| > 0
    ensures Seqs.CountOf(r.softwares, HasName) > 0
  {
    var users := if |st.users| == 0 then st.users + MockUsers else st.users;
    var budgets := if |st.budgets| == 0 then st.budgets + SeedBudgets else st.budgets;
    var noNames := Seqs.CountOf(st.softwares, HasName) == 0;
    var softwares := if noNames then st.softwares + SeedSoftwares(st.nextSoftwareSerial) else st.softwares;
    var swSerial := if noNames then st.nextSoftwareSerial + |SeedCatalogue| else st.nextSoftwareSerial;
    var reqs := if |st.requisitions| == 0 then SeedRequisitions(st.nextRequisitionSerial, now) else st.requisitions;
    var reqSerial := if |st.requisitions| == 0 then st.nextRequisitionSerial + 3 else st.nextRequisitionSerial;
    if noNames then
      assert softwares[|st.softwares|] == SeedSoftwares(st.nextSoftwareSerial)[0];
      assert Seqs.CountOf(softwares, HasName) > 0;
      Store(users, reqs, softwares, budgets, reqSerial, swSerial)
    else
      Store(users, reqs, softwares, budgets, reqSerial, swSerial)
  }

  /** Initialising a second time, at any moment, adds nothing. */
  lemma InitializeIdempotent(st: Store, now: Instant, later: Instant)
    ensures InitializeDatabase(InitializeDatabase(st, now), later) == InitializeDatabase(st, now)
  {
  }
}

=== FILE: joins.dfy ===
/** The joins the analytics queries in app/api/analytics/route.ts are built on, as
    sequences of joined rows. A join row is produced for every matching pair, so a
    duplicated catalogue name or budget POD multiplies rows exactly as in SQL. */
module Joins {
  import opened Common
  import opened Db
  import Seqs

  /** `p1.software = p2.software_name`: SQL equality, never true when either side is NULL. */
  predicate NameMatch(r: Requisition, s: Software) {
    r.software.Some? && s.name == r.software
  }

  /** `r.software_id = s.software_id`. */
  predicate IdMatch(r: Requisition, s: Software) {
    r.softwareId == Some(s.softwareId)
  }

  /** The catalogue rows whose name matches the requisition's software. */
  function NameMatches(r: Requisition, sws: seq<Software>): (ms: seq<Software>)
    ensures forall i :: 0 <= i < |ms| ==> ms[i] in sws && NameMatch(r, ms[i])
    ensures forall i :: 0 <= i < |sws| && NameMatch(r, sws[i]) ==> sws[i] in ms
  {
    if |sws| == 0 then []
    else (if NameMatch(r, sws[0]) then [sws[0]] else []) + NameMatches(r, sws[1..])
  }

  /** The catalogue rows whose identity matches the requisition's software_id. */
  function IdMatches(r: Requisition, sws: seq<Software>): (ms: seq<Software>)
    ensures forall i :: 0 <= i < |ms| ==> ms[i] in sws && IdMatch(r, ms[i])
    ensures forall i :: 0 <= i < |sws| && IdMatch(r, sws[i]) ==> sws[i] in ms
  {
    if |sws| == 0 then []
    else (if IdMatch(r, sws[0]) then [sws[0]] else []) + IdMatches(r, sws[1..])
  }

  /** The budget rows of a POD. */
  function BudgetMatches(pod: string, bs: seq<Budget>): (ms: seq<Budget>)
    ensures forall i :: 0 <= i < |ms| ==> ms[i] in bs && ms[i].pod == pod
    ensures forall i :: 0 <= i < |bs| && bs[i].pod == pod ==> bs[i] in ms
  {
    if |bs| == 0 then []
    else (if bs[0].pod == pod then [bs[0]] else []) + BudgetMatches(pod, bs[1..])
  }

  /** The right side of a LEFT JOIN: every match, or one NULL row when there is none. */
  function LeftSide<T>(ms: seq<T>): (r: seq<Option<T>>)
    ensures |r| > 0
    ensures |ms| == 0 ==> r == [None]
    ensures |ms| > 0 ==> |r| == |ms| && forall i :: 0 <= i < |ms| ==> r[i] == Some(ms[i])
  {
    if |ms| == 0 then [None] else seq(|ms|, i requires 0 <= i < |ms| => Some(ms[i]))
  }

  // ----- approved spending lines -----

  /** One row of `pg_requisitions p1 JOIN pg_softwares p2 ON p1.software = p2.software_name
      LEFT JOIN pg_budgets b ON b.pod = p1.pod WHERE p1.statusid = 2`. */
  datatype Line = Line(req: Requisition, sw: Software, budget: Option<Budget>)

  /** The key of `GROUP BY p1.pod, b.allocated_amount, b.currency`. */
  datatype PodKey = PodKey(pod: string, allocatedAmount: Option<int>, currency: Option<string>)

  function PodKeyOf(l: Line): PodKey {
    match l.budget
    case None => PodKey(l.req.pod, None, None)
    case Some(b) => PodKey(l.req.pod, Some(b.allocatedAmount), Some(b.currency))
  }

  function LineCost(l: Line): int {
    l.sw.cost
  }

  function LineIsApproved(l: Line): bool {
    l.req.statusId == Approved
  }

  function LineIsPending(l: Line): bool {
    l.req.statusId == Pending
  }

  /** A well-formed spending line over the given tables. */
  ghost predicate SpendingLine(l: Line, st: Store) {
    && l.req in st.requisitions && l.req.statusId == Approved
    && l.sw in st.softwares && NameMatch(l.req, l.sw)
    && (l.budget.Some? ==> l.budget.value in st.budgets && l.budget.value.pod == l.req.pod)
    && (l.budget.None? ==> forall b :: b in st.budgets ==> b.pod != l.req.pod)
  }

  function CrossLines(r: Requisition, ss: seq<Software>, bs: seq<Option<Budget>>): (ls: seq<Line>)
    ensures forall i :: 0 <= i < |ls| ==> ls[i].req == r && ls[i].sw in ss && ls[i].budget in bs
    ensures forall s, b :: s in ss && b in bs ==> Line(r, s, b) in ls
  {
    if |ss| == 0 then []
    else
      var first := seq(|bs|, j requires 0 <= j < |bs| => Line(r, ss[0], bs[j]));
      var rest := CrossLines(r, ss[1..], bs);
      assert forall s, b :: s in ss && b in bs ==> Line(r, s, b) in first + rest by {
        forall s, b | s in ss && b in bs ensures Line(r, s, b) in first + rest {
          if s == ss[0] {
            var j :| 0 <= j < |bs| && bs[j] == b;
            assert first[j] == Line(r, s, b);
          } else {
            assert s in ss[1..];
          }
        }
      }
      first + rest
  }

  /** The join rows one requisition contributes (none unless it is approved). */
  function LinesOf(r: Requisition, st: Store): seq<Line> {
    if r.statusId == Approved then
      CrossLines(r, NameMatches(r, st.softwares), LeftSide(BudgetMatches(r.pod, st.budgets)))
    else []
  }

  function LinesFrom(rs: seq<Requisition>, st: Store): (ls: seq<Line>)
    ensures forall i :: 0 <= i < |ls| ==> ls[i].req in rs
  {
    if |rs| == 0 then [] else LinesOf(rs[0], st) + LinesFrom(rs[1..], st)
  }

  /** The spending lines: exactly the join rows of approved requisitions. */
  function ApprovedLines(st: Store): (ls: seq<Line>)
    ensures forall i :: 0 <= i < |ls| ==> SpendingLine(ls[i], st)
    ensures forall i :: 0 <= i < |ls| ==> ls[i].req.statusId == Approved
  {
    LinesFromSound(st.requisitions, st);
    LinesFrom(st.requisitions, st)
  }

  lemma {:induction false} LinesFromSound(rs: seq<Requisition>, st: Store)
    requires forall r :: r in rs ==> r in st.requisitions
    ensures forall l :: l in LinesFrom(rs, st) ==> SpendingLine(l, st)
  {
    if |rs| > 0 {
      LinesFromSound(rs[1..], st);
      var r := rs[0];
      if r.statusId == Approved {
        var ms := BudgetMatches(r.pod, st.budgets);
        forall l | l in LinesOf(r, st) ensures SpendingLine(l, st) {
          if l.budget.None? {
            assert |ms| == 0;
          } else {
            assert |ms| > 0;
            var j :| 0 <= j < |ms| && LeftSide(ms)[j] == l.budget;
          }
        }
      }
    }
  }

  /** Every approved requisition with a catalogue match is represented: for each
      matching catalogue row there is a line, whether or not the POD has a budget. */
  lemma {:induction false} ApprovedLinesComplete(st: Store, r: Requisition, s: Software)
    requires r in st.requisitions && r.statusId == Approved
    requires s in st.softwares && NameMatch(r, s)
    ensures exists l :: l in ApprovedLines(st) && l.req == r && l.sw == s
  {
    LinesFromComplete(st.requisitions, st, r, s);
  }

  lemma {:induction false} LinesFromComplete(rs: seq<Requisition>, st: Store, r: Requisition, s: Software)
    requires r in rs && r.statusId == Approved
    requires s in st.softwares && NameMatch(r, s)
    ensures exists l :: l in LinesFrom(rs, st) && l.req == r && l.sw == s
  {
    if rs[0] == r {
      var ms := NameMatches(r, st.softwares);
      var bs := LeftSide(BudgetMatches(r.pod, st.budgets));
      assert s in ms;
      assert bs[0] in bs;
      var l := Line(r, s, bs[0]);
      assert l in LinesOf(r, st);
      assert l in LinesFrom(rs, st);
    } else {
      LinesFromComplete(rs[1..], st, r, s);
      var l :| l in LinesFrom(rs[1..], st) && l.req == r && l.sw == s;
      assert l in LinesFrom(rs, st);
    }
  }

  // ----- left-joined lines -----

  /** One row of `pg_requisitions r LEFT JOIN pg_softwares s ON r.software = s.software_name`. */
  datatype LeftLine = LeftLine(req: Requisition, sw: Option<Software>)

  function LeftLineCost(l: LeftLine): int {
    if l.sw.Some? then l.sw.value.cost else 0
  }

  function LeftLinesOf(r: Requisition, sws: seq<Software>): (ls: seq<LeftLine>)
    ensures |ls| > 0
    ensures forall i :: 0 <= i < |ls| ==> ls[i].req == r
    ensures forall i :: 0 <= i < |ls| && ls[i].sw.Some? ==> ls[i].sw.value in sws && NameMatch(r, ls[i].sw.value)
    ensures forall i :: 0 <= i < |ls| && ls[i].sw.None? ==> forall s :: s in sws ==> !NameMatch(r, s)
  {
    var ms := NameMatches(r, sws);
    var side := LeftSide(ms);
    seq(|side|, i requires 0 <= i < |side| => LeftLine(r, side[i]))
  }

  /** Some join row carries requisition `r`. */
  ghost predicate Represented(ls: seq<LeftLine>, r: Requisition) {
    exists j :: 0 <= j < |ls| && ls[j].req == r
  }

  /** The left join of the given requisitions with the catalogue, by name: every
      requisition is kept, matched or not. */
  function LeftLines(rs: seq<Requisition>, sws: seq<Software>): (ls: seq<LeftLine>)
    ensures |ls| >= |rs|
    ensures forall i :: 0 <= i < |ls| ==> ls[i].req in rs
    ensures forall i :: 0 <= i < |rs| ==> Represented(ls, rs[i])
  {
    if |rs| == 0 then []
    else
      var first := LeftLinesOf(rs[0], sws);
      var rest := LeftLines(rs[1..], sws);
      AppendRepresents(rs, first, rest);
      first + rest
  }

  lemma AppendRepresents(rs: seq<Requisition>, first: seq<LeftLine>, rest: seq<LeftLine>)
    requires |rs| > 0 && |first| > 0 && first[0].req == rs[0]
    requires forall i :: 0 <= i < |rs| - 1 ==> Represented(rest, rs[1..][i])
    ensures forall i :: 0 <= i < |rs| ==> Represented(first + rest, rs[i])
  {
    var ls := first + rest;
    forall i | 0 <= i < |rs| ensures Represented(ls, rs[i]) {
      if i == 0 {
        assert ls[0] == first[0];
      } else {
        assert rs[i] == rs[1..][i - 1];
        assert Represented(rest, rs[1..][i - 1]);
        var j :| 0 <= j < |rest| && rest[j].req == rs[1..][i - 1];
        assert ls[|first| + j] == rest[j];
      }
    }
  }
}

=== FILE: login.dfy ===
/** The POST handler of app/api/login/route.ts: check that both credentials are given,
    look the user up in the database while the "database in use" flag is set, and
    otherwise (or when the database call throws, which clears the flag) in the mock
    users of lib/db.ts. */
module Login {
  import opened Common
  import opened Db

  /** The `email` and `password` body fields, each possibly absent. */
  datatype Credentials = Credentials(email: Option<string>, password: Option<string>)

  /** The user data a successful login returns. */
  datatype Account = Account(id: string, email: string, name: string, role: string, employeeId: Option<string>)

  datatype Payload =
    | LoggedIn(message: string, account: Account)
    | Failed(error: string, details: Option<string>)

  datatype Response = Response(status: int, payload: Payload)

  const CredentialsRequired: string := "Email and password are required"
  const InvalidCredentials: string := "Invalid email or password"
  const InternalError: string := "Internal server error"
  const DatabaseWelcome: string := "Login successful"
  const MockWelcome: string := "Login successful (mock)"

  /** The employee id a mock login reports when the user has none. */
  const DefaultEmployeeId: string := "EMP001"

  /** Whether a user's stored email and password are exactly the ones given. */
  predicate Matches(u: User, email: string, password: string) {
    u.email == email && u.password == password
  }

  /** `users.find(...)`: the first user that matches. */
  function Find(users: seq<User>, email: string, password: string): (r: Option<nat>)
    ensures r.None? <==> forall i :: 0 <= i < |users| ==> !Matches(users[i], email, password)
    ensures r.Some? ==> r.value < |users| && Matches(users[r.value], email, password)
    ensures r.Some? ==> forall i :: 0 <= i < r.value ==> !Matches(users[i], email, password)
    decreases |users|
  {
    if |users| == 0 then None
    else if Matches(users[0], email, password) then Some(0)
    else match Find(users[1..], email, password)
      case None => None
      case Some(k) => Some(k + 1)
  }

  /** The response to credentials that passed the presence check, looked up in `users`;
      `fallback` is the employee id reported for a user without one. */
  function Lookup(users: seq<User>, email: string, password: string,
                  message: string, fallback: Option<string>): (r: Response)
    ensures r.payload.Failed? <==> Find(users, email, password).None?
    ensures r.payload.Failed? ==> r == Response(401, Failed(InvalidCredentials, None))
    ensures r.payload.LoggedIn? ==>
      r.status == 200 && r.payload.message == message
      && r.payload.account.email == email
      && exists i :: 0 <= i < |users| && Matches(users[i], email, password)
                     && r.payload.account.id == users[i].userId
    ensures r.payload.LoggedIn? ==> IsAccountOf(r.payload.account, users[Find(users, email, password).value])
  {
    match Find(users, email, password)
    case None => Response(401, Failed(InvalidCredentials, None))
    case Some(i) =>
      var u := users[i];
      var employeeId := if fallback.Some? && !Truthy(u.employeeId) then fallback else u.employeeId;
      Response(200, LoggedIn(message, Account(u.userId, u.email, u.name, u.role, employeeId)))
  }

  /** The account shows the user's id, email, name and role. */
  predicate IsAccountOf(a: Account, u: User) {
    a.id == u.userId && a.email == u.email && a.name == u.name && a.role == u.role
  }

  /** The users a well-formed request is checked against: those the database returned
      while the flag is set, the mock users otherwise. */
  function UsersFor(flag: StoreFlag, store: DbCall<Store>, now: Instant): seq<User> {
    if GetDatabaseStatus(flag) && store.Returned? then InitializeDatabase(store.value, now).users else MockUsers
  }

  /** Whether the request gets past the presence check to a lookup. */
  predicate Attempts(b: Parse<Credentials>) {
    b.Parsed? && Truthy(b.value.email) && Truthy(b.value.password)
  }

  /** The handler. `store` is what seeding the tables and running the user query did.
      Returns the response and the flag after the call. */
  function Post(b: Parse<Credentials>, flag: StoreFlag, store: DbCall<Store>, now: Instant): (r: (Response, StoreFlag))
    ensures b.Unparsable? ==> r == (Response(500, Failed(InternalError, Some(b.message))), flag)
    ensures b.Parsed? && !(Truthy(b.value.email) && Truthy(b.value.password)) ==>
      r == (Response(400, Failed(CredentialsRequired, None)), flag)
    ensures GetDatabaseStatus(r.1) <==> GetDatabaseStatus(flag) && (!Attempts(b) || store.Returned?)
    ensures Attempts(b) ==>
      var users := UsersFor(flag, store, now);
      var found := Find(users, b.value.email.value, b.value.password.value);
      && (r.0.payload.LoggedIn? <==> found.Some?)
      && (found.None? ==> r.0 == Response(401, Failed(InvalidCredentials, None)))
      && (found.Some? ==> r.0.status == 200 && IsAccountOf(r.0.payload.account, users[found.value]))
    ensures Attempts(b) && r.0.payload.LoggedIn? ==>
      (r.0.payload.message == DatabaseWelcome <==> GetDatabaseStatus(flag) && store.Returned?)
    ensures r.0.payload.LoggedIn? && r.0.payload.message == MockWelcome ==>
      r.0.payload.account.employeeId.Some?
  {
    match b
    case Unparsable(msg) => (Response(500, Failed(InternalError, Some(msg))), flag)
    case Parsed(c) =>
      if !(Truthy(c.email) && Truthy(c.password)) then (Response(400, Failed(CredentialsRequired, None)), flag)
      else if GetDatabaseStatus(flag) && store.Returned? then
        var users := InitializeDatabase(store.value, now).users;
        (Lookup(users, c.email.value, c.password.value, DatabaseWelcome, None), flag)
      else
        var flag' := if GetDatabaseStatus(flag) then SetDatabaseStatus(flag, false) else flag;
        (Lookup(MockUsers, c.email.value, c.password.value, MockWelcome, Some(DefaultEmployeeId)), flag')
  }

  /** The mock users carry no employee id, so every mock login, the head of department's
      included, reports the default one. */
  lemma MockLoginsReportDefaultId(email: string, password: string)
    ensures var r := Lookup(MockUsers, email, password, MockWelcome, Some(DefaultEmployeeId));
      r.payload.LoggedIn? ==> r.payload.account.employeeId == Some(DefaultEmployeeId)
  {
  }

  /** The two mock users can log in with their own credentials and get their own roles. */
  lemma MockUsersLogIn(flag: StoreFlag, now: Instant)
    requires !GetDatabaseStatus(flag)
    ensures var r := Post(Parsed(Credentials(Some("john@company.com"), Some("password@123"))), flag, Threw(""), now).0;
      r.payload.LoggedIn? && r.payload.account.role == "employee" && r.payload.account.id == "EMP001"
    ensures var r := Post(Parsed(Credentials(Some("hod@company.com"), Some("hod123"))), flag, Threw(""), now).0;
      r.payload.LoggedIn? && r.payload.account.role == "hod" && r.payload.account.employeeId == Some(DefaultEmployeeId)
  {
  }

  /** Email is compared exactly: the mock users' emails in capitals do not log in. */
  lemma EmailCaseMatters(flag: StoreFlag, now: Instant)
    requires !GetDatabaseStatus(flag)
    ensures Post(Parsed(Credentials(Some("JOHN@company.com"), Some("password@123"))), flag, Threw(""), now).0
         == Response(401, Failed(InvalidCredentials, None))
  {
    assert !Matches(MockUsers[0], "JOHN@company.com", "password@123");
  }

  /** The error Postgres raises for the user query as written, which selects an
      `employeeid` column. */
  const EmployeeIdMissing: string := "column \"employeeid\" does not exist"

  /** The handler as written: the user query also selects `employeeid`, which the users
      table has only if it was created with one outside `initializeDatabase`, whose CREATE
      TABLE defines none. Without the column the query throws inside the database branch. */
  function PostAsWritten(b: Parse<Credentials>, flag: StoreFlag, store: DbCall<Store>, now: Instant,
                         tableHasEmployeeId: bool): (r: (Response, StoreFlag))
    ensures tableHasEmployeeId ==> r == Post(b, flag, store, now)
    ensures !tableHasEmployeeId && store.Returned? ==> r == Post(b, flag, Threw(EmployeeIdMissing), now)
  {
    var answered := if store.Returned? && !tableHasEmployeeId then Threw(EmployeeIdMissing) else store;
    Post(b, flag, answered, now)
  }

  /** On the tables `initializeDatabase` creates, the first well-formed login clears the
      flag although the database answered. From then on the requisitions and login
      routes serve mock data, and the analytics route answers 'Database not available'. */
  lemma LoginAsWrittenClearsFlag(c: Credentials, flag: StoreFlag, st: Store, now: Instant)
    requires Attempts(Parsed(c)) && GetDatabaseStatus(flag)
    ensures !GetDatabaseStatus(PostAsWritten(Parsed(c), flag, Returned(st), now, false).1)
    ensures GetDatabaseStatus(Post(Parsed(c), flag, Returned(st), now).1)
  {
  }
}

=== FILE: login_mock.dfy ===
/** app/api/login/route-mock.ts: a stand-alone login over its own two users, comparing
    emails without regard to case and passwords exactly, and returning no employee id. */
module LoginMock {
  import opened Common
  import Text
  import Db
  import Login

  /** The user list, the same two users as lib/db.ts's mock users. */
  const Users: seq<Db.User> := Db.MockUsers

  /** The account data this variant returns: no employee id. */
  datatype Account = Account(id: string, email: string, name: string, role: string)

  datatype Payload = LoggedIn(message: string, account: Account) | Failed(error: string)

  datatype Response = Response(status: int, payload: Payload)

  /** `u.emailid.toLowerCase() === email.toLowerCase() && u.password === password`. */
  predicate Matches(u: Db.User, email: string, password: string) {
    Text.ToLower(u.email) == Text.ToLower(email) && u.password == password
  }

  /** The first user that matches. */
  function Find(users: seq<Db.User>, email: string, password: string): (r: Option<nat>)
    ensures r.None? <==> forall i :: 0 <= i < |users| ==> !Matches(users[i], email, password)
    ensures r.Some? ==> r.value < |users| && Matches(users[r.value], email, password)
    ensures r.Some? ==> forall i :: 0 <= i < r.value ==> !Matches(users[i], email, password)
    decreases |users|
  {
    if |users| == 0 then None
    else if Matches(users[0], email, password) then Some(0)
    else match Find(users[1..], email, password)
      case None => None
      case Some(k) => Some(k + 1)
  }

  /** The handler. The user list is a constant: nothing here can change it. */
  function Post(b: Parse<Login.Credentials>): (r: Response)
    ensures b.Unparsable? ==> r == Response(500, Failed(Login.InternalError))
    ensures b.Parsed? && !Login.Attempts(b) ==> r == Response(400, Failed(Login.CredentialsRequired))
    ensures Login.Attempts(b) && Find(Users, b.value.email.value, b.value.password.value).None? ==>
      r == Response(401, Failed(Login.InvalidCredentials))
    ensures Login.Attempts(b) ==>
      (r.payload.LoggedIn? <==> Find(Users, b.value.email.value, b.value.password.value).Some?)
    ensures r.payload.LoggedIn? ==>
      r.status == 200 && Login.Attempts(b) && r.payload.message == Login.DatabaseWelcome
      && var u := Users[Find(Users, b.value.email.value, b.value.password.value).value];
         r.payload.account == Account(u.userId, u.email, u.name, u.role)
  {
    match b
    case Unparsable(_) => Response(500, Failed(Login.InternalError))
    case Parsed(c) =>
      if !(Truthy(c.email) && Truthy(c.password)) then Response(400, Failed(Login.CredentialsRequired))
      else match Find(Users, c.email.value, c.password.value)
        case None => Response(401, Failed(Login.InvalidCredentials))
        case Some(i) =>
          var u := Users[i];
          Response(200, LoggedIn(Login.DatabaseWelcome, Account(u.userId, u.email, u.name, u.role)))
  }

  /** Unlike the main route, the mock route lets an email in any letter case log in, and
      the account it returns is the stored one, with the stored spelling of the email. */
  lemma EmailCaseIgnored()
    ensures Post(Parsed(Login.Credentials(Some("JOHN@Company.com"), Some("password@123"))))
         == Response(200, LoggedIn("Login successful", Account("EMP001", "john@company.com", "John Doe", "employee")))
  {
    assert Text.ToLower("JOHN@Company.com") == Text.ToLower("john@company.com");
  }

  /** The password is compared exactly. */
  lemma PasswordCaseMatters()
    ensures Post(Parsed(Login.Credentials(Some("john@company.com"), Some("PASSWORD@123")))).payload.Failed?
  {
    assert !Matches(Users[0], "john@company.com", "PASSWORD@123");
    assert Text.ToLower(Users[1].email) != Text.ToLower("john@company.com") by {
      assert Text.ToLower(Users[1].email)[0] == 'h';
    }
  }

  /** Whenever the main route's mock fallback accepts credentials, so does this route, for
      the same user: an exact email match is also a match ignoring case. */
  lemma AcceptsWhatMainRouteAccepts(email: string, password: string)
    requires Login.Find(Users, email, password).Some?
    ensures Find(Users, email, password).Some?
    ensures Find(Users, email, password) == Login.Find(Users, email, password)
  {
    var i := Login.Find(Users, email, password).value;
    assert Matches(Users[i], email, password);
    if i == 1 {
      assert !Matches(Users[0], email, password) by {
        assert Text.ToLower(Users[0].email)[0] == 'j';
        assert Text.ToLower(email)[0] == 'h';
      }
    }
  }
}

=== FILE: numeric.dfy ===
/** Exact decimal arithmetic used by the reports. Money is held in integer minor units
    (paise, two decimals as in the DECIMAL(10,2) and DECIMAL(12,2) columns) and
    percentages rounded to two decimals are held in integer hundredths of a percent. */
module Numeric {

  /** n / d rounded to the nearest integer, a half rounded away from zero: what
      Postgres ROUND does to a numeric value. */
  function RoundDiv(n: int, d: int): (r: int)
    requires d > 0
    ensures n >= 0 ==> 2 * n - d < 2 * d * r <= 2 * n + d
    ensures n < 0 ==> 2 * n - d <= 2 * d * r < 2 * n + d
  {
    if n >= 0 then RoundUpHalf(n, d) else -(RoundUpHalf(-n, d) as int)
  }

  /** Rounding of a non-negative quotient, a half rounded up. */
  function RoundUpHalf(n: nat, d: int): (r: nat)
    requires d > 0
    ensures 2 * n - d < 2 * d * r <= 2 * n + d
  {
    var q := (2 * n + d) / (2 * d);
    DivBounds(2 * n + d, 2 * d);
    q
  }

  lemma DivBounds(a: nat, b: int)
    requires b > 0
    ensures b * (a / b) <= a < b * (a / b) + b
  {
  }

  /** `round(part / whole * 100, 2)` in hundredths of a percent, as written in the
      reports' CASE expressions (the caller guards `whole > 0`). */
  function Percent(part: int, whole: int): (p: int)
    requires whole > 0
    ensures part == 0 ==> p == 0
    ensures part >= 0 ==> p >= 0
    ensures part == whole ==> p == 10000
    ensures 2 * part * 10000 - whole <= 2 * whole * p <= 2 * part * 10000 + whole
  {
    PercentFacts(part, whole);
    RoundDiv(part * 10000, whole)
  }

  lemma PercentFacts(part: int, whole: int)
    requires whole > 0
    ensures part >= 0 ==> RoundDiv(part * 10000, whole) >= 0
    ensures part == 0 ==> RoundDiv(part * 10000, whole) == 0
    ensures part == whole ==> RoundDiv(part * 10000, whole) == 10000
  {
    var p := RoundDiv(part * 10000, whole);
    if part >= 0 {
      SignOfRounded(part * 10000, whole, p);
    }
    if part == whole {
      RoundDivUnique(whole * 10000, whole, 10000);
    }
  }

  /** A rounded non-negative quotient is non-negative, and zero for a zero numerator. */
  lemma SignOfRounded(n: int, d: int, r: int)
    requires d > 0 && n >= 0
    requires 2 * n - d < 2 * d * r <= 2 * n + d
    ensures r >= 0
    ensures n == 0 ==> r == 0
  {
    if n == 0 && r > 0 {
      assert 2 * d * r >= 2 * d by { MulMono(2 * d, 1, r); }
    }
  }

  /** RoundDiv is the one integer within a half of n / d, ties going away from zero:
      any r meeting RoundDiv's bounds is RoundDiv(n, d). */
  lemma RoundDivUnique(n: int, d: int, r: int)
    requires d > 0
    requires n >= 0 ==> 2 * n - d < 2 * d * r <= 2 * n + d
    requires n < 0 ==> 2 * n - d <= 2 * d * r < 2 * n + d
    ensures r == RoundDiv(n, d)
  {
    var q := RoundDiv(n, d);
    if r < q {
      assert 2 * d * r <= 2 * d * q - 2 * d by { MulMono(2 * d, r, q - 1); }
    } else if r > q {
      assert 2 * d * q <= 2 * d * r - 2 * d by { MulMono(2 * d, q, r - 1); }
    }
  }

  lemma MulMono(k: int, a: int, b: int)
    requires k > 0 && a <= b
    ensures k * a <= k * b
  {
  }

  /** Dividing by a non-zero count and multiplying back is exact on reals. */
  lemma DivMul(x: real, n: real)
    requires n > 0.0
    ensures (x / n) * n == x
  {
  }

  /** `total / count` as an exact quotient, 0 for no items (the guarded divisions of
      the reports; SQL numeric division is modelled without its rounding to a finite
      number of digits). */
  /** `a` is the mean of `count` items adding up to `total`. */
  ghost predicate IsAverage(a: real, total: int, count: nat) {
    count > 0 ==> a * (count as real) == total as real
  }

  function Average(total: int, count: nat): (a: real)
    ensures IsAverage(a, total, count)
    ensures count == 0 ==> a == 0.0
  {
    if count > 0 then
      DivMul(total as real, count as real);
      total as real / count as real
    else 0.0
  }
}

=== FILE: overview.dfy ===
/** `getOverviewAnalytics` in app/api/analytics/route.ts: headline counts over the
    requisitions left-joined with the catalogue, the budgets summed per currency, and
    the five newest join rows. */
module Overview {
  import opened Common
  import opened Db
  import opened Joins
  import Seqs
  import Sorting

  // ----- headline counts -----

  datatype Stats = Stats(
    totalRequisitions: nat,
    approvedRequisitions: nat,
    pendingRequisitions: nat,
    totalPods: nat,
    uniqueSoftwareRequested: nat,
    totalApprovedCost: int)       // paise

  function IsApproved(l: LeftLine): bool { l.req.statusId == Approved }
  function IsPending(l: LeftLine): bool { l.req.statusId == Pending }
  function Always(l: LeftLine): bool { true }

  /** `CASE WHEN r.statusid = 2 THEN s.cost ELSE 0 END`; without a catalogue match the
      THEN branch is NULL, which SUM skips, so it adds nothing. */
  function ApprovedCost(l: LeftLine): int { if IsApproved(l) then LeftLineCost(l) else 0 }

  function LinePod(l: LeftLine): string { l.req.pod }

  /** The non-NULL software names of the join rows (COUNT(DISTINCT) skips NULL). */
  function Named(ls: seq<LeftLine>): (ns: seq<string>)
    ensures forall i :: 0 <= i < |ns| ==> exists j :: 0 <= j < |ls| && ls[j].req.software == Some(ns[i])
    ensures forall j :: 0 <= j < |ls| && ls[j].req.software.Some? ==> ls[j].req.software.value in ns
  {
    if |ls| == 0 then []
    else
      var rest := Named(ls[1..]);
      assert forall j :: 1 <= j < |ls| ==> ls[j] == ls[1..][j - 1];
      var head := if ls[0].req.software.Some? then [ls[0].req.software.value] else [];
      assert forall i :: 0 <= i < |rest| ==> (head + rest)[|head| + i] == rest[i];
      head + rest
  }

  /** `COUNT(DISTINCT r.pod)`: the distinct PODs of the join rows. */
  function Pods(ls: seq<LeftLine>): (ps: seq<string>)
    ensures Seqs.NoDups(ps)
    ensures forall j :: 0 <= j < |ls| ==> ls[j].req.pod in ps
    ensures forall i :: 0 <= i < |ps| ==> exists j :: 0 <= j < |ls| && ls[j].req.pod == ps[i]
  {
    var all := Seqs.KeysOf(ls, LinePod);
    Seqs.Distinct(all)
  }

  /** `COUNT(DISTINCT r.software)`: the distinct non-NULL software names of the rows. */
  function SoftwareNames(ls: seq<LeftLine>): (ns: seq<string>)
    ensures Seqs.NoDups(ns)
    ensures forall j :: 0 <= j < |ls| && ls[j].req.software.Some? ==> ls[j].req.software.value in ns
    ensures forall i :: 0 <= i < |ns| ==> exists j :: 0 <= j < |ls| && ls[j].req.software == Some(ns[i])
  {
    var all := Named(ls);
    var ns := Seqs.Distinct(all);
    assert forall i :: 0 <= i < |ns| ==> exists j :: 0 <= j < |ls| && ls[j].req.software == Some(ns[i]) by {
      forall i | 0 <= i < |ns| ensures exists j :: 0 <= j < |ls| && ls[j].req.software == Some(ns[i]) {
        var k :| 0 <= k < |all| && all[k] == ns[i];
      }
    }
    ns
  }

  /** Some requisition belongs to POD `p`. */
  ghost predicate HasPod(rs: seq<Requisition>, p: string) {
    exists i :: 0 <= i < |rs| && rs[i].pod == p
  }

  /** The join rows carry exactly the PODs of the requisitions, so COUNT(DISTINCT
      r.pod) counts the PODs that have requisitions. */
  lemma PodsOfRequisitions(rs: seq<Requisition>, sws: seq<Software>)
    ensures forall i :: 0 <= i < |rs| ==> rs[i].pod in Pods(LeftLines(rs, sws))
    ensures forall k :: 0 <= k < |Pods(LeftLines(rs, sws))| ==> HasPod(rs, Pods(LeftLines(rs, sws))[k])
  {
    var ls := LeftLines(rs, sws);
    var ps := Pods(ls);
    PodsCover(rs, ls, ps);
    PodsSound(rs, ls, ps);
  }

  lemma PodsCover(rs: seq<Requisition>, ls: seq<LeftLine>, ps: seq<string>)
    requires forall i :: 0 <= i < |rs| ==> exists j :: 0 <= j < |ls| && ls[j].req == rs[i]
    requires forall j :: 0 <= j < |ls| ==> ls[j].req.pod in ps
    ensures forall i :: 0 <= i < |rs| ==> rs[i].pod in ps
  {
    forall i | 0 <= i < |rs| ensures rs[i].pod in ps {
      var j :| 0 <= j < |ls| && ls[j].req == rs[i];
      assert ls[j].req.pod in ps;
    }
  }

  lemma PodsSound(rs: seq<Requisition>, ls: seq<LeftLine>, ps: seq<string>)
    requires forall j :: 0 <= j < |ls| ==> ls[j].req in rs
    requires forall k :: 0 <= k < |ps| ==> exists j :: 0 <= j < |ls| && ls[j].req.pod == ps[k]
    ensures forall k :: 0 <= k < |ps| ==> HasPod(rs, ps[k])
  {
    forall k | 0 <= k < |ps| ensures HasPod(rs, ps[k]) {
      var j :| 0 <= j < |ls| && ls[j].req.pod == ps[k];
      var i :| 0 <= i < |rs| && rs[i] == ls[j].req;
    }
  }

  /** The headline counts. Approved and pending rows are among all rows, every
      requisition gives at least one row, and the POD and software counts are the
      numbers of distinct values present. */
  function OverviewStats(st: Store): (s: Stats)
    ensures s.totalRequisitions == |LeftLines(st.requisitions, st.softwares)|
    ensures s.approvedRequisitions == Seqs.CountOf(LeftLines(st.requisitions, st.softwares), IsApproved)
    ensures s.pendingRequisitions == Seqs.CountOf(LeftLines(st.requisitions, st.softwares), IsPending)
    ensures s.approvedRequisitions + s.pendingRequisitions <= s.totalRequisitions
    ensures s.totalRequisitions >= |st.requisitions|
    ensures s.totalPods == |Pods(LeftLines(st.requisitions, st.softwares))|
    ensures s.uniqueSoftwareRequested == |SoftwareNames(LeftLines(st.requisitions, st.softwares))|
    ensures s.totalApprovedCost == Seqs.SumOf(LeftLines(st.requisitions, st.softwares), ApprovedCost)
  {
    var ls := LeftLines(st.requisitions, st.softwares);
    Seqs.CountOfDisjoint(ls, IsApproved, IsPending, Always);
    assert Seqs.CountOf(ls, Always) == |ls|;
    Stats(|ls|, Seqs.CountOf(ls, IsApproved), Seqs.CountOf(ls, IsPending),
          |Pods(ls)|, |SoftwareNames(ls)|, Seqs.SumOf(ls, ApprovedCost))
  }

  /** No two named catalogue rows share a name. */
  ghost predicate UniqueNames(sws: seq<Software>) {
    forall i, j :: 0 <= i < j < |sws| && sws[i].name.Some? ==> sws[i].name != sws[j].name
  }

  lemma {:induction false} AtMostOneMatch(r: Requisition, sws: seq<Software>)
    requires UniqueNames(sws)
    ensures |NameMatches(r, sws)| <= 1
  {
    if |sws| > 0 {
      if NameMatch(r, sws[0]) {
        forall j | 0 <= j < |sws[1..]| ensures !NameMatch(r, sws[1..][j]) {
          assert sws[1..][j] == sws[j + 1];
        }
        NoMatches(r, sws[1..]);
      } else {
        assert UniqueNames(sws[1..]) by {
          forall i, j | 0 <= i < j < |sws[1..]| && sws[1..][i].name.Some?
            ensures sws[1..][i].name != sws[1..][j].name
          {
            assert sws[1..][i] == sws[i + 1] && sws[1..][j] == sws[j + 1];
          }
        }
        AtMostOneMatch(r, sws[1..]);
      }
    }
  }

  lemma {:induction false} NoMatches(r: Requisition, sws: seq<Software>)
    requires forall j :: 0 <= j < |sws| ==> !NameMatch(r, sws[j])
    ensures NameMatches(r, sws) == []
  {
    if |sws| > 0 {
      NoMatches(r, sws[1..]);
    }
  }

  /** With unique catalogue names, the total counts each requisition exactly once. */
  lemma {:induction false} OneRowPerRequisition(rs: seq<Requisition>, sws: seq<Software>)
    requires UniqueNames(sws)
    ensures |LeftLines(rs, sws)| == |rs|
  {
    if |rs| > 0 {
      AtMostOneMatch(rs[0], sws);
      OneRowPerRequisition(rs[1..], sws);
    }
  }

  // ----- budget summary -----

  datatype BudgetGroup = BudgetGroup(totalAllocated: int, totalBudgets: nat, currency: string)

  function BudgetCurrency(b: Budget): string { b.currency }
  function BudgetAmount(b: Budget): int { b.allocatedAmount }
  function One(b: Budget): int { 1 }
  function GroupAllocated(g: BudgetGroup): int { g.totalAllocated }
  function GroupCount(g: BudgetGroup): int { g.totalBudgets }

  /** Some summary row is for currency `c`. */
  ghost predicate HasGroup(gs: seq<BudgetGroup>, c: string) {
    exists j :: 0 <= j < |gs| && gs[j].currency == c
  }

  function GroupOf(bs: seq<Budget>, c: string): BudgetGroup {
    var g := Seqs.Where(bs, BudgetCurrency, c);
    BudgetGroup(Seqs.SumOf(g, BudgetAmount), |g|, c)
  }

  lemma GroupCountIsSize(bs: seq<Budget>, c: string)
    ensures GroupCount(GroupOf(bs, c)) == Seqs.SumOf(Seqs.Where(bs, BudgetCurrency, c), One)
  {
    Seqs.SumOfOnes(Seqs.Where(bs, BudgetCurrency, c), One);
  }

  function Groups(bs: seq<Budget>, cs: seq<string>): (gs: seq<BudgetGroup>)
    ensures |gs| == |cs|
    ensures forall j :: 0 <= j < |cs| ==> gs[j].currency == cs[j]
    ensures forall j :: 0 <= j < |cs| ==> gs[j].totalBudgets == |Seqs.Where(bs, BudgetCurrency, cs[j])|
    ensures forall j :: 0 <= j < |cs| ==> GroupCount(gs[j]) == Seqs.SumOf(Seqs.Where(bs, BudgetCurrency, cs[j]), One)
    ensures forall j :: 0 <= j < |cs| ==> GroupAllocated(gs[j]) == Seqs.SumOf(Seqs.Where(bs, BudgetCurrency, cs[j]), BudgetAmount)
  {
    var gs := seq(|cs|, j requires 0 <= j < |cs| => GroupOf(bs, cs[j]));
    assert forall j :: 0 <= j < |cs| ==> GroupCount(gs[j]) == Seqs.SumOf(Seqs.Where(bs, BudgetCurrency, cs[j]), One) by {
      forall j | 0 <= j < |cs| ensures GroupCount(gs[j]) == Seqs.SumOf(Seqs.Where(bs, BudgetCurrency, cs[j]), One) {
        GroupCountIsSize(bs, cs[j]);
      }
    }
    gs
  }

  /** `GROUP BY currency` over the budgets (no ORDER BY: the model lists currencies in
      order of first appearance, and the contract promises no order). Every budget is
      counted once, in its currency's group. */
  function BudgetSummary(bs: seq<Budget>): (gs: seq<BudgetGroup>)
    ensures forall i :: 0 <= i < |bs| ==> HasGroup(gs, bs[i].currency)
    ensures forall i, j :: 0 <= i < j < |gs| ==> gs[i].currency != gs[j].currency
    ensures forall j :: 0 <= j < |gs| ==> gs[j].totalBudgets > 0
    ensures forall j :: 0 <= j < |gs| ==> gs[j].totalBudgets == |Seqs.Where(bs, BudgetCurrency, gs[j].currency)|
    ensures forall j :: 0 <= j < |gs| ==>
      gs[j].totalAllocated == Seqs.SumOf(Seqs.Where(bs, BudgetCurrency, gs[j].currency), BudgetAmount)
    ensures Seqs.SumOf(gs, GroupCount) == |bs|
    ensures Seqs.SumOf(gs, GroupAllocated) == Seqs.SumOf(bs, BudgetAmount)
  {
    var cs := Seqs.GroupKeys(bs, BudgetCurrency);
    var gs := Groups(bs, cs);
    Seqs.GroupTotals(bs, BudgetCurrency, One, cs, gs, GroupCount);
    Seqs.SumOfOnes(bs, One);
    Seqs.GroupTotals(bs, BudgetCurrency, BudgetAmount, cs, gs, GroupAllocated);
    assert forall j :: 0 <= j < |cs| ==> gs[j].totalBudgets > 0;
    GroupsCover(bs, cs, gs);
    GroupsByCurrency(bs, cs, gs);
    gs
  }

  lemma GroupsByCurrency(bs: seq<Budget>, cs: seq<string>, gs: seq<BudgetGroup>)
    requires |gs| == |cs| && forall j :: 0 <= j < |cs| ==> gs[j].currency == cs[j]
    requires forall j :: 0 <= j < |cs| ==> gs[j].totalBudgets == |Seqs.Where(bs, BudgetCurrency, cs[j])|
    requires forall j :: 0 <= j < |cs| ==> GroupAllocated(gs[j]) == Seqs.SumOf(Seqs.Where(bs, BudgetCurrency, cs[j]), BudgetAmount)
    ensures forall j :: 0 <= j < |gs| ==> gs[j].totalBudgets == |Seqs.Where(bs, BudgetCurrency, gs[j].currency)|
    ensures forall j :: 0 <= j < |gs| ==>
      gs[j].totalAllocated == Seqs.SumOf(Seqs.Where(bs, BudgetCurrency, gs[j].currency), BudgetAmount)
  {
    forall j | 0 <= j < |gs|
      ensures gs[j].totalAllocated == Seqs.SumOf(Seqs.Where(bs, BudgetCurrency, gs[j].currency), BudgetAmount)
    {
      assert GroupAllocated(gs[j]) == gs[j].totalAllocated;
    }
  }

  lemma GroupsCover(bs: seq<Budget>, cs: seq<string>, gs: seq<BudgetGroup>)
    requires Seqs.NoDups(cs)
    requires forall i :: 0 <= i < |bs| ==> bs[i].currency in cs
    requires |gs| == |cs| && forall j :: 0 <= j < |cs| ==> gs[j].currency == cs[j]
    requires forall j :: 0 <= j < |cs| ==> gs[j].totalBudgets > 0
    ensures forall i :: 0 <= i < |bs| ==> HasGroup(gs, bs[i].currency)
    ensures forall i, j :: 0 <= i < j < |gs| ==> gs[i].currency != gs[j].currency
    ensures forall j :: 0 <= j < |gs| ==> gs[j].totalBudgets > 0
  {
    forall i | 0 <= i < |bs| ensures HasGroup(gs, bs[i].currency) {
      var j :| 0 <= j < |cs| && cs[j] == bs[i].currency;
      assert gs[j].currency == bs[i].currency;
    }
  }

  // ----- recent requisitions -----

  /** The CASE that names a status id. */
  function StatusLabel(statusId: int): (s: string)
    ensures s == "Pending" <==> statusId == Pending
    ensures s == "Approved" <==> statusId == Approved
    ensures s == "Rejected" <==> statusId == Rejected
    ensures s == "Unknown" <==> statusId !in {Pending, Approved, Rejected}
  {
    if statusId == Pending then "Pending"
    else if statusId == Approved then "Approved"
    else if statusId == Rejected then "Rejected"
    else "Unknown"
  }

  datatype RecentRow = RecentRow(
    id: int,
    software: Option<string>,
    purpose: string,
    pod: string,
    createdAt: Instant,
    statusId: int,
    cost: int,                    // COALESCE(s.cost, 0), paise
    currency: string,             // COALESCE(s.currencycode, 'INR')
    status: string)

  function RecentRowOf(l: LeftLine): RecentRow {
    RecentRow(l.req.id, l.req.software, l.req.purpose, l.req.pod, l.req.createdAt, l.req.statusId,
              LeftLineCost(l), if l.sw.Some? then l.sw.value.currency else "INR", StatusLabel(l.req.statusId))
  }

  /** A row without a catalogue match shows cost 0 in currency 'INR'; a matched one the
      catalogue row's cost and currency. */
  lemma RecentRowDefaults(l: LeftLine)
    ensures l.sw.None? ==> RecentRowOf(l).cost == 0 && RecentRowOf(l).currency == "INR"
    ensures l.sw.Some? ==> RecentRowOf(l).cost == l.sw.value.cost && RecentRowOf(l).currency == l.sw.value.currency
  {
  }

  /** ORDER BY created_at DESC: newest first. */
  function CreatedKey(l: LeftLine): Sorting.Key {
    Sorting.Key(l.req.createdAt.month, l.req.createdAt.offset)
  }

  const RecentLimit: nat := 5

  /** `ORDER BY r.created_at DESC LIMIT 5` over the join rows: the newest five, newest
      first, and no row left out is newer than the last one kept. */
  function NewestLines(ls: seq<LeftLine>): (top: seq<LeftLine>)
    ensures |top| == if |ls| < RecentLimit then |ls| else RecentLimit
    ensures Sorting.SortedDesc(top, CreatedKey)
    ensures forall i :: 0 <= i < |top| ==> top[i] in ls
    ensures multiset(top) <= multiset(ls)
    ensures forall i :: 0 <= i < |ls| ==> ls[i] in top || Sorting.KeyGeq(CreatedKey(top[|top| - 1]), CreatedKey(ls[i]))
    ensures multiset(Seqs.Map(top, RecentRowOf)) <= multiset(Seqs.Map(ls, RecentRowOf))
  {
    var sorted := Sorting.SortDesc(ls, CreatedKey);
    var n := if |ls| < RecentLimit then |ls| else RecentLimit;
    PrefixOfSorted(sorted, ls, n);
    Seqs.PrefixSubmultiset(sorted, n);
    ShapedPrefix(sorted, ls, n);
    sorted[..n]
  }

  /** The rows shaped from a prefix of a rearrangement of `ls` occur among the rows
      shaped from `ls`, each at most as often. */
  lemma ShapedPrefix(sorted: seq<LeftLine>, ls: seq<LeftLine>, n: nat)
    requires multiset(sorted) == multiset(ls) && n <= |sorted|
    ensures multiset(Seqs.Map(sorted[..n], RecentRowOf)) <= multiset(Seqs.Map(ls, RecentRowOf))
  {
    var all := Seqs.Map(sorted, RecentRowOf);
    Seqs.MapPermutation(sorted, ls, RecentRowOf);
    assert Seqs.Map(sorted[..n], RecentRowOf) == all[..n];
    Seqs.PrefixSubmultiset(all, n);
  }

  lemma PrefixOfSorted(sorted: seq<LeftLine>, ls: seq<LeftLine>, n: nat)
    requires multiset(sorted) == multiset(ls) && Sorting.SortedDesc(sorted, CreatedKey)
    requires n <= |sorted| && (n == 0 ==> |sorted| == 0)
    ensures Sorting.SortedDesc(sorted[..n], CreatedKey)
    ensures forall i :: 0 <= i < n ==> sorted[i] in ls
    ensures forall i :: 0 <= i < |ls| ==> ls[i] in sorted[..n] || Sorting.KeyGeq(CreatedKey(sorted[n - 1]), CreatedKey(ls[i]))
  {
    Sorting.SameElements(sorted, ls);
    var top := sorted[..n];
    forall i | 0 <= i < |ls| ensures ls[i] in top || Sorting.KeyGeq(CreatedKey(sorted[n - 1]), CreatedKey(ls[i])) {
      var k :| 0 <= k < |sorted| && sorted[k] == ls[i];
      if k < n {
        assert top[k] == ls[i];
      } else {
        assert Sorting.KeyGeq(CreatedKey(sorted[n - 1]), CreatedKey(sorted[k]));
      }
    }
  }

  /** The row shows a stored requisition's id and POD. */
  ghost predicate FromStore(st: Store, row: RecentRow) {
    exists r :: r in st.requisitions && r.id == row.id && r.pod == row.pod
  }

  function CreatedAtKey(r: RecentRow): Sorting.Key {
    Sorting.Key(r.createdAt.month, r.createdAt.offset)
  }

  function Shape(top: seq<LeftLine>): (rows: seq<RecentRow>)
    requires Sorting.SortedDesc(top, CreatedKey)
    ensures |rows| == |top|
    ensures forall i :: 0 <= i < |top| ==> rows[i] == RecentRowOf(top[i])
    ensures Sorting.SortedDesc(rows, CreatedAtKey)
  {
    var rows := seq(|top|, i requires 0 <= i < |top| => RecentRowOf(top[i]));
    assert forall i, j :: 0 <= i < j < |rows| ==> Sorting.KeyGeq(CreatedAtKey(rows[i]), CreatedAtKey(rows[j])) by {
      forall i, j | 0 <= i < j < |rows| ensures Sorting.KeyGeq(CreatedAtKey(rows[i]), CreatedAtKey(rows[j])) {
        assert Sorting.KeyGeq(CreatedKey(top[i]), CreatedKey(top[j]));
      }
    }
    rows
  }

  /** The five newest rows, shaped for the response: newest first, each the row of a
      stored requisition with its status named. */
  function RecentRequisitions(st: Store): (rows: seq<RecentRow>)
    ensures var ls := LeftLines(st.requisitions, st.softwares);
      |rows| == if |ls| < RecentLimit then |ls| else RecentLimit
    ensures |rows| <= RecentLimit
    ensures |st.requisitions| >= RecentLimit ==> |rows| == RecentLimit
    ensures Sorting.SortedDesc(rows, CreatedAtKey)
    ensures var ls := LeftLines(st.requisitions, st.softwares);
      multiset(rows) <= multiset(Seqs.Map(ls, RecentRowOf))
    ensures var ls := LeftLines(st.requisitions, st.softwares);
      forall i :: 0 <= i < |ls| ==>
        RecentRowOf(ls[i]) in rows || Sorting.KeyGeq(CreatedAtKey(rows[|rows| - 1]), CreatedKey(ls[i]))
    ensures forall i :: 0 <= i < |rows| ==> rows[i].status == StatusLabel(rows[i].statusId)
    ensures forall i :: 0 <= i < |rows| ==> FromStore(st, rows[i])
  {
    var ls := LeftLines(st.requisitions, st.softwares);
    var top := NewestLines(ls);
    var rows := Shape(top);
    ShapedRows(ls, top, rows);
    RowsFromStore(st, ls, top, rows);
    NewestShaped(ls, top, rows);
    rows
  }

  lemma ShapedRows(ls: seq<LeftLine>, top: seq<LeftLine>, rows: seq<RecentRow>)
    requires multiset(Seqs.Map(top, RecentRowOf)) <= multiset(Seqs.Map(ls, RecentRowOf))
    requires |rows| == |top| && forall i :: 0 <= i < |top| ==> rows[i] == RecentRowOf(top[i])
    ensures multiset(rows) <= multiset(Seqs.Map(ls, RecentRowOf))
  {
    assert rows == Seqs.Map(top, RecentRowOf);
  }

  /** A join row left out of the shaped newest rows is no newer than the last of them. */
  lemma NewestShaped(ls: seq<LeftLine>, top: seq<LeftLine>, rows: seq<RecentRow>)
    requires |ls| > 0 ==> |top| > 0
    requires forall i :: 0 <= i < |ls| ==> ls[i] in top || Sorting.KeyGeq(CreatedKey(top[|top| - 1]), CreatedKey(ls[i]))
    requires |rows| == |top| && forall i :: 0 <= i < |top| ==> rows[i] == RecentRowOf(top[i])
    ensures forall i :: 0 <= i < |ls| ==>
      RecentRowOf(ls[i]) in rows || Sorting.KeyGeq(CreatedAtKey(rows[|rows| - 1]), CreatedKey(ls[i]))
  {
    forall i | 0 <= i < |ls|
      ensures RecentRowOf(ls[i]) in rows || Sorting.KeyGeq(CreatedAtKey(rows[|rows| - 1]), CreatedKey(ls[i]))
    {
      if ls[i] in top {
        var k :| 0 <= k < |top| && top[k] == ls[i];
        assert rows[k] == RecentRowOf(ls[i]);
      } else {
        assert CreatedAtKey(rows[|rows| - 1]) == CreatedKey(top[|top| - 1]);
      }
    }
  }

  lemma RowsFromStore(st: Store, ls: seq<LeftLine>, top: seq<LeftLine>, rows: seq<RecentRow>)
    requires ls == LeftLines(st.requisitions, st.softwares)
    requires forall i :: 0 <= i < |top| ==> top[i] in ls
    requires |rows| == |top| && forall i :: 0 <= i < |top| ==> rows[i] == RecentRowOf(top[i])
    ensures forall i :: 0 <= i < |rows| ==> FromStore(st, rows[i])
  {
    forall i | 0 <= i < |rows| ensures FromStore(st, rows[i]) {
      var j :| 0 <= j < |ls| && ls[j] == top[i];
      assert ls[j].req in st.requisitions;
    }
  }

  // ----- the response -----

  datatype Report = Report(overview: Stats, budgetSummary: seq<BudgetGroup>, recentRequisitions: seq<RecentRow>)

  /** The headline counts are those of the join rows. */
  ghost predicate StatsOf(st: Store, s: Stats) {
    var ls := LeftLines(st.requisitions, st.softwares);
    && s.totalRequisitions == |ls|
    && s.approvedRequisitions == Seqs.CountOf(ls, IsApproved)
    && s.pendingRequisitions == Seqs.CountOf(ls, IsPending)
    && s.totalPods == |Pods(ls)|
    && s.uniqueSoftwareRequested == |SoftwareNames(ls)|
    && s.totalApprovedCost == Seqs.SumOf(ls, ApprovedCost)
  }

  /** One row per currency that has budgets, holding their number and their sum. */
  ghost predicate SummaryOf(bs: seq<Budget>, gs: seq<BudgetGroup>) {
    && (forall i :: 0 <= i < |bs| ==> HasGroup(gs, bs[i].currency))
    && (forall i, j :: 0 <= i < j < |gs| ==> gs[i].currency != gs[j].currency)
    && (forall j :: 0 <= j < |gs| ==> 0 < gs[j].totalBudgets == |Seqs.Where(bs, BudgetCurrency, gs[j].currency)|)
    && (forall j :: 0 <= j < |gs| ==>
          gs[j].totalAllocated == Seqs.SumOf(Seqs.Where(bs, BudgetCurrency, gs[j].currency), BudgetAmount))
  }

  /** The newest join rows, shaped, newest first; none left out is newer than the last. */
  ghost predicate RecentOf(st: Store, rows: seq<RecentRow>) {
    var ls := LeftLines(st.requisitions, st.softwares);
    && |rows| == (if |ls| < RecentLimit then |ls| else RecentLimit)
    && Sorting.SortedDesc(rows, CreatedAtKey)
    && multiset(rows) <= multiset(Seqs.Map(ls, RecentRowOf))
    && (forall i :: 0 <= i < |ls| ==>
          RecentRowOf(ls[i]) in rows || Sorting.KeyGeq(CreatedAtKey(rows[|rows| - 1]), CreatedKey(ls[i])))
  }

  /** The overview with the recent-requisitions query selecting only columns the
      requisitions table has. */
  function Overview(st: Store): (r: Report)
    ensures StatsOf(st, r.overview)
    ensures SummaryOf(st.budgets, r.budgetSummary)
    ensures RecentOf(st, r.recentRequisitions)
  {
    StatsHold(st);
    SummaryHolds(st.budgets);
    RecentHolds(st);
    Report(OverviewStats(st), BudgetSummary(st.budgets), RecentRequisitions(st))
  }

  lemma StatsHold(st: Store)
    ensures StatsOf(st, OverviewStats(st))
  {
  }

  lemma SummaryHolds(bs: seq<Budget>)
    ensures SummaryOf(bs, BudgetSummary(bs))
  {
  }

  lemma RecentHolds(st: Store)
    ensures RecentOf(st, RecentRequisitions(st))
  {
  }

  /** The error Postgres raises for the recent-requisitions query as written, which
      selects `r.requested_by`. */
  const RequestedByMissing: string := "column r.requested_by does not exist"

  /** The overview as written: the recent-requisitions query names `r.requested_by`,
      a column the requisitions table has only if it was created with one outside
      `initializeDatabase`, whose CREATE TABLE defines none. */
  function OverviewAsWritten(st: Store, tableHasRequestedBy: bool): (r: DbCall<Report>)
    ensures !tableHasRequestedBy ==> r == Threw(RequestedByMissing)
    ensures tableHasRequestedBy ==> r == Returned(Overview(st))
  {
    if tableHasRequestedBy then Returned(Overview(st)) else Threw(RequestedByMissing)
  }
}

=== FILE: pod_spending.dfy ===
/** `getPODSpendingAnalysis` in app/api/analytics/route.ts: per POD (strictly, per
    POD and budget row) approved spending with request counts and the average cost
    of an approval, ordered by spending; and a six-month trend of approved spending
    per POD and calendar month. */
module PodSpending {
  import opened Common
  import opened Db
  import opened Joins
  import Seqs
  import Sorting
  import BudgetUtilization
  import Numeric

  datatype Row = Row(
    pod: string,
    totalSpending: int,                 // paise
    allocatedAmount: Option<int>,       // the budget row's amount, NULL without one
    currency: Option<string>,
    totalRequests: nat,
    approvedRequests: nat,
    pendingRequests: nat,
    uniqueSoftwareRequested: nat,
    averageCostPerApproval: real,       // paise
    budgetUtilization: int)             // hundredths of a percent

  datatype TrendRow = TrendRow(pod: string, month: int, monthlyRequests: nat, monthlySpending: int)

  datatype Report = Report(
    podAnalysis: seq<Row>,
    monthlyTrends: seq<TrendRow>,
    topSpender: Option<Row>,
    totalPods: nat)

  function LineSoftware(l: Line): Option<string> {
    l.req.software
  }

  function RowOf(k: PodKey, g: seq<Line>): Row {
    var spent := Seqs.SumOf(g, LineCost);
    var approved := Seqs.CountOf(g, LineIsApproved);
    Row(k.pod, spent, k.allocatedAmount, k.currency, |g|, approved, Seqs.CountOf(g, LineIsPending),
        |Seqs.Distinct(Seqs.KeysOf(g, LineSoftware))|,
        Numeric.Average(spent, approved),
        BudgetUtilization.Utilization(spent, k.allocatedAmount))
  }

  function RowKey(r: Row): Sorting.Key {
    Sorting.Key(r.totalSpending, 0)
  }

  function RowSpending(r: Row): int { r.totalSpending }

  /** What every POD row satisfies. Only approved requisitions reach the query, so
      every request counted is approved and none is pending. */
  ghost predicate WellFormed(r: Row) {
    && r.totalRequests > 0
    && r.approvedRequests == r.totalRequests
    && r.pendingRequests == 0
    && 1 <= r.uniqueSoftwareRequested <= r.totalRequests
    && Numeric.IsAverage(r.averageCostPerApproval, r.totalSpending, r.approvedRequests)
    && (r.allocatedAmount.None? || r.allocatedAmount.value <= 0 ==> r.budgetUtilization == 0)
  }

  function GroupRows(ls: seq<Line>, ks: seq<PodKey>): (rows: seq<Row>)
    requires forall i :: 0 <= i < |ls| ==> ls[i].req.statusId == Approved
    requires forall j :: 0 <= j < |ks| ==> |Seqs.Where(ls, PodKeyOf, ks[j])| > 0
    ensures |rows| == |ks|
    ensures forall j :: 0 <= j < |ks| ==> rows[j] == RowOf(ks[j], Seqs.Where(ls, PodKeyOf, ks[j]))
    ensures forall j :: 0 <= j < |ks| ==> rows[j].pod == ks[j].pod
    ensures forall j :: 0 <= j < |ks| ==> rows[j].totalSpending == Seqs.SumOf(Seqs.Where(ls, PodKeyOf, ks[j]), LineCost)
    ensures forall j :: 0 <= j < |ks| ==> WellFormed(rows[j])
  {
    var rows := seq(|ks|, j requires 0 <= j < |ks| => RowOf(ks[j], Seqs.Where(ls, PodKeyOf, ks[j])));
    assert forall j :: 0 <= j < |ks| ==> WellFormed(rows[j]) by {
      forall j | 0 <= j < |ks| ensures WellFormed(rows[j]) {
        RowOfWellFormed(ks[j], Seqs.Where(ls, PodKeyOf, ks[j]));
      }
    }
    rows
  }

  lemma RowOfWellFormed(k: PodKey, g: seq<Line>)
    requires |g| > 0
    requires forall i :: 0 <= i < |g| ==> g[i].req.statusId == Approved
    ensures WellFormed(RowOf(k, g))
  {
    var r := RowOf(k, g);
    CountsOfApprovedGroup(g);
    UniqueSoftwareBounds(k, g);
    AverageOfApprovedGroup(k, g);
  }

  lemma CountsOfApprovedGroup(g: seq<Line>)
    requires |g| > 0
    requires forall i :: 0 <= i < |g| ==> g[i].req.statusId == Approved
    ensures Seqs.CountOf(g, LineIsApproved) == |g|
    ensures Seqs.CountOf(g, LineIsPending) == 0
  {
    assert forall i :: 0 <= i < |g| ==> LineIsApproved(g[i]);
    assert forall i :: 0 <= i < |g| ==> !LineIsPending(g[i]);
  }

  lemma UniqueSoftwareBounds(k: PodKey, g: seq<Line>)
    requires |g| > 0
    ensures 1 <= RowOf(k, g).uniqueSoftwareRequested <= |g|
  {
    var names := Seqs.KeysOf(g, LineSoftware);
    assert names[0] in Seqs.Distinct(names);
  }

  lemma AverageOfApprovedGroup(k: PodKey, g: seq<Line>)
    requires |g| > 0
    requires forall i :: 0 <= i < |g| ==> g[i].req.statusId == Approved
    ensures Numeric.IsAverage(RowOf(k, g).averageCostPerApproval, RowOf(k, g).totalSpending, RowOf(k, g).approvedRequests)
  {
  }

  /** The POD rows, ordered by spending. */
  function PodRows(st: Store): (rows: seq<Row>)
    ensures forall i :: 0 <= i < |rows| ==> WellFormed(rows[i])
    ensures Sorting.SortedDesc(rows, RowKey)
    ensures Seqs.SumOf(rows, RowSpending) == Seqs.SumOf(ApprovedLines(st), LineCost)
    ensures |rows| == 0 <==> |ApprovedLines(st)| == 0
    ensures PodsGrouped(st, rows)
  {
    var ls := ApprovedLines(st);
    var ks := Seqs.GroupKeys(ls, PodKeyOf);
    assert forall i :: 0 <= i < |ls| ==> ls[i].req.statusId == Approved by {
      forall i | 0 <= i < |ls| ensures ls[i].req.statusId == Approved {
        assert SpendingLine(ls[i], st);
      }
    }
    var unsorted := GroupRows(ls, ks);
    var rows := Sorting.SortDesc(unsorted, RowKey);
    Sorting.PermutationKeeps(rows, unsorted, WellFormed);
    Seqs.GroupTotals(ls, PodKeyOf, LineCost, ks, unsorted, RowSpending);
    Seqs.SumOfPermutation(rows, unsorted, RowSpending);
    assert |ls| > 0 ==> |ks| > 0 by {
      if |ls| > 0 { assert PodKeyOf(ls[0]) in ks; }
    }
    rows
  }

  // ----- monthly trend -----

  /** `GROUP BY r.pod, DATE_TRUNC('month', r.created_at)`. */
  datatype TrendKey = TrendKey(pod: string, month: int)

  function TrendKeyOf(l: LeftLine): TrendKey {
    TrendKey(l.req.pod, l.req.createdAt.month)
  }

  /** `WHERE r.created_at >= CURRENT_DATE - INTERVAL '6 months' AND r.statusid = 2`. */
  predicate InTrend(r: Requisition, now: Instant) {
    InWindow(r.createdAt, now, 6) && r.statusId == Approved
  }

  function TrendRequisitions(rs: seq<Requisition>, now: Instant): (ts: seq<Requisition>)
    ensures forall i :: 0 <= i < |ts| ==> ts[i] in rs && InTrend(ts[i], now)
    ensures forall i :: 0 <= i < |rs| && InTrend(rs[i], now) ==> rs[i] in ts
  {
    if |rs| == 0 then []
    else (if InTrend(rs[0], now) then [rs[0]] else []) + TrendRequisitions(rs[1..], now)
  }

  function TrendRowKey(t: TrendRow): Sorting.Key {
    Sorting.Key(t.month, t.monthlySpending)
  }

  function TrendRowSpending(t: TrendRow): int { t.monthlySpending }

  ghost predicate TrendRowOk(t: TrendRow, now: Instant) {
    t.monthlyRequests > 0 && t.month >= now.month - 6
  }

  function TrendGroupRows(ls: seq<LeftLine>, ks: seq<TrendKey>, now: Instant): (rows: seq<TrendRow>)
    requires forall i :: 0 <= i < |ls| ==> InTrend(ls[i].req, now)
    requires forall j :: 0 <= j < |ks| ==> |Seqs.Where(ls, TrendKeyOf, ks[j])| > 0
    ensures |rows| == |ks|
    ensures forall j :: 0 <= j < |ks| ==> rows[j].pod == ks[j].pod && rows[j].month == ks[j].month
    ensures forall j :: 0 <= j < |ks| ==> rows[j].monthlyRequests == |Seqs.Where(ls, TrendKeyOf, ks[j])|
    ensures forall j :: 0 <= j < |ks| ==>
      rows[j].monthlySpending == Seqs.SumOf(Seqs.Where(ls, TrendKeyOf, ks[j]), LeftLineCost)
    ensures forall j :: 0 <= j < |ks| ==> TrendRowOk(rows[j], now)
  {
    var rows := seq(|ks|, j requires 0 <= j < |ks| =>
      var g := Seqs.Where(ls, TrendKeyOf, ks[j]);
      TrendRow(ks[j].pod, ks[j].month, |g|, Seqs.SumOf(g, LeftLineCost)));
    assert forall j :: 0 <= j < |ks| ==> TrendRowOk(rows[j], now) by {
      forall j | 0 <= j < |ks| ensures TrendRowOk(rows[j], now) {
        var g := Seqs.Where(ls, TrendKeyOf, ks[j]);
        assert InTrend(g[0].req, now) && TrendKeyOf(g[0]) == ks[j];
      }
    }
    rows
  }

  /** The trend rows: each a (POD, month) bucket of approved requisitions created in
      the last six months, unmatched software counting as 0, ordered by month and then
      spending; every such requisition falls in some bucket. */
  function MonthlyTrends(st: Store, now: Instant): (rows: seq<TrendRow>)
    ensures forall i :: 0 <= i < |rows| ==> TrendRowOk(rows[i], now)
    ensures Sorting.SortedDesc(rows, TrendRowKey)
    ensures forall r :: r in st.requisitions && InTrend(r, now) ==>
      exists i :: 0 <= i < |rows| && rows[i].pod == r.pod && rows[i].month == r.createdAt.month
    ensures Seqs.SumOf(rows, TrendRowSpending)
      == Seqs.SumOf(LeftLines(TrendRequisitions(st.requisitions, now), st.softwares), LeftLineCost)
    ensures var ls := LeftLines(TrendRequisitions(st.requisitions, now), st.softwares);
      multiset(rows) == multiset(TrendGroupRows(ls, Seqs.GroupKeys(ls, TrendKeyOf), now))
  {
    var ts := TrendRequisitions(st.requisitions, now);
    var ls := LeftLines(ts, st.softwares);
    var ks := Seqs.GroupKeys(ls, TrendKeyOf);
    var unsorted := TrendGroupRows(ls, ks, now);
    var rows := Sorting.SortDesc(unsorted, TrendRowKey);
    Sorting.SameElements(rows, unsorted);
    TrendsTotal(ls, ks, unsorted, rows);
    TrendsCover(st, now, ts, ls, ks, unsorted, rows);
    rows
  }

  /** The sorted trend rows' spending adds up to the cost of all the lines. */
  lemma TrendsTotal(ls: seq<LeftLine>, ks: seq<TrendKey>, unsorted: seq<TrendRow>, rows: seq<TrendRow>)
    requires Seqs.NoDups(ks) && forall i :: 0 <= i < |ls| ==> TrendKeyOf(ls[i]) in ks
    requires |unsorted| == |ks|
    requires forall j :: 0 <= j < |ks| ==>
      unsorted[j].monthlySpending == Seqs.SumOf(Seqs.Where(ls, TrendKeyOf, ks[j]), LeftLineCost)
    requires multiset(rows) == multiset(unsorted)
    ensures Seqs.SumOf(rows, TrendRowSpending) == Seqs.SumOf(ls, LeftLineCost)
  {
    Seqs.GroupTotals(ls, TrendKeyOf, LeftLineCost, ks, unsorted, TrendRowSpending);
    Seqs.SumOfPermutation(rows, unsorted, TrendRowSpending);
  }

  lemma TrendsCover(st: Store, now: Instant, ts: seq<Requisition>, ls: seq<LeftLine>, ks: seq<TrendKey>,
                    unsorted: seq<TrendRow>, rows: seq<TrendRow>)
    requires ts == TrendRequisitions(st.requisitions, now) && ls == LeftLines(ts, st.softwares)
    requires forall i :: 0 <= i < |ls| ==> TrendKeyOf(ls[i]) in ks
    requires |unsorted| == |ks|
    requires forall j :: 0 <= j < |ks| ==> unsorted[j].pod == ks[j].pod && unsorted[j].month == ks[j].month
    requires multiset(rows) == multiset(unsorted)
    ensures forall r :: r in st.requisitions && InTrend(r, now) ==>
      exists i :: 0 <= i < |rows| && rows[i].pod == r.pod && rows[i].month == r.createdAt.month
  {
    forall r | r in st.requisitions && InTrend(r, now)
      ensures exists i :: 0 <= i < |rows| && rows[i].pod == r.pod && rows[i].month == r.createdAt.month
    {
      var b :| 0 <= b < |st.requisitions| && st.requisitions[b] == r;
      assert r in ts;
      var a :| 0 <= a < |ts| && ts[a] == r;
      var j :| 0 <= j < |ls| && ls[j].req == ts[a];
      KeyedRowPresent(TrendKeyOf(ls[j]), ks, unsorted, rows);
    }
  }

  /** A bucket key has a row in the sorted output. */
  lemma KeyedRowPresent(k: TrendKey, ks: seq<TrendKey>, unsorted: seq<TrendRow>, rows: seq<TrendRow>)
    requires k in ks
    requires |unsorted| == |ks|
    requires forall j :: 0 <= j < |ks| ==> unsorted[j].pod == ks[j].pod && unsorted[j].month == ks[j].month
    requires multiset(rows) == multiset(unsorted)
    ensures exists i :: 0 <= i < |rows| && rows[i].pod == k.pod && rows[i].month == k.month
  {
    var j :| 0 <= j < |ks| && ks[j] == k;
    assert unsorted[j] in multiset(unsorted);
    assert unsorted[j] in rows;
    var i :| 0 <= i < |rows| && rows[i] == unsorted[j];
  }

  /** The whole report. */
  function PodSpending(st: Store, now: Instant): (r: Report)
    ensures PodsReported(st, r)
    ensures r.monthlyTrends == MonthlyTrends(st, now)
  {
    WithTrends(st, MonthlyTrends(st, now))
  }

  /** The report around given trend rows. */
  function WithTrends(st: Store, trends: seq<TrendRow>): (r: Report)
    ensures PodsReported(st, r)
    ensures r.monthlyTrends == trends
  {
    Assemble(PodRows(st), trends)
  }

  /** What the report states about the PODs: its rows are well formed, ordered by
      spending and, up to order, one per POD key with that key's figures; the count
      is the number of rows; the top spender is absent exactly when nothing was
      spent, and otherwise one of the rows with the largest spending. */
  ghost predicate PodsReported(st: Store, r: Report) {
    && (forall i :: 0 <= i < |r.podAnalysis| ==> WellFormed(r.podAnalysis[i]))
    && Sorting.SortedDesc(r.podAnalysis, RowKey)
    && r.totalPods == |r.podAnalysis|
    && (r.topSpender.None? <==> |ApprovedLines(st)| == 0)
    && (r.topSpender.Some? ==> r.topSpender.value in r.podAnalysis)
    && (r.topSpender.Some? ==>
          forall i :: 0 <= i < |r.podAnalysis| ==> r.podAnalysis[i].totalSpending <= r.topSpender.value.totalSpending)
    && PodsGrouped(st, r.podAnalysis)
  }

  /** Up to order, `rows` holds one row per POD key of the spending lines, with that
      key's figures. */
  ghost predicate PodsGrouped(st: Store, rows: seq<Row>) {
    multiset(rows) == multiset(GroupRows(ApprovedLines(st), Seqs.GroupKeys(ApprovedLines(st), PodKeyOf)))
  }

  /** The response object: the rows, the trend, the first (largest) row as top
      spender and the number of rows. */
  function Assemble(rows: seq<Row>, trends: seq<TrendRow>): (r: Report)
    requires Sorting.SortedDesc(rows, RowKey)
    ensures r.podAnalysis == rows && r.monthlyTrends == trends
    ensures r.totalPods == |rows|
    ensures r.topSpender.None? <==> |rows| == 0
    ensures r.topSpender.Some? ==> r.topSpender.value in rows
    ensures r.topSpender.Some? ==>
      forall i :: 0 <= i < |rows| ==> rows[i].totalSpending <= r.topSpender.value.totalSpending
  {
    if |rows| > 0 then
      FirstIsLargest(rows);
      Report(rows, trends, Some(rows[0]), |rows|)
    else Report(rows, trends, None, 0)
  }

  lemma FirstIsLargest(rows: seq<Row>)
    requires |rows| > 0 && Sorting.SortedDesc(rows, RowKey)
    ensures forall i :: 0 <= i < |rows| ==> rows[i].totalSpending <= rows[0].totalSpending
  {
    forall i | 0 < i < |rows| ensures rows[i].totalSpending <= rows[0].totalSpending {
      assert Sorting.KeyGeq(RowKey(rows[0]), RowKey(rows[i]));
    }
  }
}

=== FILE: requisitions_api.dfy ===
/** The GET and POST handlers of app/api/requisitions/route.ts. Each tries the database
    while the "database in use" flag is set; when the database call throws, the handler
    clears the flag and serves the request from the in-memory mock requisitions of
    lib/db.ts instead. */
module RequisitionsApi {
  import opened Common
  import opened Db
  import Seqs
  import Sorting
  import Text

  // ----- the client's view of a requisition -----

  /** A requisition under the names the client uses. `updatedAt` is absent from the rows
      the POST handler returns. */
  datatype View = View(
    id: int,
    fullName: string,
    employeeId: string,
    emailAddress: string,
    department: string,
    purposeOfRequest: string,
    software: Option<string>,
    status: int,
    approvedBy: Option<string>,
    approvedOn: Option<Instant>,
    createdAt: Instant,
    updatedAt: Option<Instant>)

  /** The field-renaming transform. */
  function ToView(r: Requisition): View {
    View(r.id, r.employeeName, r.employeeId, r.employeeEmail, r.pod, r.purpose, r.software,
         r.statusId, r.approvedBy, r.approvedOn, r.createdAt, Some(r.updatedAt))
  }

  /** Back from the client's names to the record; the catalogue id is the one column the
      view leaves out. */
  function FromView(v: View, softwareId: Option<int>, updatedAt: Instant): Requisition {
    Requisition(v.id, v.fullName, v.employeeId, v.emailAddress, v.department, v.purposeOfRequest,
                v.software, softwareId, v.status, v.approvedBy, v.approvedOn, v.createdAt,
                v.updatedAt.GetOr(updatedAt))
  }

  /** The renaming loses nothing but the catalogue id. */
  lemma ViewRoundTrip(r: Requisition, anyTime: Instant)
    ensures FromView(ToView(r), r.softwareId, anyTime) == r
  {
  }

  /** `rows.map(transform)`: one view per record, in the same order. */
  function ToViews(rs: seq<Requisition>): (vs: seq<View>)
    ensures |vs| == |rs|
    ensures forall i :: 0 <= i < |rs| ==> vs[i] == ToView(rs[i])
  {
    seq(|rs|, i requires 0 <= i < |rs| => ToView(rs[i]))
  }

  /** Two lists with the same views are the same list up to catalogue ids. */
  lemma {:induction false} ToViewsInjective(a: seq<Requisition>, b: seq<Requisition>)
    requires |a| == |b|
    requires forall i :: 0 <= i < |a| ==> a[i].softwareId == b[i].softwareId
    requires ToViews(a) == ToViews(b)
    ensures a == b
  {
    forall i | 0 <= i < |a| ensures a[i] == b[i] {
      assert ToViews(a)[i] == ToViews(b)[i];
      ViewRoundTrip(a[i], a[i].updatedAt);
      ViewRoundTrip(b[i], b[i].updatedAt);
    }
  }

  // ----- GET -----

  /** The `email` and `role` query parameters, each possibly absent. */
  datatype Query = Query(email: Option<string>, role: Option<string>)

  /** `userRole?.toLowerCase() === 'employee' && userEmail`. */
  predicate OwnOnly(q: Query) {
    q.role.Some? && Text.ToLower(q.role.value) == "employee" && Truthy(q.email)
  }

  /** The rows the caller may see: an employee giving an email sees the rows with exactly
      that email, anyone else sees everything. */
  function Visible(rs: seq<Requisition>, q: Query): (out: seq<Requisition>)
    ensures Seqs.IsSubseq(out, rs)
    ensures OwnOnly(q) ==> forall i :: 0 <= i < |out| ==> out[i].employeeEmail == q.email.value
    ensures OwnOnly(q) ==> forall i :: 0 <= i < |rs| && rs[i].employeeEmail == q.email.value ==> rs[i] in out
    ensures !OwnOnly(q) ==> out == rs
  {
    if OwnOnly(q) then Seqs.Filter(rs, (r: Requisition) => r.employeeEmail == q.email.value)
    else Seqs.SubseqOfSelf(rs); rs
  }

  /** `ORDER BY created_at DESC`. */
  function NewestFirst(r: Requisition): Sorting.Key {
    Sorting.Key(r.createdAt.month, r.createdAt.offset)
  }

  /** The same order on the client's view. */
  function ViewNewestFirst(v: View): Sorting.Key {
    Sorting.Key(v.createdAt.month, v.createdAt.offset)
  }

  /** Viewing a newest-first rearrangement of `vis` gives the views of `vis`, newest first. */
  lemma SortedViews(vis: seq<Requisition>, rows: seq<Requisition>)
    requires multiset(rows) == multiset(vis) && Sorting.SortedDesc(rows, NewestFirst)
    ensures multiset(ToViews(rows)) == multiset(ToViews(vis))
    ensures Sorting.SortedDesc(ToViews(rows), ViewNewestFirst)
  {
    Seqs.MapPermutation(rows, vis, ToView);
    assert ToViews(rows) == Seqs.Map(rows, ToView);
    assert ToViews(vis) == Seqs.Map(vis, ToView);
    var vs := ToViews(rows);
    forall i, j | 0 <= i < j < |vs| ensures Sorting.KeyGeq(ViewNewestFirst(vs[i]), ViewNewestFirst(vs[j])) {
      assert Sorting.KeyGeq(NewestFirst(rows[i]), NewestFirst(rows[j]));
    }
  }

  // ----- POST -----

  /** The six body fields; a field the JSON body lacks is absent. */
  datatype Fields = Fields(
    fullName: Option<string>,
    employeeId: Option<string>,
    emailAddress: Option<string>,
    department: Option<string>,
    purposeOfRequest: Option<string>,
    software: Option<string>)

  /** Every field present and non-empty. */
  predicate Complete(f: Fields) {
    Truthy(f.fullName) && Truthy(f.employeeId) && Truthy(f.emailAddress)
    && Truthy(f.department) && Truthy(f.purposeOfRequest) && Truthy(f.software)
  }

  /** A new pending requisition with no approver, built from complete fields. */
  function NewRequisition(id: int, f: Fields, now: Instant): (r: Requisition)
    requires Complete(f)
    ensures r.statusId == Pending && r.approvedBy.None? && r.approvedOn.None?
    ensures r.id == id && r.createdAt == now && r.software == f.software
  {
    Requisition(id, f.fullName.value, f.employeeId.value, f.emailAddress.value, f.department.value,
                f.purposeOfRequest.value, f.software, None, Pending, None, None, now, now)
  }

  /** A created row as the POST response shows it: the inserted columns without `updated_at`. */
  function CreatedView(r: Requisition): View {
    ToView(r).(updatedAt := None)
  }

  // ----- the handlers -----

  /** The module-level state the handlers share. */
  datatype Server = Server(flag: StoreFlag, counter: IdCounter, mock: seq<Requisition>)

  /** The state when the modules load at `loadedAt`. */
  function Boot(loadedAt: Instant): Server {
    Server(InitialFlag, InitialCounter, MockRequisitions(loadedAt))
  }

  datatype Payload = Listed(rows: seq<View>) | Created(row: View) | Failed(error: string, details: Option<string>)

  datatype Response = Response(status: int, payload: Payload)

  /** A handler's answer, the shared state after it, and the database's contents when the
      handler reached the database. */
  datatype Handled = Handled(response: Response, server: Server, tables: Option<Store>)

  const MissingFields: string := "Missing required fields"
  const CreateFailed: string := "Failed to create requisition"

  /** Whether the call goes to the database and the database answers. */
  predicate Reaches<T>(s: Server, store: DbCall<T>) {
    GetDatabaseStatus(s.flag) && store.Returned?
  }

  /** The flag after a handler: cleared when the database threw, otherwise as it was. */
  function FlagAfterCall<T>(s: Server, store: DbCall<T>): (f: StoreFlag)
    ensures GetDatabaseStatus(f) <==> GetDatabaseStatus(s.flag) && store.Returned?
  {
    if GetDatabaseStatus(s.flag) && store.Threw? then SetDatabaseStatus(s.flag, false) else s.flag
  }

  /** GET. `store` is what seeding and querying the database did. */
  function Get(q: Query, s: Server, store: DbCall<Store>, now: Instant): (h: Handled)
    ensures h.response.status == 200 && h.response.payload.Listed?
    ensures h.server.counter == s.counter && h.server.mock == s.mock
    ensures GetDatabaseStatus(h.server.flag) <==> Reaches(s, store)
    ensures h.tables.Some? <==> Reaches(s, store)
    ensures Reaches(s, store) ==>
      h.tables == Some(InitializeDatabase(store.value, now))
      && multiset(h.response.payload.rows) == multiset(ToViews(Visible(h.tables.value.requisitions, q)))
      && Sorting.SortedDesc(h.response.payload.rows, ViewNewestFirst)
    ensures !Reaches(s, store) ==> h.response.payload.rows == ToViews(Visible(s.mock, q))
    ensures OwnOnly(q) ==> forall i :: 0 <= i < |h.response.payload.rows| ==>
      h.response.payload.rows[i].emailAddress == q.email.value
  {
    if Reaches(s, store) then
      var seeded := InitializeDatabase(store.value, now);
      var rows := Sorting.SortDesc(Visible(seeded.requisitions, q), NewestFirst);
      OwnRowsStayOwn(Visible(seeded.requisitions, q), rows, q);
      SortedViews(Visible(seeded.requisitions, q), rows);
      Handled(Response(200, Listed(ToViews(rows))), s, Some(seeded))
    else
      Handled(Response(200, Listed(ToViews(Visible(s.mock, q)))), s.(flag := FlagAfterCall(s, store)), None)
  }

  /** Reordering keeps every row's email. */
  lemma OwnRowsStayOwn(vis: seq<Requisition>, rows: seq<Requisition>, q: Query)
    requires OwnOnly(q) ==> forall i :: 0 <= i < |vis| ==> vis[i].employeeEmail == q.email.value
    requires multiset(rows) == multiset(vis)
    ensures OwnOnly(q) ==> forall i :: 0 <= i < |rows| ==> rows[i].employeeEmail == q.email.value
  {
    if OwnOnly(q) {
      forall i | 0 <= i < |rows| ensures rows[i].employeeEmail == q.email.value {
        assert rows[i] in multiset(vis);
      }
    }
  }

  /** POST. `store` is what seeding the database and inserting the row did; on success
      it holds the tables the insert saw. */
  function Post(b: Parse<Fields>, s: Server, store: DbCall<Store>, now: Instant): (h: Handled)
    ensures b.Unparsable? ==> h == Handled(Response(500, Failed(CreateFailed, Some(b.message))), s, None)
    ensures b.Parsed? && !Complete(b.value) ==>
      h == Handled(Response(400, Failed(MissingFields, None)), s, None)
    ensures b.Parsed? && Complete(b.value) ==> h.response.status == 201 && h.response.payload.Created?
    ensures b.Parsed? && Complete(b.value) ==>
      var id := if Reaches(s, store) then InitializeDatabase(store.value, now).nextRequisitionSerial else s.counter.next;
      h.response.payload.row == CreatedView(NewRequisition(id, b.value, now))
    ensures b.Parsed? && Complete(b.value) && Reaches(s, store) ==>
      h.server == s && h.tables.Some?
      && h.tables.value.requisitions == InitializeDatabase(store.value, now).requisitions
           + [NewRequisition(InitializeDatabase(store.value, now).nextRequisitionSerial, b.value, now)]
    ensures b.Parsed? && Complete(b.value) && !Reaches(s, store) ==>
      h.tables.None? && h.server.flag == FlagAfterCall(s, store)
      && h.server.mock == s.mock + [NewRequisition(s.counter.next, b.value, now)]
      && h.server.counter.next == s.counter.next + 1
    ensures h.response.payload.Created? ==>
      h.response.payload.row.status == Pending && h.response.payload.row.approvedBy.None?
      && Some(h.response.payload.row.emailAddress) == b.value.emailAddress
    ensures GetDatabaseStatus(h.server.flag) ==> GetDatabaseStatus(s.flag)
  {
    match b
    case Unparsable(msg) => Handled(Response(500, Failed(CreateFailed, Some(msg))), s, None)
    case Parsed(f) =>
      if !Complete(f) then Handled(Response(400, Failed(MissingFields, None)), s, None)
      else if Reaches(s, store) then
        var seeded := InitializeDatabase(store.value, now);
        var row := NewRequisition(seeded.nextRequisitionSerial, f, now);
        var written := seeded.(requisitions := seeded.requisitions + [row],
                               nextRequisitionSerial := seeded.nextRequisitionSerial + 1);
        Handled(Response(201, Created(CreatedView(row))), s, Some(written))
      else
        var (id, counter) := GetNextId(s.counter);
        var row := NewRequisition(id, f, now);
        var s' := Server(FlagAfterCall(s, store), counter, s.mock + [row]);
        Handled(Response(201, Created(CreatedView(row))), s', None)
  }

  // ----- the shared state across requests -----

  /** Every mock requisition's id is below the counter, and no two share an id. */
  ghost predicate Invariant(s: Server) {
    (forall i :: 0 <= i < |s.mock| ==> s.mock[i].id < s.counter.next)
    && (forall i, j :: 0 <= i < j < |s.mock| ==> s.mock[i].id != s.mock[j].id)
  }

  lemma BootInvariant(loadedAt: Instant)
    ensures Invariant(Boot(loadedAt))
  {
  }

  /** A request to either handler, with what the database did for it. */
  datatype Request = GetRequest(q: Query, store: DbCall<Store>) | PostRequest(b: Parse<Fields>, store: DbCall<Store>)

  function Handle(r: Request, s: Server, now: Instant): Handled {
    match r
    case GetRequest(q, store) => Get(q, s, store, now)
    case PostRequest(b, store) => Post(b, s, store, now)
  }

  /** The state after serving `rs` in order, the i-th at `times[i]`. */
  function Serve(rs: seq<Request>, times: seq<Instant>, s: Server): Server
    requires |times| == |rs|
  {
    if |rs| == 0 then s
    else Serve(rs[1..], times[1..], Handle(rs[0], s, times[0]).server)
  }

  /** Each handler keeps the invariant: a mock create takes a fresh id from the counter. */
  lemma HandleKeepsInvariant(r: Request, s: Server, now: Instant)
    requires Invariant(s)
    ensures Invariant(Handle(r, s, now).server)
    ensures GetDatabaseStatus(Handle(r, s, now).server.flag) ==> GetDatabaseStatus(s.flag)
  {
  }

  /** Over any run of requests the mock ids stay distinct, and once the flag is cleared
      nothing sets it again. */
  lemma {:induction false} ServeKeepsInvariant(rs: seq<Request>, times: seq<Instant>, s: Server)
    requires |times| == |rs| && Invariant(s)
    ensures Invariant(Serve(rs, times, s))
    ensures GetDatabaseStatus(Serve(rs, times, s).flag) ==> GetDatabaseStatus(s.flag)
  {
    if |rs| > 0 {
      HandleKeepsInvariant(rs[0], s, times[0]);
      ServeKeepsInvariant(rs[1..], times[1..], Handle(rs[0], s, times[0]).server);
    }
  }
}

=== FILE: requisitions_mock.dfy ===
/** app/api/requisitions/route-mock.ts: a stand-alone in-memory variant of the
    requisitions API. Records carry string ids and ISO time-stamp strings; a new record's
    id is one more than the list's length. */
module RequisitionsMock {
  import opened Common
  import Text
  import Api = RequisitionsApi

  datatype Record = Record(
    id: string,
    fullName: string,
    employeeId: string,
    emailAddress: string,
    department: string,
    purposeOfRequest: string,
    status: int,
    approvedBy: Option<string>,
    approvedOn: Option<string>,
    createdAt: string,
    updatedAt: string)

  /** The four records the list starts with. */
  const Seeds: seq<Record> := [
    Record("1", "John Doe", "EMP001", "john@company.com", "Engineering",
           "Laptop for development work", 1, None, None,
           "2024-12-15T10:30:00.000Z", "2024-12-15T10:30:00.000Z"),
    Record("2", "John Doe", "EMP001", "john@company.com", "Engineering",
           "Software license for project", 2, Some("Mike Johnson"), Some("2024-12-16T14:20:00.000Z"),
           "2024-12-14T09:15:00.000Z", "2024-12-16T14:20:00.000Z"),
    Record("3", "Mike Johnson", "HOD001", "hod@company.com", "Management",
           "Office supplies for department", 1, None, None,
           "2024-12-13T16:45:00.000Z", "2024-12-13T16:45:00.000Z"),
    Record("4", "Jane Smith", "EMP002", "jane@company.com", "Marketing",
           "Marketing materials for campaign", 1, None, None,
           "2024-12-12T11:30:00.000Z", "2024-12-12T11:30:00.000Z")
  ]

  /** Only the second seed is approved, and it names its approver and approval time. */
  lemma SeedStatuses()
    ensures forall i :: 0 <= i < |Seeds| ==> (Seeds[i].status == 2 <==> i == 1)
    ensures forall i :: 0 <= i < |Seeds| ==> (Seeds[i].approvedBy.Some? <==> Seeds[i].status == 2)
    ensures Seeds[1].approvedBy == Some("Mike Johnson")
  {
  }

  /** The five fields this variant requires; `software` is not among them. */
  predicate HasRequired(f: Api.Fields) {
    Truthy(f.fullName) && Truthy(f.employeeId) && Truthy(f.emailAddress)
    && Truthy(f.department) && Truthy(f.purposeOfRequest)
  }

  /** The main route demands strictly more: software as well. */
  lemma MainRouteDemandsMore(f: Api.Fields)
    ensures Api.Complete(f) ==> HasRequired(f)
    ensures HasRequired(f) && !Truthy(f.software) ==> !Api.Complete(f)
  {
  }

  datatype Payload = Listed(rows: seq<Record>) | Created(row: Record) | Failed(error: string)

  datatype Response = Response(status: int, payload: Payload)

  /** GET: the list as it stands. */
  function Get(list: seq<Record>): (r: Response)
    ensures r.status == 200 && r.payload == Listed(list)
  {
    Response(200, Listed(list))
  }

  /** POST: the response and the list after it. `now` is the ISO text of the clock. */
  function Post(b: Parse<Api.Fields>, list: seq<Record>, now: string): (r: (Response, seq<Record>))
    ensures b.Unparsable? ==> r == (Response(500, Failed(Api.CreateFailed)), list)
    ensures b.Parsed? && !HasRequired(b.value) ==> r == (Response(400, Failed(Api.MissingFields)), list)
    ensures b.Parsed? && HasRequired(b.value) ==>
      r.0.status == 201 && r.0.payload.Created?
      && r.1 == list + [r.0.payload.row]
      && r.0.payload.row.id == Text.NatToString(|list| + 1)
      && r.0.payload.row.status == 1
      && r.0.payload.row.approvedBy.None? && r.0.payload.row.approvedOn.None?
      && Some(r.0.payload.row.fullName) == b.value.fullName
      && Some(r.0.payload.row.employeeId) == b.value.employeeId
      && Some(r.0.payload.row.emailAddress) == b.value.emailAddress
      && Some(r.0.payload.row.department) == b.value.department
      && Some(r.0.payload.row.purposeOfRequest) == b.value.purposeOfRequest
      && r.0.payload.row.createdAt == now && r.0.payload.row.updatedAt == now
  {
    match b
    case Unparsable(_) => (Response(500, Failed(Api.CreateFailed)), list)
    case Parsed(f) =>
      if !HasRequired(f) then (Response(400, Failed(Api.MissingFields)), list)
      else
        var row := Record(Text.NatToString(|list| + 1), f.fullName.value, f.employeeId.value,
                          f.emailAddress.value, f.department.value, f.purposeOfRequest.value,
                          1, None, None, now, now);
        (Response(201, Created(row)), list + [row])
  }

  /** The i-th record has id `String(i + 1)`. */
  predicate IdsByPosition(list: seq<Record>) {
    forall i :: 0 <= i < |list| ==> list[i].id == Text.NatToString(i + 1)
  }

  lemma SeedsByPosition()
    ensures IdsByPosition(Seeds)
  {
    assert Text.NatToString(1) == "1" && Text.NatToString(2) == "2";
    assert Text.NatToString(3) == "3" && Text.NatToString(4) == "4";
  }

  /** A POST keeps ids matching positions, since it only ever appends. */
  lemma PostKeepsIdsByPosition(b: Parse<Api.Fields>, list: seq<Record>, now: string)
    requires IdsByPosition(list)
    ensures IdsByPosition(Post(b, list, now).1)
  {
  }

  /** Hence ids are distinct. */
  lemma {:induction false} IdsDistinct(list: seq<Record>)
    requires IdsByPosition(list)
    ensures forall i, j :: 0 <= i < j < |list| ==> list[i].id != list[j].id
  {
    forall i, j | 0 <= i < j < |list| ensures list[i].id != list[j].id {
      if list[i].id == list[j].id {
        Text.NatToStringInjective(i + 1, j + 1);
      }
    }
  }

  /** The list after a series of POSTs from the seeds, the k-th at `times[k]`. */
  function AfterPosts(bodies: seq<Parse<Api.Fields>>, times: seq<string>): (list: seq<Record>)
    requires |times| == |bodies|
    decreases |bodies|
  {
    if |bodies| == 0 then Seeds
    else
      var n := |bodies| - 1;
      Post(bodies[n], AfterPosts(bodies[..n], times[..n]), times[n]).1
  }

  /** After any series of POSTs the ids still match positions, and so are distinct. */
  lemma {:induction false} PostsKeepIdsDistinct(bodies: seq<Parse<Api.Fields>>, times: seq<string>)
    requires |times| == |bodies|
    ensures IdsByPosition(AfterPosts(bodies, times))
    ensures forall i, j :: 0 <= i < j < |AfterPosts(bodies, times)| ==>
      AfterPosts(bodies, times)[i].id != AfterPosts(bodies, times)[j].id
    decreases |bodies|
  {
    if |bodies| == 0 {
      SeedsByPosition();
    } else {
      var n := |bodies| - 1;
      PostsKeepIdsDistinct(bodies[..n], times[..n]);
      PostKeepsIdsByPosition(bodies[n], AfterPosts(bodies[..n], times[..n]), times[n]);
    }
    IdsDistinct(AfterPosts(bodies, times));
  }
}

=== FILE: requisitions_page.dfy ===
/** The client-side logic of app/requisitions/page.tsx: the column filters over the
    fetched requisitions, pagination ten rows to a page, the window of page-number
    buttons, and which row actions a user is offered. */
module RequisitionsPage {
  import opened Common
  import opened Db
  import Seqs
  import Text
  import RequisitionsApi

  type Row = RequisitionsApi.View

  // ----- filters -----

  /** The eight filter inputs. */
  datatype Filters = Filters(
    employeeId: string,
    fullName: string,
    emailAddress: string,
    department: string,
    software: string,
    status: string,
    createdAt: string,
    approvedOn: string)

  /** What `clearFilters` sets. */
  const Cleared: Filters := Filters("", "", "", "", "", "", "", "")

  /** A text filter passes a field when, both lower-cased, the filter occurs in it. */
  predicate TextPasses(field: string, filter: string) {
    Text.Contains(Text.ToLower(field), Text.ToLower(filter))
  }

  /** An empty software filter passes every row; otherwise the row needs a non-empty
      software name that the filter passes. */
  predicate SoftwarePasses(software: Option<string>, filter: string) {
    filter == "" || (Truthy(software) && TextPasses(software.value, filter))
  }

  /** The status filter: '' keeps all, 'pending' keeps status 1, 'approved' status 2,
      and any other value keeps nothing. */
  predicate StatusPasses(status: int, filter: string) {
    filter == "" || (filter == "pending" && status == Pending) || (filter == "approved" && status == Approved)
  }

  /** A date filter is matched, case and all, against the date as the browser's locale
      prints it; `localDate` stands for that formatting. */
  predicate DatePasses(at: Option<Instant>, filter: string, localDate: Instant -> string) {
    filter == "" || (at.Some? && Text.Contains(localDate(at.value), filter))
  }

  predicate Passes(r: Row, f: Filters, localDate: Instant -> string) {
    TextPasses(r.employeeId, f.employeeId)
    && TextPasses(r.fullName, f.fullName)
    && TextPasses(r.emailAddress, f.emailAddress)
    && TextPasses(r.department, f.department)
    && SoftwarePasses(r.software, f.software)
    && StatusPasses(r.status, f.status)
    && DatePasses(Some(r.createdAt), f.createdAt, localDate)
    && DatePasses(r.approvedOn, f.approvedOn, localDate)
  }

  /** The page's state: the fetched rows, the filtered rows, the current page, the filters. */
  datatype Page = Page(rows: seq<Row>, filtered: seq<Row>, currentPage: int, filters: Filters)

  /** `applyFilters`: the rows that pass every filter, in order, and back to page one. */
  function ApplyFilters(p: Page, localDate: Instant -> string): (q: Page)
    ensures q.rows == p.rows && q.filters == p.filters && q.currentPage == 1
    ensures Seqs.IsSubseq(q.filtered, p.rows)
    ensures forall i :: 0 <= i < |q.filtered| ==> Passes(q.filtered[i], p.filters, localDate)
    ensures forall i :: 0 <= i < |p.rows| && Passes(p.rows[i], p.filters, localDate) ==> p.rows[i] in q.filtered
  {
    p.(filtered := Seqs.Filter(p.rows, (r: Row) => Passes(r, p.filters, localDate)), currentPage := 1)
  }

  /** With the status filter on 'pending' only pending rows remain, on 'approved' only
      approved ones, and on any other non-empty value none at all. */
  lemma StatusFilterKeeps(p: Page, localDate: Instant -> string)
    ensures var q := ApplyFilters(p, localDate);
      (p.filters.status == "pending" ==> forall i :: 0 <= i < |q.filtered| ==> q.filtered[i].status == Pending)
      && (p.filters.status == "approved" ==> forall i :: 0 <= i < |q.filtered| ==> q.filtered[i].status == Approved)
      && (p.filters.status !in {"", "pending", "approved"} ==> q.filtered == [])
  {
  }

  /** `clearFilters`. */
  function ClearFilters(p: Page): (q: Page)
    ensures q.rows == p.rows && q.filtered == p.filtered && q.currentPage == p.currentPage
    ensures q.filters.employeeId == "" && q.filters.fullName == "" && q.filters.emailAddress == ""
    ensures q.filters.department == "" && q.filters.software == "" && q.filters.status == ""
    ensures q.filters.createdAt == "" && q.filters.approvedOn == ""
  {
    p.(filters := Cleared)
  }

  /** The empty string occurs in every string, lower-cased or not. */
  lemma EmptyFilterPasses(field: string)
    ensures TextPasses(field, "")
  {
  }

  /** After clearing, every row passes, so the next filtering shows all rows. */
  lemma ClearedShowsAll(p: Page, localDate: Instant -> string)
    ensures ApplyFilters(ClearFilters(p), localDate).filtered == p.rows
  {
    forall i | 0 <= i < |p.rows| ensures Passes(p.rows[i], Cleared, localDate) {
      EmptyFilterPasses(p.rows[i].employeeId);
      EmptyFilterPasses(p.rows[i].fullName);
      EmptyFilterPasses(p.rows[i].emailAddress);
      EmptyFilterPasses(p.rows[i].department);
    }
  }

  // ----- pagination -----

  /** `Math.ceil(n / itemsPerPage)`, ten items to a page. */
  function TotalPages(n: nat): (t: nat)
    ensures t * 10 >= n
    ensures t > 0 ==> (t - 1) * 10 < n
    ensures t == 0 <==> n == 0
  {
    (n + 9) / 10
  }

  /** JavaScript's `slice` index rule: a negative index counts from the end, and the
      result is clamped into [0, n]. */
  function SliceIndex(i: int, n: nat): (k: nat)
    ensures k <= n
    ensures 0 <= i <= n ==> k == i
  {
    if i < 0 then (if n + i < 0 then 0 else n + i) else if i > n then n else i
  }

  /** `s.slice(start, end)`. */
  function Slice<T>(s: seq<T>, start: int, end: int): (r: seq<T>)
    ensures |r| <= |s|
    ensures end - start >= 0 && start >= 0 ==> |r| <= end - start
    ensures forall k :: 0 <= k < |r| ==> SliceIndex(start, |s|) + k < |s| && r[k] == s[SliceIndex(start, |s|) + k]
  {
    var a := SliceIndex(start, |s|);
    var b := SliceIndex(end, |s|);
    if b <= a then [] else s[a..b]
  }

  /** The rows shown on page `page`. */
  function PageRows(filtered: seq<Row>, page: int): (r: seq<Row>)
    ensures |r| <= 10
    ensures page >= 1 ==> forall k :: 0 <= k < |r| ==>
      (page - 1) * 10 + k < |filtered| && r[k] == filtered[(page - 1) * 10 + k]
  {
    var start := (page - 1) * 10;
    var r := Slice(filtered, start, start + 10);
    assert page >= 1 && |r| > 0 ==> SliceIndex(start, |filtered|) == start;
    r
  }

  /** Pages 1..k shown one after the other are the first min(10k, n) rows. */
  function PagesUpTo(filtered: seq<Row>, k: nat): seq<Row>
  {
    if k == 0 then [] else PagesUpTo(filtered, k - 1) + PageRows(filtered, k)
  }

  lemma {:induction false} PagesUpToPrefix(filtered: seq<Row>, k: nat)
    ensures PagesUpTo(filtered, k) == filtered[..if k * 10 <= |filtered| then k * 10 else |filtered|]
  {
    if k > 0 {
      PagesUpToPrefix(filtered, k - 1);
      var n := |filtered|;
      var lo := if (k - 1) * 10 <= n then (k - 1) * 10 else n;
      var hi := if k * 10 <= n then k * 10 else n;
      var rows := PageRows(filtered, k);
      if (k - 1) * 10 <= n {
        assert rows == filtered[lo..hi];
      } else {
        assert rows == [];
      }
      assert filtered[..lo] + filtered[lo..hi] == filtered[..hi];
    }
  }

  /** Every row is on exactly one page: the pages 1..totalPages, in order, are the
      filtered rows. */
  lemma PagesCoverRows(filtered: seq<Row>)
    ensures PagesUpTo(filtered, TotalPages(|filtered|)) == filtered
  {
    PagesUpToPrefix(filtered, TotalPages(|filtered|));
  }

  /** `goToPage`: `Math.max(1, Math.min(page, totalPages))`. */
  function GoToPage(page: int, totalPages: nat): (r: int)
    ensures r >= 1
    ensures totalPages >= 1 ==> r <= totalPages
    ensures totalPages == 0 ==> r == 1
    ensures 1 <= page <= totalPages ==> r == page
    ensures page < 1 ==> r == 1
    ensures page > totalPages >= 1 ==> r == totalPages
  {
    var m := if page < totalPages then page else totalPages;
    if m < 1 then 1 else m
  }

  lemma GoToPageIdempotent(page: int, totalPages: nat)
    ensures GoToPage(GoToPage(page, totalPages), totalPages) == GoToPage(page, totalPages)
  {
  }

  /** The page-number buttons: `min(5, totalPages)` slots numbered from
      `max(1, current - 2)`, the ones past the last page left out. The page renders
      the pagination bar, and so these buttons, only when `totalPages > 1`; this
      function gives the slots whatever the page count. */
  function PageButtons(current: int, totalPages: nat): (bs: seq<int>)
    ensures |bs| <= 5 && |bs| <= totalPages
    ensures forall i :: 0 <= i < |bs| ==> 1 <= bs[i] <= totalPages
    ensures forall i :: 0 <= i < |bs| ==> bs[i] == (if current - 2 > 1 then current - 2 else 1) + i
    ensures 1 <= current <= totalPages ==> current in bs
  {
    var start := if current - 2 > 1 then current - 2 else 1;
    var slots := if totalPages < 5 then totalPages else 5;
    var shown := if start > totalPages then 0 else if totalPages - start + 1 < slots then totalPages - start + 1 else slots;
    var bs := seq(shown, i requires 0 <= i < shown => start + i);
    assert 1 <= current <= totalPages ==> bs[current - start] == current;
    bs
  }

  // ----- row actions -----

  /** "Edit Details" (rather than "View Details"): a pending row, for a user whose role
      lower-cases to 'employee'. */
  predicate CanEdit(role: Option<string>, status: int) {
    status == Pending && role.Some? && Text.ToLower(role.value) == "employee"
  }

  /** "Approve": a pending row, for a user whose role is exactly 'hod'. */
  predicate CanApprove(role: Option<string>, status: int) {
    role == Some("hod") && status == Pending
  }

  /** The status badge: only 1 and 2 have names; a rejected row shows "Unknown". */
  function StatusBadge(status: int): (badge: string)
    ensures badge == "Approved" <==> status == Approved
    ensures badge == "Pending" <==> status == Pending
    ensures badge == "Unknown" <==> status != Approved && status != Pending
  {
    if status == Approved then "Approved" else if status == Pending then "Pending" else "Unknown"
  }

  /** No user is offered both actions on a row, and only pending rows offer either. */
  lemma ActionsExclusive(role: Option<string>, status: int)
    ensures !(CanEdit(role, status) && CanApprove(role, status))
    ensures (CanEdit(role, status) || CanApprove(role, status)) ==> status == Pending
  {
    if role == Some("hod") {
      assert Text.ToLower(role.value)[0] == 'h';
    }
  }
}

=== FILE: seqs.dfy ===
/** Sequence combinators that stand in for SQL WHERE, COUNT, SUM and GROUP BY and for
    JavaScript's `filter`, `length` and `reduce`, with the facts the reports rely on. */
module Seqs {

  /** `a` is `b` with some elements left out, the rest kept in order. */
  ghost predicate IsSubseq<T>(a: seq<T>, b: seq<T>)
    decreases |b|
  {
    |a| == 0 || (|b| > 0 && ((a[0] == b[0] && IsSubseq(a[1..], b[1..])) || IsSubseq(a, b[1..])))
  }

  lemma {:induction false} SubseqOfSelf<T>(s: seq<T>)
    ensures IsSubseq(s, s)
    decreases |s|
  {
    if |s| > 0 {
      SubseqOfSelf(s[1..]);
    }
  }

  /** The elements of `s` that satisfy `p`, in their original order. */
  function Filter<T>(s: seq<T>, p: T -> bool): (r: seq<T>)
    ensures |r| <= |s|
    ensures forall i :: 0 <= i < |r| ==> r[i] in s && p(r[i])
    ensures forall i :: 0 <= i < |s| && p(s[i]) ==> s[i] in r
    ensures IsSubseq(r, s)
    ensures |r| == CountOf(s, p)
    ensures (forall i :: 0 <= i < |s| ==> p(s[i])) ==> r == s
  {
    if |s| == 0 then []
    else if p(s[0]) then [s[0]] + Filter(s[1..], p)
    else Filter(s[1..], p)
  }

  /** How many elements of `s` satisfy `p`. */
  function CountOf<T>(s: seq<T>, p: T -> bool): (n: nat)
    ensures n <= |s|
    ensures n == |s| <==> forall i :: 0 <= i < |s| ==> p(s[i])
    ensures n == 0 <==> forall i :: 0 <= i < |s| ==> !p(s[i])
  {
    if |s| == 0 then 0
    else (if p(s[0]) then 1 else 0) + CountOf(s[1..], p)
  }

  /** Σ f(x) over the elements of `s`. */
  function SumOf<T>(s: seq<T>, f: T -> int): int
  {
    if |s| == 0 then 0 else f(s[0]) + SumOf(s[1..], f)
  }

  lemma {:induction false} SumOfAppend<T>(a: seq<T>, b: seq<T>, f: T -> int)
    ensures SumOf(a + b, f) == SumOf(a, f) + SumOf(b, f)
  {
    if |a| > 0 {
      assert (a + b)[1..] == a[1..] + b;
      SumOfAppend(a[1..], b, f);
    } else {
      assert a + b == b;
    }
  }

  /** A sum does not depend on the order of its terms. */
  lemma {:induction false} SumOfPermutation<T>(a: seq<T>, b: seq<T>, f: T -> int)
    requires multiset(a) == multiset(b)
    ensures SumOf(a, f) == SumOf(b, f)
  {
    if |a| == 0 {
      assert |b| == |multiset(b)| == 0;
    } else {
      var x := a[0];
      assert x in multiset(b);
      var i :| 0 <= i < |b| && b[i] == x;
      assert b == b[..i] + [x] + b[i + 1..];
      var rest := b[..i] + b[i + 1..];
      assert a == [x] + a[1..];
      assert multiset(a[1..]) == multiset(rest) by {
        assert multiset(b) == multiset(b[..i]) + multiset{x} + multiset(b[i + 1..]);
        assert multiset(a) == multiset{x} + multiset(a[1..]);
        assert multiset(rest) == multiset(b[..i]) + multiset(b[i + 1..]);
        assert multiset(a[1..]) == multiset(a) - multiset{x};
        assert multiset(rest) == multiset(b) - multiset{x};
      }
      SumOfPermutation(a[1..], rest, f);
      SumOfAppend(b[..i], b[i + 1..], f);
      SumOfAppend(b[..i], [x], f);
      SumOfAppend(b[..i] + [x], b[i + 1..], f);
    }
  }

  /** f applied to each element of `s` (JavaScript's `map`, a SELECT list). */
  function Map<T, U>(s: seq<T>, f: T -> U): (r: seq<U>)
    ensures |r| == |s|
    ensures forall i :: 0 <= i < |s| ==> r[i] == f(s[i])
  {
    seq(|s|, i requires 0 <= i < |s| => f(s[i]))
  }

  lemma MapAppend<T, U>(a: seq<T>, b: seq<T>, f: T -> U)
    ensures Map(a + b, f) == Map(a, f) + Map(b, f)
  {
  }

  /** Mapping a rearrangement gives a rearrangement of the mapped sequence. */
  lemma {:induction false} MapPermutation<T, U>(a: seq<T>, b: seq<T>, f: T -> U)
    requires multiset(a) == multiset(b)
    ensures multiset(Map(a, f)) == multiset(Map(b, f))
  {
    if |a| == 0 {
      assert |b| == |multiset(b)| == 0;
    } else {
      var x := a[0];
      assert x in multiset(b);
      var i :| 0 <= i < |b| && b[i] == x;
      var l, r := b[..i], b[i + 1..];
      assert b == l + [x] + r;
      assert multiset(a[1..]) == multiset(l + r) by {
        assert a == [x] + a[1..];
        assert multiset(b) == multiset(l) + multiset{x} + multiset(r);
        assert multiset(a[1..]) == multiset(a) - multiset{x};
        assert multiset(l + r) == multiset(b) - multiset{x};
      }
      MapPermutation(a[1..], l + r, f);
      MapAppend([x], a[1..], f);
      assert a == [x] + a[1..];
      MapAppend(l, r, f);
      MapAppend(l + [x], r, f);
      MapAppend(l, [x], f);
    }
  }

  /** A prefix holds no element more often than the whole sequence. */
  lemma PrefixSubmultiset<T>(s: seq<T>, n: nat)
    requires n <= |s|
    ensures multiset(s[..n]) <= multiset(s)
  {
    assert s == s[..n] + s[n..];
  }

  /** The distinct elements of `s`, in order of first appearance (SELECT DISTINCT,
      COUNT(DISTINCT ...), and the group keys of a GROUP BY). */
  function Distinct<T(==)>(s: seq<T>): (r: seq<T>)
    ensures NoDups(r)
    ensures forall i :: 0 <= i < |r| ==> r[i] in s
    ensures forall i :: 0 <= i < |s| ==> s[i] in r
    ensures |r| <= |s|
  {
    if |s| == 0 then []
    else
      var rest := Distinct(s[..|s| - 1]);
      assert forall i :: 0 <= i < |s| - 1 ==> s[i] == s[..|s| - 1][i];
      if s[|s| - 1] in rest then rest else rest + [s[|s| - 1]]
  }

  ghost predicate NoDups<T>(s: seq<T>) {
    forall i, j :: 0 <= i < j < |s| ==> s[i] != s[j]
  }

  /** Σ f(x) over the elements x of `s` whose key is `k`: one group of a GROUP BY. */
  function SumWhere<T, K(==)>(s: seq<T>, key: T -> K, k: K, f: T -> int): int
  {
    if |s| == 0 then 0
    else (if key(s[0]) == k then f(s[0]) else 0) + SumWhere(s[1..], key, k, f)
  }

  /** Σ over the keys `ks` of each key's group sum. */
  function SumGroups<T, K(==)>(ks: seq<K>, s: seq<T>, key: T -> K, f: T -> int): int
  {
    if |ks| == 0 then 0 else SumWhere(s, key, ks[0], f) + SumGroups(ks[1..], s, key, f)
  }

  /** Grouping neither loses nor double-counts: when the keys are distinct and cover
      every element's key, the group sums add up to the plain sum. */
  lemma {:induction false} GroupsPartitionSum<T, K>(ks: seq<K>, s: seq<T>, key: T -> K, f: T -> int)
    requires NoDups(ks)
    requires forall i :: 0 <= i < |s| ==> key(s[i]) in ks
    ensures SumGroups(ks, s, key, f) == SumOf(s, f)
  {
    if |s| > 0 {
      GroupsSplitHead(ks, s, key, f);
      GroupsPartitionSum(ks, s[1..], key, f);
      IndicatorSum(ks, key(s[0]), f(s[0]));
    } else {
      GroupsOfEmpty(ks, s, key, f);
    }
  }

  function Indicator<K(==)>(ks: seq<K>, k: K, v: int): int {
    if |ks| == 0 then 0 else (if ks[0] == k then v else 0) + Indicator(ks[1..], k, v)
  }

  lemma {:induction false} IndicatorSum<K>(ks: seq<K>, k: K, v: int)
    requires NoDups(ks) && k in ks
    ensures Indicator(ks, k, v) == v
  {
    if ks[0] == k {
      IndicatorAbsent(ks[1..], k, v);
    } else {
      IndicatorSum(ks[1..], k, v);
    }
  }

  lemma {:induction false} IndicatorAbsent<K>(ks: seq<K>, k: K, v: int)
    requires k !in ks
    ensures Indicator(ks, k, v) == 0
  {
    if |ks| > 0 {
      IndicatorAbsent(ks[1..], k, v);
    }
  }

  lemma {:induction false} GroupsSplitHead<T, K>(ks: seq<K>, s: seq<T>, key: T -> K, f: T -> int)
    requires |s| > 0
    ensures SumGroups(ks, s, key, f) == Indicator(ks, key(s[0]), f(s[0])) + SumGroups(ks, s[1..], key, f)
  {
    if |ks| > 0 {
      GroupsSplitHead(ks[1..], s, key, f);
    }
  }

  lemma {:induction false} GroupsOfEmpty<T, K>(ks: seq<K>, s: seq<T>, key: T -> K, f: T -> int)
    requires |s| == 0
    ensures SumGroups(ks, s, key, f) == 0
  {
    if |ks| > 0 {
      GroupsOfEmpty(ks[1..], s, key, f);
    }
  }

  /** The elements of `s` whose key is `k`, in order: one group of a GROUP BY. */
  function Where<T, K(==)>(s: seq<T>, key: T -> K, k: K): (r: seq<T>)
    ensures |r| <= |s|
    ensures forall i :: 0 <= i < |r| ==> key(r[i]) == k && r[i] in s
    ensures forall i :: 0 <= i < |s| && key(s[i]) == k ==> s[i] in r
  {
    if |s| == 0 then []
    else if key(s[0]) == k then [s[0]] + Where(s[1..], key, k)
    else Where(s[1..], key, k)
  }

  lemma {:induction false} SumOfWhere<T, K>(s: seq<T>, key: T -> K, k: K, f: T -> int)
    ensures SumOf(Where(s, key, k), f) == SumWhere(s, key, k, f)
  {
    if |s| > 0 {
      SumOfWhere(s[1..], key, k, f);
    }
  }

  /** The keys of the elements of `s`, in order. */
  function KeysOf<T, K>(s: seq<T>, key: T -> K): (r: seq<K>)
    ensures |r| == |s|
    ensures forall i :: 0 <= i < |s| ==> r[i] == key(s[i])
  {
    seq(|s|, i requires 0 <= i < |s| => key(s[i]))
  }

  /** The group keys of a GROUP BY: each key present in `s` once, in order of first
      appearance. */
  function GroupKeys<T, K(==)>(s: seq<T>, key: T -> K): (ks: seq<K>)
    ensures NoDups(ks)
    ensures forall i :: 0 <= i < |s| ==> key(s[i]) in ks
    ensures forall j :: 0 <= j < |ks| ==> |Where(s, key, ks[j])| > 0
  {
    var all := KeysOf(s, key);
    var ks := Distinct(all);
    assert forall i :: 0 <= i < |s| ==> key(s[i]) in ks by {
      forall i | 0 <= i < |s| ensures key(s[i]) in ks {
        assert all[i] == key(s[i]);
      }
    }
    assert forall j :: 0 <= j < |ks| ==> |Where(s, key, ks[j])| > 0 by {
      forall j | 0 <= j < |ks| ensures |Where(s, key, ks[j])| > 0 {
        var i :| 0 <= i < |all| && all[i] == ks[j];
        assert s[i] in Where(s, key, ks[j]);
      }
    }
    ks
  }

  /** Per-group totals laid out one per key add up to the grand total. */
  lemma GroupTotals<T, K, R>(s: seq<T>, key: T -> K, f: T -> int, ks: seq<K>, rows: seq<R>, total: R -> int)
    requires NoDups(ks)
    requires forall i :: 0 <= i < |s| ==> key(s[i]) in ks
    requires |rows| == |ks|
    requires forall j :: 0 <= j < |ks| ==> total(rows[j]) == SumOf(Where(s, key, ks[j]), f)
    ensures SumOf(rows, total) == SumOf(s, f)
  {
    GroupsPartitionSum(ks, s, key, f);
    RowsAreGroupSums(s, key, f, ks, rows, total);
  }

  lemma {:induction false} RowsAreGroupSums<T, K, R>(s: seq<T>, key: T -> K, f: T -> int, ks: seq<K>, rows: seq<R>, total: R -> int)
    requires |rows| == |ks|
    requires forall j :: 0 <= j < |ks| ==> total(rows[j]) == SumOf(Where(s, key, ks[j]), f)
    ensures SumOf(rows, total) == SumGroups(ks, s, key, f)
  {
    if |ks| > 0 {
      SumOfWhere(s, key, ks[0], f);
      RowsAreGroupSums(s, key, f, ks[1..], rows[1..], total);
    }
  }

  /** Two exclusive conditions that each imply a third are counted no more often
      than the third (approved plus pending requests never exceed all requests). */
  lemma {:induction false} CountOfDisjoint<T>(s: seq<T>, p: T -> bool, q: T -> bool, r: T -> bool)
    requires forall i :: 0 <= i < |s| ==> !(p(s[i]) && q(s[i]))
    requires forall i :: 0 <= i < |s| ==> (p(s[i]) || q(s[i]) ==> r(s[i]))
    ensures CountOf(s, p) + CountOf(s, q) <= CountOf(s, r)
  {
    if |s| > 0 {
      CountOfDisjoint(s[1..], p, q, r);
    }
  }

  /** Exclusive and exhaustive conditions split a sequence's length. */
  lemma {:induction false} CountOfPartition<T>(s: seq<T>, p: T -> bool, q: T -> bool, r: T -> bool)
    requires forall i :: 0 <= i < |s| ==>
      (p(s[i]) || q(s[i]) || r(s[i])) && !(p(s[i]) && q(s[i])) && !(p(s[i]) && r(s[i])) && !(q(s[i]) && r(s[i]))
    ensures CountOf(s, p) + CountOf(s, q) + CountOf(s, r) == |s|
  {
    if |s| > 0 {
      CountOfPartition(s[1..], p, q, r);
    }
  }

  /** A sum of pointwise differences is the difference of the sums. */
  lemma {:induction false} SumOfDifference<T>(s: seq<T>, f: T -> int, g: T -> int, h: T -> int)
    requires forall i :: 0 <= i < |s| ==> f(s[i]) == g(s[i]) - h(s[i])
    ensures SumOf(s, f) == SumOf(s, g) - SumOf(s, h)
  {
    if |s| > 0 {
      SumOfDifference(s[1..], f, g, h);
    }
  }

  /** Summing 1 per element counts the elements. */
  lemma {:induction false} SumOfOnes<T>(s: seq<T>, f: T -> int)
    requires forall i :: 0 <= i < |s| ==> f(s[i]) == 1
    ensures SumOf(s, f) == |s|
  {
    if |s| > 0 {
      SumOfOnes(s[1..], f);
    }
  }
}

=== FILE: sidebar.dfy ===
/** app/components/Sidebar.tsx: the navigation links each role sees, and which role the
    sidebar goes by before the signed-in user is known. */
module Sidebar {
  import opened Common
  import Text
  import Auth

  datatype NavItem = NavItem(name: string, href: string)

  const AnalyticsItem: NavItem := NavItem("Analytics", "/analytics")
  const DashboardItem: NavItem := NavItem("Dashboard", "/dashboard")
  const CreateItem: NavItem := NavItem("Create Requisition", "/requisition/create")
  const ViewItem: NavItem := NavItem("View Requisitions", "/requisitions")

  /** `getNavigationForRole`: roles are compared lower-cased; finance sees only the
      analytics, an employee also the create form, everyone else (heads of department,
      an empty or unknown role) the dashboard and the list. */
  function NavigationForRole(role: string): (nav: seq<NavItem>)
    ensures Text.ToLower(role) == "finance" ==> nav == [AnalyticsItem]
    ensures Text.ToLower(role) == "employee" ==> nav == [DashboardItem, CreateItem, ViewItem]
    ensures Text.ToLower(role) !in {"finance", "employee"} ==> nav == [DashboardItem, ViewItem]
  {
    var r := Text.ToLower(role);
    if r == "finance" then [AnalyticsItem]
    else if r == "employee" then [DashboardItem, CreateItem, ViewItem]
    else [DashboardItem, ViewItem]
  }

  /** The analytics link is shown exactly to finance, the create link exactly to
      employees, and every role gets at least one link. */
  lemma NavigationByRole(role: string)
    ensures AnalyticsItem in NavigationForRole(role) <==> Text.ToLower(role) == "finance"
    ensures CreateItem in NavigationForRole(role) <==> Text.ToLower(role) == "employee"
    ensures |NavigationForRole(role)| >= 1
  {
  }

  /** Heads of department get the base links, whatever the letter case. */
  lemma HodGetsBaseNavigation(role: string)
    requires Text.ToLower(role) == "hod"
    ensures NavigationForRole(role) == [DashboardItem, ViewItem]
  {
    assert Text.ToLower(role)[0] == 'h';
  }

  /** The role stored under 'userRole', as the sidebar's state holds it: '' until read,
      and '' when the key is missing or empty. */
  function StoredRole(storage: Auth.Storage): (r: string)
    ensures Truthy(storage.userRole) ==> r == storage.userRole.value
    ensures !Truthy(storage.userRole) ==> r == ""
  {
    if Truthy(storage.userRole) then storage.userRole.value else ""
  }

  /** `user?.role || userRole`: the signed-in user's role when it is non-empty, else the
      stored one. */
  function EffectiveRole(user: Option<Auth.User>, storedRole: string): (r: string)
    ensures user.Some? && user.value.role != "" ==> r == user.value.role
    ensures user.None? || user.value.role == "" ==> r == storedRole
  {
    if user.Some? && user.value.role != "" then user.value.role else storedRole
  }

  /** Right after a login the user's role and the stored role agree, so the sidebar shows
      the user's links whichever it goes by. */
  lemma LoginAgrees(s: Auth.Session, u: Auth.User)
    requires u.role != ""
    ensures var t := Auth.Login(s, u);
      NavigationForRole(EffectiveRole(t.user, StoredRole(t.storage))) == NavigationForRole(u.role)
      && NavigationForRole(EffectiveRole(None, StoredRole(t.storage))) == NavigationForRole(u.role)
  {
  }
}

=== FILE: software_cost.dfy ===
/** `getSoftwareCostAnalysis` in app/api/analytics/route.ts: every catalogue row
    left-joined with the requisitions naming it, grouped by (name, licence type, cost,
    currency) with request counts and approved cost; the same join grouped by licence
    type; and three insights over the first result. */
module SoftwareCost {
  import opened Common
  import opened Db
  import opened Joins
  import Seqs
  import Sorting
  import Numeric

  /** One row of `pg_softwares s LEFT JOIN pg_requisitions r ON s.software_name = r.software`. */
  datatype SwLine = SwLine(sw: Software, req: Option<Requisition>)

  /** The requisitions naming a catalogue row, in table order. */
  function RequestsFor(s: Software, rs: seq<Requisition>): (ms: seq<Requisition>)
    ensures forall i :: 0 <= i < |ms| ==> ms[i] in rs && NameMatch(ms[i], s)
    ensures forall i :: 0 <= i < |rs| && NameMatch(rs[i], s) ==> rs[i] in ms
    ensures |ms| == Seqs.CountOf(rs, (r: Requisition) => NameMatch(r, s))
  {
    if |rs| == 0 then []
    else
      assert Seqs.CountOf(rs, (r: Requisition) => NameMatch(r, s))
        == (if NameMatch(rs[0], s) then 1 else 0) + Seqs.CountOf(rs[1..], (r: Requisition) => NameMatch(r, s));
      (if NameMatch(rs[0], s) then [rs[0]] else []) + RequestsFor(s, rs[1..])
  }

  /** The join rows of one catalogue row: one per naming requisition, or a single row
      with NULL requisition columns when none names it. */
  function SwLinesOf(s: Software, rs: seq<Requisition>): (ls: seq<SwLine>)
    ensures |ls| > 0
    ensures forall i :: 0 <= i < |ls| ==> ls[i].sw == s
    ensures forall i :: 0 <= i < |ls| && ls[i].req.Some? ==> ls[i].req.value in rs && NameMatch(ls[i].req.value, s)
  {
    var side := LeftSide(RequestsFor(s, rs));
    seq(|side|, i requires 0 <= i < |side| => SwLine(s, side[i]))
  }

  /** The whole left join, catalogue row by catalogue row. */
  function SwLines(sws: seq<Software>, rs: seq<Requisition>): (ls: seq<SwLine>)
    ensures forall i :: 0 <= i < |ls| ==> ls[i].sw in sws
    ensures forall i :: 0 <= i < |sws| ==> exists j :: 0 <= j < |ls| && ls[j].sw == sws[i]
  {
    if |sws| == 0 then []
    else
      var first := SwLinesOf(sws[0], rs);
      var rest := SwLines(sws[1..], rs);
      AppendedCover(sws, first, rest);
      first + rest
  }

  /** The lines of the first catalogue row followed by those of the others cover the
      whole catalogue and nothing else. */
  lemma AppendedCover(sws: seq<Software>, first: seq<SwLine>, rest: seq<SwLine>)
    requires |sws| > 0 && |first| > 0
    requires forall i :: 0 <= i < |first| ==> first[i].sw == sws[0]
    requires forall i :: 0 <= i < |rest| ==> rest[i].sw in sws[1..]
    requires forall i :: 0 <= i < |sws[1..]| ==> exists j :: 0 <= j < |rest| && rest[j].sw == sws[1..][i]
    ensures forall i :: 0 <= i < |first + rest| ==> (first + rest)[i].sw in sws
    ensures forall i :: 0 <= i < |sws| ==> exists j :: 0 <= j < |first + rest| && (first + rest)[j].sw == sws[i]
  {
    var ls := first + rest;
    assert ls[0].sw == sws[0];
    forall i | 1 <= i < |sws| ensures exists j :: 0 <= j < |ls| && ls[j].sw == sws[i] {
      assert sws[i] == sws[1..][i - 1];
      var k :| 0 <= k < |rest| && rest[k].sw == sws[1..][i - 1];
      assert ls[|first| + k] == rest[k];
    }
  }

  /** `COUNT(r.id)`: the row joined a requisition (the id column is never NULL). */
  function HasRequest(l: SwLine): bool { l.req.Some? }

  /** `COUNT(CASE WHEN r.statusid = 2 THEN 1 END)`. */
  function IsApproved(l: SwLine): bool { l.req.Some? && l.req.value.statusId == Approved }

  /** `COUNT(CASE WHEN r.statusid = 1 THEN 1 END)`. */
  function IsPending(l: SwLine): bool { l.req.Some? && l.req.value.statusId == Pending }

  /** `CASE WHEN r.statusid = 2 THEN s.cost ELSE 0 END`. */
  function ApprovedCost(l: SwLine): int { if IsApproved(l) then l.sw.cost else 0 }

  function SwCost(l: SwLine): int { l.sw.cost }

  /** A catalogue row counts each requisition naming it exactly once. */
  lemma RequestCountOfOne(s: Software, rs: seq<Requisition>)
    ensures Seqs.CountOf(SwLinesOf(s, rs), HasRequest) == Seqs.CountOf(rs, (r: Requisition) => NameMatch(r, s))
  {
    var ms := RequestsFor(s, rs);
    var ls := SwLinesOf(s, rs);
    if |ms| == 0 {
      assert ls == [SwLine(s, None)];
      assert !HasRequest(ls[0]);
    } else {
      assert forall i :: 0 <= i < |ls| ==> HasRequest(ls[i]);
    }
  }

  // ----- per-software rows -----

  /** `GROUP BY s.software_name, s.license_type, s.cost, s.currencycode`. */
  datatype SwKey = SwKey(name: Option<string>, licenseType: Option<string>, cost: int, currency: string)

  function SwKeyOf(l: SwLine): SwKey {
    SwKey(l.sw.name, l.sw.licenseType, l.sw.cost, l.sw.currency)
  }

  datatype Row = Row(
    softwareName: Option<string>,
    licenseType: Option<string>,
    cost: int,                    // paise
    currency: string,
    requestCount: nat,
    approvedCount: nat,
    pendingCount: nat,
    totalApprovedCost: int)       // paise

  function RowOf(k: SwKey, g: seq<SwLine>): Row {
    Row(k.name, k.licenseType, k.cost, k.currency,
        Seqs.CountOf(g, HasRequest), Seqs.CountOf(g, IsApproved), Seqs.CountOf(g, IsPending),
        Seqs.SumOf(g, ApprovedCost))
  }

  function RowKey(r: Row): Sorting.Key { Sorting.Key(r.totalApprovedCost, 0) }
  function RowApprovedCost(r: Row): int { r.totalApprovedCost }

  /** What every software row satisfies: approved and pending requests are among the
      requests, and the approved cost is the unit cost once per approval. */
  ghost predicate WellFormed(r: Row) {
    && r.approvedCount + r.pendingCount <= r.requestCount
    && r.totalApprovedCost == r.cost * r.approvedCount
  }

  /** In a group that shares one unit cost, the approved cost is that cost times the
      number of approvals. */
  lemma {:induction false} ApprovedCostOfGroup(g: seq<SwLine>, c: int)
    requires forall i :: 0 <= i < |g| ==> g[i].sw.cost == c
    ensures Seqs.SumOf(g, ApprovedCost) == c * Seqs.CountOf(g, IsApproved)
  {
    if |g| > 0 {
      ApprovedCostOfGroup(g[1..], c);
      var n := Seqs.CountOf(g[1..], IsApproved);
      if IsApproved(g[0]) {
        assert c * (1 + n) == c + c * n;
      }
    }
  }

  lemma RowOfWellFormed(k: SwKey, g: seq<SwLine>)
    requires forall i :: 0 <= i < |g| ==> SwKeyOf(g[i]) == k
    ensures WellFormed(RowOf(k, g))
  {
    Seqs.CountOfDisjoint(g, IsApproved, IsPending, HasRequest);
    ApprovedCostOfGroup(g, k.cost);
  }

  function GroupRows(ls: seq<SwLine>, ks: seq<SwKey>): (rows: seq<Row>)
    ensures |rows| == |ks|
    ensures forall j :: 0 <= j < |ks| ==> rows[j] == RowOf(ks[j], Seqs.Where(ls, SwKeyOf, ks[j]))
    ensures forall j :: 0 <= j < |ks| ==> WellFormed(rows[j])
  {
    var rows := seq(|ks|, j requires 0 <= j < |ks| => RowOf(ks[j], Seqs.Where(ls, SwKeyOf, ks[j])));
    assert forall j :: 0 <= j < |ks| ==> WellFormed(rows[j]) by {
      forall j | 0 <= j < |ks| ensures WellFormed(rows[j]) {
        RowOfWellFormed(ks[j], Seqs.Where(ls, SwKeyOf, ks[j]));
      }
    }
    rows
  }

  function RowIdentity(r: Row): SwKey {
    SwKey(r.softwareName, r.licenseType, r.cost, r.currency)
  }

  /** The software rows, ordered by approved cost: one per distinct catalogue key,
      every catalogue row represented, and the approved costs adding up to the
      approved cost over the whole join. */
  function SoftwareRows(st: Store): (rows: seq<Row>)
    ensures forall i :: 0 <= i < |rows| ==> WellFormed(rows[i])
    ensures Sorting.SortedDesc(rows, RowKey)
    ensures forall s :: s in st.softwares ==>
      exists i :: 0 <= i < |rows| && RowIdentity(rows[i]) == SwKey(s.name, s.licenseType, s.cost, s.currency)
    ensures Seqs.SumOf(rows, RowApprovedCost) == Seqs.SumOf(SwLines(st.softwares, st.requisitions), ApprovedCost)
    ensures multiset(rows)
         == multiset(GroupRows(SwLines(st.softwares, st.requisitions), Seqs.GroupKeys(SwLines(st.softwares, st.requisitions), SwKeyOf)))
  {
    var ls := SwLines(st.softwares, st.requisitions);
    var ks := Seqs.GroupKeys(ls, SwKeyOf);
    var unsorted := GroupRows(ls, ks);
    var rows := Sorting.SortDesc(unsorted, RowKey);
    Sorting.PermutationKeeps(rows, unsorted, WellFormed);
    Seqs.GroupTotals(ls, SwKeyOf, ApprovedCost, ks, unsorted, RowApprovedCost);
    Seqs.SumOfPermutation(rows, unsorted, RowApprovedCost);
    CatalogueCovered(st.softwares, ls, ks, unsorted, rows);
    rows
  }

  lemma CatalogueCovered(sws: seq<Software>, ls: seq<SwLine>, ks: seq<SwKey>, unsorted: seq<Row>, rows: seq<Row>)
    requires forall i :: 0 <= i < |sws| ==> exists j :: 0 <= j < |ls| && ls[j].sw == sws[i]
    requires forall i :: 0 <= i < |ls| ==> SwKeyOf(ls[i]) in ks
    requires |unsorted| == |ks|
    requires forall j :: 0 <= j < |ks| ==> RowIdentity(unsorted[j]) == ks[j]
    requires multiset(rows) == multiset(unsorted)
    ensures forall s :: s in sws ==>
      exists i :: 0 <= i < |rows| && RowIdentity(rows[i]) == SwKey(s.name, s.licenseType, s.cost, s.currency)
  {
    forall s | s in sws
      ensures exists i :: 0 <= i < |rows| && RowIdentity(rows[i]) == SwKey(s.name, s.licenseType, s.cost, s.currency)
    {
      var a :| 0 <= a < |sws| && sws[a] == s;
      var b :| 0 <= b < |ls| && ls[b].sw == sws[a];
      var j :| 0 <= j < |ks| && ks[j] == SwKeyOf(ls[b]);
      assert unsorted[j] in multiset(rows);
      var i :| 0 <= i < |rows| && rows[i] == unsorted[j];
    }
  }

  // ----- per-category rows -----

  function CategoryOf(l: SwLine): Option<string> { l.sw.licenseType }

  datatype CategoryRow = CategoryRow(
    category: Option<string>,
    requestCount: nat,
    approvedCount: nat,
    totalCost: int,               // paise
    averageCost: real)            // AVG(s.cost) over the join rows, paise

  function CategoryRowOf(c: Option<string>, g: seq<SwLine>): CategoryRow {
    CategoryRow(c, Seqs.CountOf(g, HasRequest), Seqs.CountOf(g, IsApproved),
                Seqs.SumOf(g, ApprovedCost), Numeric.Average(Seqs.SumOf(g, SwCost), |g|))
  }

  function CategoryKey(r: CategoryRow): Sorting.Key { Sorting.Key(r.totalCost, 0) }
  function CategoryTotal(r: CategoryRow): int { r.totalCost }

  /** What every category row satisfies: its approvals are among its requests. */
  ghost predicate CategoryOk(r: CategoryRow) {
    r.approvedCount <= r.requestCount
  }

  lemma CategoryRowOk(c: Option<string>, g: seq<SwLine>)
    ensures CategoryOk(CategoryRowOf(c, g))
  {
    Seqs.CountOfDisjoint(g, IsApproved, IsPending, HasRequest);
  }

  function CategoryGroupRows(ls: seq<SwLine>, cs: seq<Option<string>>): (rows: seq<CategoryRow>)
    ensures |rows| == |cs|
    ensures forall j :: 0 <= j < |cs| ==> rows[j] == CategoryRowOf(cs[j], Seqs.Where(ls, CategoryOf, cs[j]))
    ensures forall j :: 0 <= j < |cs| ==> CategoryOk(rows[j])
  {
    var rows := seq(|cs|, j requires 0 <= j < |cs| => CategoryRowOf(cs[j], Seqs.Where(ls, CategoryOf, cs[j])));
    assert forall j :: 0 <= j < |cs| ==> CategoryOk(rows[j]) by {
      forall j | 0 <= j < |cs| ensures CategoryOk(rows[j]) {
        CategoryRowOk(cs[j], Seqs.Where(ls, CategoryOf, cs[j]));
      }
    }
    rows
  }

  /** The licence-type rows, ordered by approved cost; their approved costs add up to
      the same total as the software rows'. */
  function CategoryRows(st: Store): (rows: seq<CategoryRow>)
    ensures Sorting.SortedDesc(rows, CategoryKey)
    ensures forall i :: 0 <= i < |rows| ==> CategoryOk(rows[i])
    ensures Seqs.SumOf(rows, CategoryTotal) == Seqs.SumOf(SwLines(st.softwares, st.requisitions), ApprovedCost)
    ensures forall s :: s in st.softwares ==> exists i :: 0 <= i < |rows| && rows[i].category == s.licenseType
    ensures multiset(rows)
         == multiset(CategoryGroupRows(SwLines(st.softwares, st.requisitions),
                                       Seqs.GroupKeys(SwLines(st.softwares, st.requisitions), CategoryOf)))
  {
    var ls := SwLines(st.softwares, st.requisitions);
    var cs := Seqs.GroupKeys(ls, CategoryOf);
    var unsorted := CategoryGroupRows(ls, cs);
    var rows := Sorting.SortDesc(unsorted, CategoryKey);
    SortedCategoriesOk(rows, unsorted);
    Seqs.GroupTotals(ls, CategoryOf, ApprovedCost, cs, unsorted, CategoryTotal);
    Seqs.SumOfPermutation(rows, unsorted, CategoryTotal);
    CategoriesCovered(st.softwares, ls, cs, unsorted, rows);
    rows
  }

  lemma SortedCategoriesOk(rows: seq<CategoryRow>, unsorted: seq<CategoryRow>)
    requires multiset(rows) == multiset(unsorted)
    requires forall j :: 0 <= j < |unsorted| ==> CategoryOk(unsorted[j])
    ensures forall i :: 0 <= i < |rows| ==> CategoryOk(rows[i])
  {
    Sorting.SameElements(rows, unsorted);
  }

  lemma CategoriesCovered(sws: seq<Software>, ls: seq<SwLine>, cs: seq<Option<string>>,
                          unsorted: seq<CategoryRow>, rows: seq<CategoryRow>)
    requires forall i :: 0 <= i < |sws| ==> exists j :: 0 <= j < |ls| && ls[j].sw == sws[i]
    requires forall i :: 0 <= i < |ls| ==> CategoryOf(ls[i]) in cs
    requires |unsorted| == |cs|
    requires forall j :: 0 <= j < |cs| ==> unsorted[j].category == cs[j]
    requires multiset(rows) == multiset(unsorted)
    ensures forall s :: s in sws ==> exists i :: 0 <= i < |rows| && rows[i].category == s.licenseType
  {
    forall s | s in sws ensures exists i :: 0 <= i < |rows| && rows[i].category == s.licenseType {
      var a :| 0 <= a < |sws| && sws[a] == s;
      var b :| 0 <= b < |ls| && ls[b].sw == sws[a];
      var j :| 0 <= j < |cs| && cs[j] == CategoryOf(ls[b]);
      assert unsorted[j] in multiset(rows);
      var i :| 0 <= i < |rows| && rows[i] == unsorted[j];
    }
  }

  /** A category's average cost is its join rows' mean unit cost: a catalogue row
      named by n > 0 requisitions weighs n, one named by none weighs 1. */
  lemma CategoryAverage(c: Option<string>, g: seq<SwLine>)
    requires |g| > 0
    ensures Numeric.IsAverage(CategoryRowOf(c, g).averageCost, Seqs.SumOf(g, SwCost), |g|)
  {
  }

  // ----- the response -----

  datatype Insights = Insights(
    mostExpensiveSoftware: Option<Row>,   // `result.rows[0]`, undefined for no rows
    totalUniqueSoftware: nat,
    totalCostApproved: int)               // paise

  datatype Report = Report(softwareDetails: seq<Row>, categoryBreakdown: seq<CategoryRow>, insights: Insights)

  function InsightsOf(rows: seq<Row>): (ins: Insights)
    requires Sorting.SortedDesc(rows, RowKey)
    ensures ins.totalUniqueSoftware == |rows|
    ensures ins.mostExpensiveSoftware.None? <==> |rows| == 0
    ensures ins.mostExpensiveSoftware.Some? ==>
      ins.mostExpensiveSoftware.value in rows &&
      forall i :: 0 <= i < |rows| ==> rows[i].totalApprovedCost <= ins.mostExpensiveSoftware.value.totalApprovedCost
    ensures ins.totalCostApproved == Seqs.SumOf(rows, RowApprovedCost)
  {
    if |rows| == 0 then Insights(None, 0, 0)
    else
      FirstIsLargest(rows);
      Insights(Some(rows[0]), |rows|, Seqs.SumOf(rows, RowApprovedCost))
  }

  lemma FirstIsLargest(rows: seq<Row>)
    requires |rows| > 0 && Sorting.SortedDesc(rows, RowKey)
    ensures forall i :: 0 <= i < |rows| ==> rows[i].totalApprovedCost <= rows[0].totalApprovedCost
  {
    forall i | 0 < i < |rows| ensures rows[i].totalApprovedCost <= rows[0].totalApprovedCost {
      assert Sorting.KeyGeq(RowKey(rows[0]), RowKey(rows[i]));
    }
  }

  /** The report. The insight's approved total equals the category breakdown's: both
      partition the same join. */
  function SoftwareCost(st: Store): (r: Report)
    ensures r.softwareDetails == SoftwareRows(st)
    ensures r.categoryBreakdown == CategoryRows(st)
    ensures r.insights == InsightsOf(r.softwareDetails)
    ensures r.insights.totalCostApproved == Seqs.SumOf(r.categoryBreakdown, CategoryTotal)
  {
    var rows := SoftwareRows(st);
    Report(rows, CategoryRows(st), InsightsOf(rows))
  }
}

=== FILE: sorting.dfy ===
/** ORDER BY ... DESC over report rows. SQL leaves the order of equal keys
    unspecified; the model picks one (a stable insertion sort keeps ties in
    their input order), and the contracts promise only what ORDER BY promises:
    the rows are a permutation of the input, ordered by key. */
module Sorting {

  /** A two-column sort key compared lexicographically: `major` first, then `minor`
      (ORDER BY month DESC, spending DESC). Single-column sorts leave `minor` at 0. */
  datatype Key = Key(major: int, minor: int)

  predicate KeyGeq(a: Key, b: Key) {
    a.major > b.major || (a.major == b.major && a.minor >= b.minor)
  }

  /** Every row's key is at least that of any later row. */
  ghost predicate SortedDesc<T>(s: seq<T>, key: T -> Key) {
    forall i, j :: 0 <= i < j < |s| ==> KeyGeq(key(s[i]), key(s[j]))
  }

  function InsertDesc<T>(x: T, s: seq<T>, key: T -> Key): (r: seq<T>)
    requires SortedDesc(s, key)
    ensures SortedDesc(r, key)
    ensures multiset(r) == multiset(s) + multiset{x}
    ensures |r| == |s| + 1
  {
    if |s| == 0 then [x]
    else if KeyGeq(key(x), key(s[0])) then [x] + s
    else
      var rest := InsertDesc(x, s[1..], key);
      assert s == [s[0]] + s[1..];
      assert forall i :: 0 <= i < |rest| ==> KeyGeq(key(s[0]), key(rest[i])) by {
        forall i | 0 <= i < |rest|
          ensures KeyGeq(key(s[0]), key(rest[i]))
        {
          assert rest[i] in multiset(rest);
          assert rest[i] == x || rest[i] in multiset(s[1..]);
        }
      }
      [s[0]] + rest
  }

  /** The rows of `s` ordered by `key`, largest first. */
  function SortDesc<T>(s: seq<T>, key: T -> Key): (r: seq<T>)
    ensures SortedDesc(r, key)
    ensures multiset(r) == multiset(s)
    ensures |r| == |s|
  {
    if |s| == 0 then []
    else
      assert s == [s[0]] + s[1..];
      InsertDesc(s[0], SortDesc(s[1..], key), key)
  }

  /** A property every element of a sequence has, each of its permutations' elements has. */
  lemma PermutationKeeps<T>(a: seq<T>, b: seq<T>, p: T -> bool)
    requires multiset(a) == multiset(b)
    requires forall j :: 0 <= j < |b| ==> p(b[j])
    ensures forall i :: 0 <= i < |a| ==> p(a[i])
  {
    SameElements(a, b);
  }

  /** A permutation has the same elements. */
  lemma SameElements<T>(a: seq<T>, b: seq<T>)
    requires multiset(a) == multiset(b)
    ensures forall i :: 0 <= i < |a| ==> a[i] in b
    ensures forall i :: 0 <= i < |b| ==> b[i] in a
  {
    forall i | 0 <= i < |a| ensures a[i] in b {
      assert a[i] in multiset(a);
    }
    forall i | 0 <= i < |b| ensures b[i] in a {
      assert b[i] in multiset(b);
    }
  }
}

=== FILE: text.dfy ===
/** The string operations the application uses: `trim`, `toLowerCase`, `includes`,
    the regular-expression class `\s`, and `String(n)` for a natural number. */
module Text {

  /** The characters JavaScript's `trim` removes and its regular-expression class `\s`
      matches (both are WhiteSpace plus LineTerminator in the ECMAScript standard). */
  predicate IsSpace(c: char) {
    var n := c as int;
    (9 <= n <= 13) || n == 0x20 || n == 0xA0 || n == 0x1680 || (0x2000 <= n <= 0x200A)
    || n == 0x2028 || n == 0x2029 || n == 0x202F || n == 0x205F || n == 0x3000 || n == 0xFEFF
  }

  predicate AllSpace(s: string) {
    forall i :: 0 <= i < |s| ==> IsSpace(s[i])
  }

  /** `s` without its leading white space. */
  function TrimStart(s: string): (r: string)
    ensures |r| <= |s| && r == s[|s| - |r|..]
    ensures |r| > 0 ==> !IsSpace(r[0])
    ensures forall i :: 0 <= i < |s| - |r| ==> IsSpace(s[i])
  {
    if |s| > 0 && IsSpace(s[0]) then TrimStart(s[1..]) else s
  }

  /** `s` without its trailing white space. */
  function TrimEnd(s: string): (r: string)
    ensures |r| <= |s| && r == s[..|r|]
    ensures |r| > 0 ==> !IsSpace(r[|r| - 1])
    ensures forall i :: |r| <= i < |s| ==> IsSpace(s[i])
  {
    if |s| > 0 && IsSpace(s[|s| - 1]) then TrimEnd(s[..|s| - 1]) else s
  }

  /** String.prototype.trim: a slice of `s` that neither starts nor ends with white
      space and is empty exactly when `s` is all white space. */
  function Trim(s: string): (r: string)
    ensures |r| <= |s|
    ensures |r| > 0 ==> !IsSpace(r[0]) && !IsSpace(r[|r| - 1])
    ensures r == "" <==> AllSpace(s)
  {
    TrimEnd(TrimStart(s))
  }

  /** ASCII upper case to lower case; every other character is unchanged. */
  function LowerChar(c: char): (d: char)
    ensures 'A' <= c <= 'Z' ==> d as int == c as int + 32
    ensures !('A' <= c <= 'Z') ==> d == c
  {
    if 'A' <= c <= 'Z' then (c as int + 32) as char else c
  }

  /** String.prototype.toLowerCase on the ASCII letters. */
  function ToLower(s: string): (r: string)
    ensures |r| == |s|
    ensures forall i :: 0 <= i < |s| ==> r[i] == LowerChar(s[i])
  {
    seq(|s|, i requires 0 <= i < |s| => LowerChar(s[i]))
  }

  /** `s.includes(sub)`: `sub` occurs somewhere in `s`. */
  function Contains(s: string, sub: string): (b: bool)
    ensures b ==> |sub| <= |s|
    ensures sub == "" ==> b
    decreases |s|
  {
    sub <= s || (|s| > 0 && Contains(s[1..], sub))
  }

  /** `sub` occurs in `s` starting at offset `i`. */
  predicate OccursAt(s: string, sub: string, i: int) {
    0 <= i <= |s| - |sub| && s[i..i + |sub|] == sub
  }

  /** Contains is an occurrence at some offset. */
  lemma ContainsAt(s: string, sub: string)
    ensures Contains(s, sub) <==> exists i :: OccursAt(s, sub, i)
  {
    if Contains(s, sub) {
      ContainsHasOccurrence(s, sub);
    }
    if exists i :: OccursAt(s, sub, i) {
      var i :| OccursAt(s, sub, i);
      OccurrenceIsContained(s, sub, i);
    }
  }

  lemma {:induction false} ContainsHasOccurrence(s: string, sub: string)
    requires Contains(s, sub)
    ensures exists i :: OccursAt(s, sub, i)
    decreases |s|
  {
    if sub <= s {
      assert OccursAt(s, sub, 0);
    } else {
      ContainsHasOccurrence(s[1..], sub);
      var i :| OccursAt(s[1..], sub, i);
      assert s[i + 1..i + 1 + |sub|] == s[1..][i..i + |sub|];
      assert OccursAt(s, sub, i + 1);
    }
  }

  lemma {:induction false} OccurrenceIsContained(s: string, sub: string, i: int)
    requires OccursAt(s, sub, i)
    ensures Contains(s, sub)
    decreases i
  {
    if i == 0 {
      assert s[..|sub|] == sub;
    } else {
      assert s[1..][i - 1..i - 1 + |sub|] == s[i..i + |sub|];
      OccurrenceIsContained(s[1..], sub, i - 1);
    }
  }

  predicate IsDigit(c: char) {
    '0' <= c <= '9'
  }

  /** `String(n)` for a natural number: its decimal digits, no leading zero. */
  function NatToString(n: nat): (r: string)
    ensures |r| >= 1
    ensures forall i :: 0 <= i < |r| ==> IsDigit(r[i])
    ensures |r| > 1 ==> r[0] != '0'
  {
    if n < 10 then [('0' as int + n) as char]
    else NatToString(n / 10) + [('0' as int + n % 10) as char]
  }

  /** The value of a string of decimal digits. */
  function ParseDigits(s: string): nat
    requires forall i :: 0 <= i < |s| ==> IsDigit(s[i])
  {
    if |s| == 0 then 0
    else
      var d := s[|s| - 1];
      assert IsDigit(d);
      ParseDigits(s[..|s| - 1]) * 10 + (d as int - '0' as int)
  }

  /** Reading back the decimal string gives the number. */
  lemma {:induction false} ParseNatToString(n: nat)
    ensures ParseDigits(NatToString(n)) == n
  {
    if n >= 10 {
      var r := NatToString(n);
      assert r[..|r| - 1] == NatToString(n / 10);
      ParseNatToString(n / 10);
    }
  }

  /** Different numbers have different decimal strings. */
  lemma NatToStringInjective(a: nat, b: nat)
    requires NatToString(a) == NatToString(b)
    ensures a == b
  {
    ParseNatToString(a);
    ParseNatToString(b);
  }
}
